=== FILE: README.md ===
# DynMEP scripts, modelled in Dafny

DynMEP is a set of Revit/Dynamo Python scripts for electrical design. Most of
each script talks to the Revit host: it collects elements, reads parameters,
places family instances and writes logs and CSV files. Inside the scripts sit
small deterministic algorithms, and this project models those as pure Dafny
functions over immutable datatypes. Everything the host supplies is an input:

- parameter values;
- wall location lines;
- face normals and edges;
- room bounding boxes and boundary curves;
- the point-in-room and near-wall tests;
- the square root of a room's area per fixture.

Lengths are exact reals. Rounding for display is left out.

The modules follow the scripts:

| module | script | what it models |
|---|---|---|
| `WallGrouping` | `Receptacle_Placement_Revit.py` | `are_walls_connected`; `group_walls` as a method with its loops and proved invariants |
| `ReceptaclePlacement` | `Receptacle_Placement_Revit.py` | the face/edge selector; the target distances of `place_on_group` and the walk that puts each one on a wall; the main loop's per-side result lines |
| `CircuitSort` | `Panel_Schedule_Generator_Dynamo.py` | `circuit_sort_key` and the order on its keys |
| `PanelSchedule` | `Panel_Schedule_Generator_Dynamo.py` | per-circuit voltage, kVA, current, continuous derating and warnings; the rows of each panel; the stably sorted schedule |
| `LightingSettings` | `Automate_Lighting_Fixture_Placement.py` | `validate_wattage`; target fixture count and grid spacing; upper limit and elevation of the fixture plane; the ceiling selection loop |
| `LightingPoints` | `Automate_Lighting_Fixture_Placement.py` | `check_clearance`; the lattice sweep; boundary sampling; the greedy anti-clustering screen; `calculate_grid_points` with its error results |
| `ConduitTakeoff` | `Conduit_Length_Calculator_Dynamo.py` | per-conduit records with defaults; the running total; the summary by (type, size); the CSV rows |
| `LoadEstimator` | `Electrical_Load_Estimator_Dynamo.py` | `format_table_row`; per-element records; the load total; the text table and the CSV rows |

Shared modules:

- `Wrappers`: `Option` and `Result`.
- `Seqs`: small sequence identities.
- `Text`: Python string comparison, `ljust`, `join`, `lower`, `in`, `int()` parsing and `str()` of integers.
- `Sorting`: Python's stable `sorted` with a key, as an insertion sort.
- `Geometry`: points, dot products and squared distances.

Distances are compared squared, so no square root is needed. "Closer than d" is `SqDist(p, q) < d * d`, which is exact for d >= 0.

The 10-degree angle test between two unit wall directions is modelled as `dot > cos(10°)`. The constant `CosAngleTolerance` holds cos(10°) to 15 decimals.

## Model

| member | source | states |
|---|---|---|
| WallGrouping.AreWallsConnected | scripts/Receptacle_Placement_Revit.py:71-78 | The join test itself: both location lines present, one of the four end-point distances below 0.5 ft, and the angle between the directions below 10 degrees; `ConnectedIffEndsMeet` states it as a contract |
| WallGrouping.ConnectedIffEndsMeet | scripts/Receptacle_Placement_Revit.py:71-78 | `are_walls_connected`: two walls are joined exactly when both have a location line, some end point of one lies closer than 0.5 ft to some end point of the other, and their directions are less than 10 degrees apart |
| WallGrouping.ConnectedSymmetric | scripts/Receptacle_Placement_Revit.py:71-78 | Whether two walls are joined does not depend on the order of the arguments: the end-point test and the angle test are both symmetric |
| WallGrouping.ConnectionNeedsAlignedLines | scripts/Receptacle_Placement_Revit.py:61-78 | A wall without a location line is joined to nothing; two joined walls run within 10 degrees of each other, so anti-parallel walls are never joined |
| WallGrouping.Absorb | scripts/Receptacle_Placement_Revit.py:91-95 | One scan of all walls from the current wall: the group and the stack only grow; every wall joined to the current one is visited afterwards; newly added walls are new to the visited set and joined to a group member |
| WallGrouping.GrowGroup | scripts/Receptacle_Placement_Revit.py:86-95 | The group grown from one seed starts with the seed, holds distinct unvisited walls each joined to an earlier member, and leaves no wall joined to a member unvisited |
| WallGrouping.GroupWalls | scripts/Receptacle_Placement_Revit.py:80-97 | `group_walls` partitions the input by Id: every Id appears in exactly one group and none twice; each group's walls come from the input and each non-seed wall is joined to an earlier member; each group is closed under joining; each group's seed is the first wall not in an earlier group |
| WallGrouping.GroupIdsDisjoint | scripts/Receptacle_Placement_Revit.py:84-87 | Because no Id repeats across the flattened groups, the Id sets of any two different groups are disjoint |
| WallGrouping.GroupsAreComponents | scripts/Receptacle_Placement_Revit.py:88-95 | When Ids identify walls, any input wall joined to a member of a group is itself in that group, so a group is a whole connected component |
| WallGrouping.MemberClosed | scripts/Receptacle_Placement_Revit.py:88-95 | The single-member form of the closure: an input wall joined to member m of group gi is in group gi |
| WallGrouping.SeedsAscend | scripts/Receptacle_Placement_Revit.py:83-87 | Groups come out in seed order: a later group's seed is later in the input than an earlier group's seed |
| ReceptaclePlacement.Setting | scripts/Receptacle_Placement_Revit.py:46-47 | A missing or zero input takes the default, and a non-zero input is kept as it is; so with a non-zero default the setting is never zero |
| ReceptaclePlacement.SettingIsStable | scripts/Receptacle_Placement_Revit.py:46-47 | Reading a settled value back in as the input gives the same value |
| ReceptaclePlacement.Longest | scripts/Receptacle_Placement_Revit.py:109-124 | The scan over the first n edges keeps a qualifying edge at least as long as every other qualifying edge and longer than every earlier one; with no qualifying edge of positive length it keeps none |
| ReceptaclePlacement.LongestIsFirstMaximum | scripts/Receptacle_Placement_Revit.py:119-124 | Because the comparison is strict, the first of several longest qualifying edges is the one chosen |
| ReceptaclePlacement.SelectEdge | scripts/Receptacle_Placement_Revit.py:99-125 | The selector returns nothing exactly when no straight, level edge of positive length lies on a face turned towards the orientation; otherwise it returns such an edge, and no qualifying edge is longer |
| ReceptaclePlacement.FaceServesOneSide | scripts/Receptacle_Placement_Revit.py:114-115 | A face that qualifies for an orientation does not qualify for the opposite one, so the exterior and interior sides never share a face |
| ReceptaclePlacement.Targets | scripts/Receptacle_Placement_Revit.py:145-146 | The target list is start + i·spacing for i = 0 .. floor((usable − start)/spacing): count + 1 values, and a value is on the list exactly when it does not pass the usable length; a negative spacing gives no targets |
| ReceptaclePlacement.FloorBound | scripts/Receptacle_Placement_Revit.py:145-146 | For a positive spacing, i is at most floor((usable − start)/spacing) exactly when target i is within the usable length |
| ReceptaclePlacement.TargetStep | scripts/Receptacle_Placement_Revit.py:146 | For a positive spacing, later targets are strictly farther along |
| ReceptaclePlacement.TargetsIncrease | scripts/Receptacle_Placement_Revit.py:145-146 | For a positive spacing, the target list is strictly increasing |
| ReceptaclePlacement.Mount | scripts/Receptacle_Placement_Revit.py:158-159 | A receptacle point is the span's start moved `offset` along its direction, raised by 0.15 |
| ReceptaclePlacement.CountUpTo | scripts/Receptacle_Placement_Revit.py:156 | The inner `while` pops exactly the leading targets within the span's end: all of them are within it, and the next one, if any, is beyond it |
| ReceptaclePlacement.Here | scripts/Receptacle_Placement_Revit.py:156-161 | The receptacles put on one span carry the popped targets in order; each sits on that span at offset target − covered, within the span's end, at the mounted point |
| ReceptaclePlacement.BeforeIsTotal | scripts/Receptacle_Placement_Revit.py:149-162 | `dist_covered` before span n is the total length of the spans before it |
| ReceptaclePlacement.Walk | scripts/Receptacle_Placement_Revit.py:151-162 | The walk's placed targets, followed by the targets left over, are exactly the target list. Each receptacle is on a span covering its target, in span order. For increasing targets, each one is on the first span whose end reaches it. Targets within the run's length are all consumed |
| ReceptaclePlacement.OffsetsWithinSpans | scripts/Receptacle_Placement_Revit.py:156-157 | A local offset is never more than its span's length, and on every span after the first it is positive |
| ReceptaclePlacement.TotalOfPermutation | scripts/Receptacle_Placement_Revit.py:136 | Reordering the spans does not change their total length, so sorting by start X keeps `total_len` |
| ReceptaclePlacement.SpanOf | scripts/Receptacle_Placement_Revit.py:134-138 | A wall contributes a span exactly when the selector finds an edge for it; that span is the selected edge of the wall: its start point, its direction and its positive length |
| ReceptaclePlacement.Spans | scripts/Receptacle_Placement_Revit.py:133-138 | A run has no spans exactly when no wall of it has a selected edge; every span has positive length; `SpansAppend` and `SpansSingle` fix which spans appear and their run order |
| ReceptaclePlacement.SpansAppend | scripts/Receptacle_Placement_Revit.py:133-138 | The spans of two runs laid one after the other are the spans of each, in order |
| ReceptaclePlacement.SpansSingle | scripts/Receptacle_Placement_Revit.py:134-138 | A single wall contributes exactly its selected edge's span, or nothing |
| ReceptaclePlacement.ByStartX | scripts/Receptacle_Placement_Revit.py:151 | The sorted spans are a permutation of the run's spans, in ascending start X, with the same total length; spans with equal start X keep their run order, as the stable `sorted` does |
| ReceptaclePlacement.WalkStaysOnRun | scripts/Receptacle_Placement_Revit.py:151-161 | Every receptacle the walk over the sorted spans places is on a span of the run, within its length, at the mounted point |
| ReceptaclePlacement.WalkAscendsInX | scripts/Receptacle_Placement_Revit.py:151 | The walk places receptacles in ascending start X of their spans |
| ReceptaclePlacement.WalkConsumesTargets | scripts/Receptacle_Placement_Revit.py:140-162 | When the usable length exceeds the start offset and the run has a span, every target is within the run's total, so the walk places all count + 1 targets |
| ReceptaclePlacement.PlaceOnGroup | scripts/Receptacle_Placement_Revit.py:127-167 | `place_on_group` returns nothing when usable = total − 2·0.167 does not exceed the start offset, or when the spacing is zero (the division raises and the handler returns []). Otherwise it places exactly the target list in order, each receptacle on a selected span of the run at the mounted point, in ascending start X. Each receptacle sits on the first span, in start-X order, whose end reaches its target, at the target's distance past the spans before that one |
| ReceptaclePlacement.WalkLandsOnFirstCovering | scripts/Receptacle_Placement_Revit.py:149-162 | For any non-zero spacing, each target lands on the first sorted span whose end reaches it, at offset target − `dist_covered` |
| ReceptaclePlacement.BeforeNonNegative | scripts/Receptacle_Placement_Revit.py:149-162 | `dist_covered` is never negative, since span lengths are positive |
| ReceptaclePlacement.SideCounts | scripts/Receptacle_Placement_Revit.py:178-181 | One pair of counts per run: the number of receptacles `place_on_group` placed with the first wall's orientation, then the number placed with its negation |
| ReceptaclePlacement.Lines | scripts/Receptacle_Placement_Revit.py:183-186 | A run's result lines: one line per side with a positive count, carrying that count, the exterior line before the interior one |
| ReceptaclePlacement.Tallies | scripts/Receptacle_Placement_Revit.py:183-186 | A run's side appears among the result lines, with its count, exactly when that side got at least one receptacle: every line carries a positive count of some run's side, and every positive count gives a line. Order and multiplicity are stated by `TalliesAppend` and `Lines` |
| ReceptaclePlacement.TalliesAppend | scripts/Receptacle_Placement_Revit.py:178-186 | The result lines of several runs are each run's lines, run after run, in run order |
| ReceptaclePlacement.TalliesSnoc | scripts/Receptacle_Placement_Revit.py:178-186 | One more run adds exactly its own lines after those of the runs before it |
| ReceptaclePlacement.ReportSpacingIsNonZero | scripts/Receptacle_Placement_Revit.py:46-47 | The spacing the main loop passes on is never zero, because a zero input takes the default 12 |
| CircuitSort.CircuitSortKey | scripts/Panel_Schedule_Generator_Dynamo.py:51-62 | None keys as (1, ""); an integer literal keys on its value in bucket 0; otherwise a value with leading digits keys on them in bucket 0; the key is numeric exactly when the value parses or starts with a digit; any other value keys as its own text in bucket 1 |
| CircuitSort.KeyExamples | scripts/Panel_Schedule_Generator_Dynamo.py:55-62 | "12A" keys like circuit 12; "-3" keys as −3; "A1" keys as text |
| CircuitSort.NumbersFirstThenNone | scripts/Panel_Schedule_Generator_Dynamo.py:53-62 | Every numeric key sorts before every textual key, and a missing circuit number sorts before every other textual key |
| CircuitSort.KeyLessIsTotal | scripts/Panel_Schedule_Generator_Dynamo.py:148 | Tuple order on circuit keys is a strict total order |
| PanelSchedule.Voltage | scripts/Panel_Schedule_Generator_Dynamo.py:116-119 | Raw values of 600 and above are decivolts and are divided by 10; the voltage exceeds 600 exactly when the raw value exceeds 6000 |
| PanelSchedule.Kva | scripts/Panel_Schedule_Generator_Dynamo.py:125 | kVA is VA/1000 for a positive load and 0 otherwise, so it is 0 exactly when the load is not positive |
| PanelSchedule.Current | scripts/Panel_Schedule_Generator_Dynamo.py:126 | With a positive voltage, current times voltage is the load; otherwise the current is 0 |
| PanelSchedule.Warnings | scripts/Panel_Schedule_Generator_Dynamo.py:118-134 | Each warning is present exactly when its condition holds: voltage over 600, zero kVA on a circuit not named "spare" in any case, current over 1000 A. `WarningsRanked` and `WarningsDetermined` fix the order and rule out anything else |
| PanelSchedule.WarningsRanked | scripts/Panel_Schedule_Generator_Dynamo.py:118-134 | The warning cell holds only the circuit's voltage, zero-load and current warnings, each at most once, in the order the script appends them |
| PanelSchedule.WarningsDetermined | scripts/Panel_Schedule_Generator_Dynamo.py:118-144 | Any list of the circuit's warnings in append order that holds each kind exactly when its condition holds is the list the script joins into the cell |
| PanelSchedule.LoadName | scripts/Panel_Schedule_Generator_Dynamo.py:109 | The load name when it is set, and "Unknown" when it is missing or empty; never empty |
| PanelSchedule.MakeRow | scripts/Panel_Schedule_Generator_Dynamo.py:106-145 | A row carries the panel's name and the circuit number, the load name, the voltage normalised from the raw value, the kVA and 100% current of the load (missing readings as 0), a 125% current of 1.25·I100 exactly for a "Continuous" classification, and the warning list of those values, so each warning exactly when its condition holds (raw voltage over 6000, a non-positive load on a circuit not named spare, current over 1000 A), in append order |
| PanelSchedule.SystemRow | scripts/Panel_Schedule_Generator_Dynamo.py:102-145 | A system yields a row exactly when it is a valid ElectricalSystem; the row carries the panel's name and the voltage, kVA, currents and exact warning list that `MakeRow` derives from the readings |
| PanelSchedule.SpareIsNotWarned | scripts/Panel_Schedule_Generator_Dynamo.py:109-132 | An unloaded circuit gets the zero-load warning exactly when its load name, lower-cased, is not "spare"; an unnamed circuit ("Unknown") is warned |
| PanelSchedule.PanelName | scripts/Panel_Schedule_Generator_Dynamo.py:96 | The panel name parameter when it is set; otherwise "Panel_" followed by the canonical decimal text of the Id (no '+', no leading zero), which parses back to the Id; `Text.CanonicalIntIsStr` shows that text is `str(id)` |
| PanelSchedule.UsableSystems | scripts/Panel_Schedule_Generator_Dynamo.py:102-104 | Exactly the valid ElectricalSystems of a panel are kept |
| PanelSchedule.UsableSystemsAppend | scripts/Panel_Schedule_Generator_Dynamo.py:102-104 | The usable systems of a concatenation are those of each part, in input order, each as often as it occurs |
| PanelSchedule.UsableSystemsSingle | scripts/Panel_Schedule_Generator_Dynamo.py:102-104 | A single system is kept exactly when it is a valid ElectricalSystem |
| PanelSchedule.PanelRows | scripts/Panel_Schedule_Generator_Dynamo.py:92-104 | An invalid panel, or one without a valid MEP model, gives no rows; otherwise there is one row per usable system, in order, each under the panel's name |
| PanelSchedule.AllRows | scripts/Panel_Schedule_Generator_Dynamo.py:92-145 | A row is collected exactly when some panel gives it; `AllRowsAppend` fixes the panel-by-panel order and multiplicity |
| PanelSchedule.AllRowsAppend | scripts/Panel_Schedule_Generator_Dynamo.py:92-145 | The rows of a list of panels are the rows of its parts, one after the other: panel by panel, each panel's rows once and in order |
| PanelSchedule.AllRowsSingle | scripts/Panel_Schedule_Generator_Dynamo.py:92-145 | The rows collected from a single panel are that panel's rows |
| PanelSchedule.RowKeyLessIsTotal | scripts/Panel_Schedule_Generator_Dynamo.py:148 | The order on (panel name, circuit key) is a strict total order |
| PanelSchedule.Schedule | scripts/Panel_Schedule_Generator_Dynamo.py:147-150 | The schedule is the header, then a permutation of all rows, sorted by (panel name, circuit key). Rows with equal keys keep their collection order |
| PanelSchedule.HeadedRows | scripts/Panel_Schedule_Generator_Dynamo.py:150 | `[header] + rows`: one more line than rows, the header first, and the rows unchanged after it |
| Text.StrLessIrreflexive | scripts/Panel_Schedule_Generator_Dynamo.py:148 | No string sorts before itself |
| Text.StrLessTransitive | scripts/Panel_Schedule_Generator_Dynamo.py:148 | Python's string order is transitive |
| Text.StrLessTotal | scripts/Panel_Schedule_Generator_Dynamo.py:148 | Of two different strings, one sorts before the other |
| Text.EmptyIsLeast | scripts/Panel_Schedule_Generator_Dynamo.py:53-54 | The empty string sorts before every other string |
| Text.ParseInt | scripts/Panel_Schedule_Generator_Dynamo.py:56 | `int()` of a string succeeds exactly on an optionally signed run of digits; a run of digits parses to its decimal value, with a leading '+' to the same value and with a leading '-' to its negation |
| Text.LeadingDigits | scripts/Panel_Schedule_Generator_Dynamo.py:58 | The first piece of `re.split(r"\D+", s)`: the longest all-digit prefix of s |
| Text.IntToStringRoundTrip | scripts/Panel_Schedule_Generator_Dynamo.py:96 | `int(str(n)) == n` for every integer n |
| Text.NatToStringValue | scripts/Panel_Schedule_Generator_Dynamo.py:96 | The decimal digits of a natural number read back as that number |
| Text.CanonicalIntIsStr | scripts/Panel_Schedule_Generator_Dynamo.py:96 | A canonical integer text (digits without a leading zero, '-' only before a non-zero magnitude) is exactly `str` of the value `int()` reads from it |
| Text.ContainsIffOccurs | scripts/Panel_Schedule_Generator_Dynamo.py:128 | `sub in s` holds exactly when sub occurs in s at some index |
| Text.LowerAscii | scripts/Panel_Schedule_Generator_Dynamo.py:131 | `lower()` keeps the length and lower-cases each character |
| Text.Ljust | scripts/Electrical_Load_Estimator_Dynamo.py:34 | `ljust` pads with spaces to the width and never truncates: the length is max(len, width), and the text is kept whole at the front |
| Text.JoinLength | scripts/Electrical_Load_Estimator_Dynamo.py:34 | A join's length is the parts' total length plus one separator between each pair |
| Sorting.FilterKeyAppend | scripts/Panel_Schedule_Generator_Dynamo.py:148 | The items with a given key in a concatenation are those of each part, in order |
| Sorting.Insert | scripts/Panel_Schedule_Generator_Dynamo.py:148 | Inserting an item adds exactly that item, and the items of every key keep their order with the new item first among its equals |
| Sorting.InsertKeepsSorted | scripts/Panel_Schedule_Generator_Dynamo.py:148 | Inserting into a sorted sequence keeps it sorted |
| Sorting.SortByKey | scripts/Panel_Schedule_Generator_Dynamo.py:148 | `sorted(xs, key=…)`: the result is sorted and a permutation of xs, and items with equal keys keep their input order (stability) |
| Sorting.SortKeepsLength | scripts/Conduit_Length_Calculator_Dynamo.py:159 | Sorting keeps the number of items |
| Geometry.SqDist | scripts/Automate_Lighting_Fixture_Placement.py:121 | A squared distance is never negative |
| Geometry.TooCloseSymmetric | scripts/Automate_Lighting_Fixture_Placement.py:121-122 | "Closer than d" does not depend on the order of the two points |
| Geometry.TooCloseMonotone | scripts/Automate_Lighting_Fixture_Placement.py:327-330 | Points closer than d1 are closer than any larger d2, which is how the 8-foot screen implies the 6-foot check |
| Geometry.DotNegate | scripts/Receptacle_Placement_Revit.py:114-115 | Turning one vector round negates its dot product with another |
| Geometry.Abs | scripts/Automate_Lighting_Fixture_Placement.py:488 | The absolute value is non-negative and equals x or −x |
| LightingSettings.ValidateWattage | scripts/Automate_Lighting_Fixture_Placement.py:105-114 | The result is always within [10, 100], and it equals the input exactly when the input is within that range (else it is 25) |
| LightingSettings.ValidateWattageIsStable | scripts/Automate_Lighting_Fixture_Placement.py:105-114 | Validating an already validated wattage keeps it: the default 25 is itself in range |
| LightingSettings.Trunc | scripts/Automate_Lighting_Fixture_Placement.py:240-241 | `int()` of a float truncates toward zero |
| LightingSettings.MaxFixturesIsCircuitLimit | scripts/Automate_Lighting_Fixture_Placement.py:239-242 | The cap int(1440/25) is 57 |
| LightingSettings.TargetCount | scripts/Automate_Lighting_Fixture_Placement.py:239-242 | The target count is at most 57. For a non-negative area it is the largest count, up to 57, whose fixtures at 25 W use at most 0.5 W per square foot: 0 below 50 square feet, 57 from 2850 on. For a negative area `int()` truncates toward zero |
| LightingSettings.TargetCountIsLargestCovered | scripts/Automate_Lighting_Fixture_Placement.py:239-242 | Any count up to 57 that the minimum power density of a non-negative area covers is at most the target count |
| LightingSettings.GridSize | scripts/Automate_Lighting_Fixture_Placement.py:243 | The grid spacing is the square root clamped to [10, 12]: 12 above the range, 10 below it, the root itself within it |
| LightingSettings.GridSizeIsNearest | scripts/Automate_Lighting_Fixture_Placement.py:243 | The clamped spacing is the spacing in [10, 12] nearest to the square root |
| LightingSettings.GridUpperLimit | scripts/Automate_Lighting_Fixture_Placement.py:222-227 | The upper limit is always above the level. It is level + offset for a positive offset, and level + 8 when the offset is missing or does not rise |
| LightingSettings.PlaneZ | scripts/Automate_Lighting_Fixture_Placement.py:229-233 | The candidate is the requested elevation when it is given, non-zero and not above the upper limit, else the upper limit. The plane is the candidate when it lies within the box's heights and the box top otherwise, so with a well-formed box it lies within the box |
| LightingSettings.SelectCeiling | scripts/Automate_Lighting_Fixture_Placement.py:460-499 | The first ceiling whose level parameter shows the room's level name is chosen. Failing that, the first ceiling closest to 8 feet above the room's level is chosen. No ceiling is chosen when the room has no level or there are no ceilings |
| LightingSettings.FixtureZ | scripts/Automate_Lighting_Fixture_Placement.py:495-503 | The elevation is never above the upper limit. It is the ceiling's elevation when that is non-zero and not above the limit; the upper limit without a ceiling, or when the ceiling's elevation is zero or above the limit |
| LightingSettings.PlacementUpperLimit | scripts/Automate_Lighting_Fixture_Placement.py:454-455 | The placement loop's upper limit is level + offset, or level + 8 without an offset, with no fallback for an offset that does not rise: it never exceeds the grid generator's limit, and equals it exactly when the offset is missing or positive |
| LightingSettings.FixturePlaneIsKept | scripts/Automate_Lighting_Fixture_Placement.py:503-514 | A non-zero elevation the placement loop hands on that lies within the box's heights is the plane the grid generator uses |
| LightingPoints.CheckClearance | scripts/Automate_Lighting_Fixture_Placement.py:117-124 | The violations are exactly the pairs i < j closer than the minimum, each once, in loop order; the check passes exactly when there is none |
| LightingPoints.SpreadPassesCheck | scripts/Automate_Lighting_Fixture_Placement.py:327-330 | Points pairwise at least 8 feet apart raise no 6-foot violation |
| LightingPoints.Steps | scripts/Automate_Lighting_Fixture_Placement.py:258-281 | The `while x < end` loop visits step k exactly when start + k·g is below the end |
| LightingPoints.StepsApart | scripts/Automate_Lighting_Fixture_Placement.py:280-281 | Two different steps of the sweep are at least one grid spacing apart |
| LightingPoints.Column | scripts/Automate_Lighting_Fixture_Placement.py:260-262 | The inner loop's candidates: ny points at the column's x, with y advancing one spacing each, on the plane z |
| LightingPoints.ColumnSpread | scripts/Automate_Lighting_Fixture_Placement.py:260-262 | With a spacing of at least 8, a column's points are pairwise at least 8 apart |
| LightingPoints.SpreadConcat | scripts/Automate_Lighting_Fixture_Placement.py:258-281 | Two spread point lists whose points are pairwise far apart form a spread list together |
| LightingPoints.Lattice | scripts/Automate_Lighting_Fixture_Placement.py:253-281 | The row-major sweep has nx·ny candidates, each on the lattice, on the plane z, and inside the swept x range |
| LightingPoints.RoomLattice | scripts/Automate_Lighting_Fixture_Placement.py:250-261 | The room's grid sweep: x from min + g/2 + 1 while below max − 1, y likewise; as many candidates as the two sweeps have steps, each within those bounds and on the fixture plane |
| LightingPoints.LatticeSpread | scripts/Automate_Lighting_Fixture_Placement.py:253-281 | With a spacing of at least 8, all lattice candidates are pairwise at least 8 apart |
| LightingPoints.JudgeFollowsHost | scripts/Automate_Lighting_Fixture_Placement.py:263-279 | A candidate outside the room is rejected as such and a near-wall one likewise; any other is rejected for clustering exactly when a kept point is closer than 8 feet, and accepted otherwise |
| LightingPoints.Screen | scripts/Automate_Lighting_Fixture_Placement.py:263-316 | One verdict per candidate. The accepted points are the candidates with an accepting verdict. Screening keeps a spread list spread; `ScreenFollowsHost` states the greedy rule behind each verdict |
| LightingPoints.ScreenFollowsHost | scripts/Automate_Lighting_Fixture_Placement.py:263-316 | Every verdict of the screen agrees with the host's point-in-room and near-wall tests, and a candidate inside the room and off the walls is rejected for clustering exactly when the prior points or a candidate accepted before it lies closer than 8 feet |
| LightingPoints.ChosenAreHostApproved | scripts/Automate_Lighting_Fixture_Placement.py:263-307 | Every accepted point is in the room and not near a wall |
| LightingPoints.KeepSpread | scripts/Automate_Lighting_Fixture_Placement.py:268-307 | Adding a candidate at least 8 from every kept point keeps the kept points spread |
| LightingPoints.ChosenAndRejected | scripts/Automate_Lighting_Fixture_Placement.py:263-316 | Every visited candidate is counted once, as accepted or as failed |
| LightingPoints.NoClusteringWhenSpread | scripts/Automate_Lighting_Fixture_Placement.py:268-273 | When the kept points and the candidates together are already spread, no candidate is rejected for clustering |
| LightingPoints.LatticeNeverClusters | scripts/Automate_Lighting_Fixture_Placement.py:253-281 | Because the grid spacing is at least 10 > 8 at one height, no lattice candidate is ever rejected for clustering |
| LightingPoints.SampleParams | scripts/Automate_Lighting_Fixture_Placement.py:292-294 | There are floor(len/(1.5g)) + 1 sample parameters. Parameter i times the length is i·1.5g, and every parameter lies within [0, 1] |
| LightingPoints.OffsetIsPerpendicular | scripts/Automate_Lighting_Fixture_Placement.py:296-299 | A boundary sample is moved 3 feet along (−dy, dx), perpendicular to the curve's direction, onto the fixture plane |
| LightingPoints.Samples | scripts/Automate_Lighting_Fixture_Placement.py:293-299 | Samples are taken in parameter order until the host's evaluation fails, which ends the segment (the handler skips the rest) |
| LightingPoints.SegmentCandidates | scripts/Automate_Lighting_Fixture_Placement.py:286-299 | A missing curve, or one shorter than 10, gives no candidates; a curve of length 10 or more gives its offset samples at the parameters `SampleParams` states, up to the first failed evaluation; every candidate lies on the fixture plane |
| LightingPoints.LoopCandidates | scripts/Automate_Lighting_Fixture_Placement.py:286-299 | Every candidate of a loop lies on the fixture plane; `LoopCandidatesAppend` and `LoopCandidatesSingle` fix the segment-by-segment order |
| LightingPoints.LoopCandidatesAppend | scripts/Automate_Lighting_Fixture_Placement.py:286-299 | The candidates of a loop are those of its segments, segment after segment |
| LightingPoints.LoopCandidatesSingle | scripts/Automate_Lighting_Fixture_Placement.py:286-299 | A loop of one segment gives exactly that segment's candidates |
| LightingPoints.BoundaryCandidates | scripts/Automate_Lighting_Fixture_Placement.py:285-299 | Every boundary candidate of every loop lies on the fixture plane; `BoundaryCandidatesAppend` and `BoundaryCandidatesSingle` fix the loop-by-loop order |
| LightingPoints.BoundaryCandidatesAppend | scripts/Automate_Lighting_Fixture_Placement.py:285-299 | The boundary candidates are those of the loops, loop after loop |
| LightingPoints.BoundaryCandidatesSingle | scripts/Automate_Lighting_Fixture_Placement.py:285-299 | A boundary of one loop gives exactly that loop's candidates |
| LightingPoints.LayoutIsSound | scripts/Automate_Lighting_Fixture_Placement.py:305-320 | The kept lattice points followed by the kept boundary points are pairwise at least 8 apart. All of them are in the room, off the walls and on the plane |
| LightingPoints.CalculateGridPoints | scripts/Automate_Lighting_Fixture_Placement.py:194-348 | Errors come first: no boundary loops, then no bounding box, then a zero fixture target (the division raises). Past those checks it succeeds exactly when some candidate is kept. On success the list is the kept grid points then the kept boundary points: in the room, off the walls, on the plane, pairwise at least 8 apart, with no 6-foot violation. With nothing kept past those checks, the result is the no-valid-points error, and it counts every candidate as rejected |
| ConduitTakeoff.TypeName | scripts/Conduit_Length_Calculator_Dynamo.py:67-80 | The "Type Name" parameter, else the type's name, else "No Type"; "Unknown" when no type element was found or the lookup raised |
| ConduitTakeoff.FirstPresent | scripts/Conduit_Length_Calculator_Dynamo.py:89-94 | The first present alternative parameter, with none before it; none when no alternative is present |
| ConduitTakeoff.Size | scripts/Conduit_Length_Calculator_Dynamo.py:83-96 | The diameter parameter, else the first present alternative, else "Unknown"; "Unknown" also when the lookup raised |
| ConduitTakeoff.Length | scripts/Conduit_Length_Calculator_Dynamo.py:99-109 | The curve length parameter, else the "Length" parameter, else 0.0; 0.0 also when the lookup raised |
| ConduitTakeoff.RecordOf | scripts/Conduit_Length_Calculator_Dynamo.py:115-128 | Every conduit gets a record with its own Id; one whose processing failed gets type "Error", size "Unknown" and length 0 |
| ConduitTakeoff.ProcessConduits | scripts/Conduit_Length_Calculator_Dynamo.py:48-133 | Exactly one record per conduit, in order, whether or not processing failed; the running total is the sum of the records' numeric lengths |
| ConduitTakeoff.AddTo | scripts/Conduit_Length_Calculator_Dynamo.py:139-142 | Adding v under a key raises that key's value by v, leaves every other key's value alone, and raises the sum by v |
| ConduitTakeoff.AddToKeys | scripts/Conduit_Length_Calculator_Dynamo.py:140-141 | Adding under a key creates it if absent and no other key |
| ConduitTakeoff.AddToDistinct | scripts/Conduit_Length_Calculator_Dynamo.py:140-141 | Adding under a key never duplicates a key |
| ConduitTakeoff.Summarize | scripts/Conduit_Length_Calculator_Dynamo.py:136-143 | One entry per distinct (type, size) present, including keys whose lengths are all "Unknown". Each key's value is the sum of the numeric lengths of its records, and all values sum to the records' total length |
| ConduitTakeoff.SummaryMatchesTotal | scripts/Conduit_Length_Calculator_Dynamo.py:112-142 | The summary's values add up to the script's running total length |
| ConduitTakeoff.ValueOfEntry | scripts/Conduit_Length_Calculator_Dynamo.py:136-143 | With distinct keys, looking up an entry's key gives that entry's value |
| ConduitTakeoff.EntriesAreKeySums | scripts/Conduit_Length_Calculator_Dynamo.py:139-142 | Each summary entry's total is the sum of the numeric lengths of the records with its key |
| ConduitTakeoff.SummaryKeyLessIsTotal | scripts/Conduit_Length_Calculator_Dynamo.py:159 | The order on (type, size) keys is a strict total order |
| ConduitTakeoff.SortedSummary | scripts/Conduit_Length_Calculator_Dynamo.py:159 | The summary items in key order: sorted and a permutation of the summary |
| ConduitTakeoff.SummaryRows | scripts/Conduit_Length_Calculator_Dynamo.py:159-160 | One row per sorted entry, carrying its type, size and total |
| ConduitTakeoff.CsvRows | scripts/Conduit_Length_Calculator_Dynamo.py:158-161 | The header, one row per key in sorted key order, then the total row: two more rows than keys |
| ConduitTakeoff.TakeoffRows | scripts/Conduit_Length_Calculator_Dynamo.py:112-161 | Every row between the header and the total row is a key present in the data, with the sum of that key's numeric lengths. The total row's value is the sum of the summary. `KeysHaveRows` gives the converse |
| ConduitTakeoff.KeysHaveRows | scripts/Conduit_Length_Calculator_Dynamo.py:136-161 | Every key present in the records has a summary row between the header and the total row, carrying the sum of the key's numeric lengths |
| LoadEstimator.JoinUnfold | scripts/Electrical_Load_Estimator_Dynamo.py:34 | A join of several parts is the first part, the separator, then the join of the rest |
| LoadEstimator.JoinPartAt | scripts/Electrical_Load_Estimator_Dynamo.py:34 | In a join, part i sits whole at its offset, followed by the separator unless it is the last |
| LoadEstimator.Cells | scripts/Electrical_Load_Estimator_Dynamo.py:34 | `zip` truncates to the shorter of columns and widths; each cell is its column left-justified to its width |
| LoadEstimator.FormatTableRow | scripts/Electrical_Load_Estimator_Dynamo.py:33-34 | `format_table_row`: a formatted row opens with "\| " and closes with " \|"; `CellAt` places each cell inside it |
| LoadEstimator.CellAt | scripts/Electrical_Load_Estimator_Dynamo.py:34 | In a formatted row each cell appears whole, never cut short, of length max(len, width), at the offset the earlier cells give it |
| LoadEstimator.ColumnAt | scripts/Electrical_Load_Estimator_Dynamo.py:34 | A column's own text opens its cell, whole |
| LoadEstimator.DividerAfter | scripts/Electrical_Load_Estimator_Dynamo.py:34 | Every cell but the last is followed by " \| " |
| LoadEstimator.StartsAgree | scripts/Electrical_Load_Estimator_Dynamo.py:34 | When every cell has exactly its width, the cells' offsets are fixed by the widths alone |
| LoadEstimator.TotalOfWidths | scripts/Electrical_Load_Estimator_Dynamo.py:34 | When every cell has exactly its width, the row's length is fixed by the widths alone |
| LoadEstimator.AlignedColumns | scripts/Electrical_Load_Estimator_Dynamo.py:34 | When every column fits its width, the row's length and each column's offset depend on the widths alone, so such rows line up column for column |
| LoadEstimator.Collect | scripts/Electrical_Load_Estimator_Dynamo.py:46-60 | The elements are the electrical equipment, then the mechanical equipment, then the lighting fixtures, each list whole and in its own order; so all electrical equipment comes before anything else and all lighting fixtures after |
| LoadEstimator.RecordOf | scripts/Electrical_Load_Estimator_Dynamo.py:62-87 | The name is "Unknown" when missing or empty, then cut to its first 25 characters. The load defaults to 0. The voltage is the parameter times 120, or 120 without it. The system is three-phase exactly when the element has 3 poles |
| LoadEstimator.RecordedAppend | scripts/Electrical_Load_Estimator_Dynamo.py:60-90 | The records of a concatenation of elements are the records of each part, one after the other |
| LoadEstimator.RecordedSingle | scripts/Electrical_Load_Estimator_Dynamo.py:60-90 | A single element gives its record, or none when its reading raised |
| LoadEstimator.RecordedCount | scripts/Electrical_Load_Estimator_Dynamo.py:60-90 | One record per element whose reading did not raise: each such element's record sits right after the records of the elements before it, and every record is the record of such an element |
| LoadEstimator.SumLoadsAppend | scripts/Electrical_Load_Estimator_Dynamo.py:78 | Appending a record adds its load to the sum |
| LoadEstimator.EstimateLoads | scripts/Electrical_Load_Estimator_Dynamo.py:55-90 | The element loop yields exactly the records of the readable elements. Its total is the sum of the unrounded loads of exactly those elements |
| LoadEstimator.RecordedLoad | scripts/Electrical_Load_Estimator_Dynamo.py:77-90 | The loads of the records sum to the loads of the readable elements: skipped elements contribute nothing |
| LoadEstimator.Rule | scripts/Electrical_Load_Estimator_Dynamo.py:43 | "\|" followed by n times "-\|" |
| LoadEstimator.Framed | scripts/Electrical_Load_Estimator_Dynamo.py:42-105 | Two lines before the body and two after, with the body unchanged between them |
| LoadEstimator.RecordLines | scripts/Electrical_Load_Estimator_Dynamo.py:93-101 | One formatted line per record, in order |
| LoadEstimator.Table | scripts/Electrical_Load_Estimator_Dynamo.py:41-105 | The table is the header line, the separator, one line per record, the separator and the total line. It has four lines more than there are records |
| LoadEstimator.HeaderIsAligned | scripts/Electrical_Load_Estimator_Dynamo.py:37-42 | The header fits the widths, so it has the common row length |
| LoadEstimator.TotalRowIsAligned | scripts/Electrical_Load_Estimator_Dynamo.py:105 | A total whose text fits its column gives a row of the common length |
| LoadEstimator.RecordRowIsAligned | scripts/Electrical_Load_Estimator_Dynamo.py:83-101 | A record row has the common length when its numbers' text fits their columns; the 25-character name cut makes the name fit |
| LoadEstimator.TableIsAligned | scripts/Electrical_Load_Estimator_Dynamo.py:37-105 | When the numbers' text fits their columns, every line of the table except the two separators has the same length |
| LoadEstimator.CsvRows | scripts/Electrical_Load_Estimator_Dynamo.py:109-110 | The CSV is the header, one five-cell row per record in order, then ["Total", "", total, "", ""] |
| LoadEstimator.ColumnIsSum | scripts/Electrical_Load_Estimator_Dynamo.py:109 | The load column of the record rows sums to the records' loads |
| LoadEstimator.CsvTotalIsLoadColumn | scripts/Electrical_Load_Estimator_Dynamo.py:78-110 | The CSV's total cell is the sum of the load column above it |

## Left out

- Revit API plumbing is not modelled: collectors, transactions, symbol activation, `NewFamilyInstance`, parameter lookups and `UnitUtils`. Their results are inputs (`...Reading` datatypes, host predicates and functions). A reading's `failed` or `...Failed` flag stands for a lookup that raised.
- Logging, `TaskDialog`, timestamps and the writing of CSV and log files are left out, because they are I/O. The models stop at the rows that would be written.
- Float rounding and number formatting (`round`, `:.2f`, `str` of a float) are left out. Values are exact reals, and the text of a number in the load table is the parameter `show`.
- Floating-point accumulation order is not modelled: sums are exact.
- scripts/Clash_Detection_Electrical_HVAC_Dynamo.py is not part of this model. Its only decision is the host's intersection filter.
- The DIALux CSV path, the fixture placement itself and the lighting guide output of `place_lighting_fixtures` are left out. Only the ceiling loop and the elevation it hands on are modelled.
- The non-IC-rated clearance branch is dead code (`IS_IC_RATED = True`) and is left out.
- The "No conduits found" and per-conduit error-log messages are left out; only the records and the total are modelled.
- `math.sqrt` is not modelled. `CalculateGridPoints` takes `root` with `root * root == area / target` as a witness supplied by the caller.
- `Curve.Evaluate(t, False)` is not modelled. The host's curve is a function from the sample parameter to an optional frame (point and unit direction), so how the host reads a non-normalised parameter is left to the host.
- The 10-degree test is modelled with the cosine of 10 degrees to 15 decimals, not with `AngleTo` and `math.degrees`.
- Python's `int()` is modelled on strings as an optional sign and ASCII digits. Surrounding whitespace, underscores and non-ASCII digits are not accepted.
- `lower()` is modelled on ASCII letters only.
- Python's string `<` is modelled as lexicographic order on characters.
- The conduit summary sort is modelled with a total order: numeric sizes before "Unknown", then by value. Python raises a TypeError when a float size and "Unknown" share a type name.
- `validate_wattage`'s `float()` conversion of non-numeric input is not modelled. The model takes a real: its caller passes the fixture type's Wattage parameter read as a double, or the default 25 when the type has none, so the conversion cannot fail.
- ReceptaclePlacement.PlaceOnGroup: the handler's other failure sources are not modelled. These are host exceptions during selection or placement; they also return []. A zero spacing is modelled (it returns []).
- ReceptaclePlacement.PlaceOnGroup: the full-consumption guarantee is stated for runs with at least one span. A run without spans and a start offset below −0.334 yields targets but places nothing, and the model returns [] too.
- ReceptaclePlacement.Report and ReceptaclePlacement.SidePlacements have no contracts of their own. `Report` reads the optional start and spacing inputs through `Setting` and composes `SideCounts` and `Tallies`; `SidePlacements` is the per-side call of `PlaceOnGroup`. Their properties are those of `Setting`, `ReportSpacingIsNonZero`, `PlaceOnGroup`, `SideCounts`, `Lines` and `Tallies`.
- ReceptaclePlacement.SpanOf: the walk direction is the host's normalised `GetEndPoint(1) - GetEndPoint(0)`. The model takes it as the edge's `dir` reading, and nothing ties it to the end points `p1` and `p2`.
- LightingPoints.CalculateGridPoints: the catch-all handler's messages for host exceptions other than the zero fixture target are left out.
- LoadEstimator.Table: alignment is proved only when the numbers' text fits the columns (`TableIsAligned`). Longer text widens its row, as `ljust` does.
- WallGrouping.GroupsAreComponents assumes that Ids identify walls (`IdsIdentifyWalls`). With two different walls sharing an Id, the script's visited set is keyed by Id and the closure can fail.

=== FILE: circuit_sort.dfy ===
/** The natural sort key of a panel circuit number: numbers first, by value
    (a circuit like "12A" keys on its leading 12), then everything else as
    text. */
module CircuitSort {

  import opened Wrappers
  import opened Text
  import opened Sorting

  /** The key tuple: bucket 0 holds an integer, bucket 1 a string. */
  datatype CircuitKey = Numeric(n: int) | Textual(s: string)

  /** `circuit_sort_key`: None keys as empty text; a value `int()` accepts
      keys on that integer; otherwise its leading run of digits, when there
      is one, keys on that number; otherwise the value keys as text. */
  function CircuitSortKey(circuit: Option<string>): (r: CircuitKey)
    ensures circuit.None? ==> r == Textual("")
    ensures circuit.Some? && IsIntLiteral(circuit.value) ==> r == Numeric(ParseInt(circuit.value).value)
    ensures circuit.Some? && !IsIntLiteral(circuit.value) && LeadingDigits(circuit.value) != "" ==>
              r == Numeric(DigitsValue(LeadingDigits(circuit.value)))
    ensures r.Numeric? <==>
              circuit.Some? && (IsIntLiteral(circuit.value) || (|circuit.value| > 0 && IsDigit(circuit.value[0])))
    ensures r.Textual? ==> r == Textual(circuit.GetOr(""))
  {
    match circuit
    case None => Textual("")
    case Some(s) =>
      match ParseInt(s)
      case Some(n) => Numeric(n)
      case None =>
        var leading := LeadingDigits(s);
        match ParseInt(leading)
        case Some(n) => Numeric(n)
        case None => Textual(s)
  }

  /** "12A" keys like circuit 12; "A1" keys as text. */
  lemma KeyExamples()
    ensures CircuitSortKey(Some("12A")) == Numeric(12)
    ensures CircuitSortKey(Some("-3")) == Numeric(-3)
    ensures CircuitSortKey(Some("A1")) == Textual("A1")
  {
    var s := "12A";
    assert !IsDigit(s[2]);
    assert LeadingDigits(s) == "12" by {
      assert LeadingDigits(s[2..]) == "";
      assert LeadingDigits(s[1..]) == "2";
    }
    assert DigitsValue("12") == 12 by {
      assert "12"[..1] == "1";
      assert "1"[..0] == "";
    }
    var t := "-3";
    assert t[1..] == "3" && "3"[..0] == "";
    var u := "A1";
    assert !IsDigit(u[0]);
  }

  /** Python's tuple order on the keys: bucket first, then the value within
      the bucket. */
  predicate KeyLess(a: CircuitKey, b: CircuitKey)
  {
    match (a, b)
    case (Numeric(m), Numeric(n)) => m < n
    case (Numeric(_), Textual(_)) => true
    case (Textual(_), Numeric(_)) => false
    case (Textual(s), Textual(t)) => StrLess(s, t)
  }

  /** Every numeric key sorts before every textual key, and the key of a
      missing circuit number sorts before every other textual key. */
  lemma NumbersFirstThenNone(c: Option<string>, d: Option<string>)
    ensures CircuitSortKey(c).Numeric? && CircuitSortKey(d).Textual? ==> KeyLess(CircuitSortKey(c), CircuitSortKey(d))
    ensures c.None? && CircuitSortKey(d).Textual? && d.GetOr("") != ""
            ==> KeyLess(CircuitSortKey(c), CircuitSortKey(d))
  {
    if c.None? && CircuitSortKey(d).Textual? && d.GetOr("") != "" {
      EmptyIsLeast(d.GetOr(""));
    }
  }

  lemma KeyLessIsTotal()
    ensures StrictTotalOrder(KeyLess)
  {
    forall a ensures !KeyLess(a, a) {
      if a.Textual? {
        StrLessIrreflexive(a.s);
      }
    }
    forall a, b, c | KeyLess(a, b) && KeyLess(b, c) ensures KeyLess(a, c) {
      if a.Textual? && b.Textual? && c.Textual? {
        StrLessTransitive(a.s, b.s, c.s);
      }
    }
    forall a, b | a != b ensures KeyLess(a, b) || KeyLess(b, a) {
      if a.Textual? && b.Textual? {
        StrLessTotal(a.s, b.s);
      }
    }
  }
}

=== FILE: conduit_takeoff.dfy ===
/** Conduit take-off: one record per conduit with defaults for whatever the
    host cannot supply, the total of the known lengths, a summary of length
    by (type, size), and the rows of the summary table. */
module ConduitTakeoff {

  import opened Wrappers
  import opened Seqs
  import opened Text
  import opened Sorting

  /** A converted length: a number of feet, or "Unknown" when the unit
      conversion failed. */
  datatype Measure = Feet(value: real) | Unknown

  /** A length that counts towards a sum: only a number does. */
  function Counted(m: Measure): real
  {
    if m.Feet? then m.value else 0.0
  }

  /** What the type lookup found: no valid type id, an id whose element is
      missing, a lookup that raised, or a type element with its "Type Name"
      parameter (None when absent or without a value) and its name (None
      when it has none). */
  datatype TypeReading =
    | InvalidTypeId
    | TypeMissing
    | TypeLookupFailed
    | TypeFound(typeNameParam: Option<string>, name: Option<string>)

  /** What the script reads from one conduit. Each Option is a parameter
      (None when absent or without a value), already converted; each
      `...Failed` flag is a lookup that raised. `alternatives` are the
      "Nominal Diameter" and "Diameter" parameters, in that order. */
  datatype ConduitReading = ConduitReading(
    id: int,
    typeReading: TypeReading,
    diameter: Option<Measure>,
    alternatives: seq<Option<Measure>>,
    sizeLookupFailed: bool,
    curveLength: Option<Measure>,
    lengthParam: Option<Measure>,
    lengthLookupFailed: bool,
    processingFailed: bool)

  datatype Record = Record(typeName: string, size: Measure, length: Measure, id: int)

  const DefaultType: string := "Unknown"
  const ErrorType: string := "Error"

  /** The type name: the "Type Name" parameter, else the type's name, else
      "No Type"; "Unknown" when no type element was found. */
  function TypeName(t: TypeReading): (name: string)
    ensures !t.TypeFound? ==> name == DefaultType
    ensures t.TypeFound? && t.typeNameParam.Some? ==> name == t.typeNameParam.value
    ensures t.TypeFound? && t.typeNameParam.None? ==> name == t.name.GetOr("No Type")
  {
    match t
    case TypeFound(param, n) => if param.Some? then param.value else n.GetOr("No Type")
    case _ => DefaultType
  }

  /** The index of the first present alternative parameter. */
  function FirstPresent(alts: seq<Option<Measure>>): (r: Option<nat>)
    ensures r.Some? ==> r.value < |alts| && alts[r.value].Some?
    ensures r.Some? ==> forall j :: 0 <= j < r.value ==> alts[j].None?
    ensures r.None? ==> forall j :: 0 <= j < |alts| ==> alts[j].None?
  {
    if |alts| == 0 then None
    else if alts[0].Some? then Some(0)
    else match FirstPresent(alts[1..])
      case None => None
      case Some(i) => Some(i + 1)
  }

  /** The size: the conduit diameter parameter, else the first present
      alternative, else "Unknown" (also when a lookup raised). */
  function Size(c: ConduitReading): (m: Measure)
    ensures c.sizeLookupFailed ==> m == Unknown
    ensures !c.sizeLookupFailed && c.diameter.Some? ==> m == c.diameter.value
    ensures !c.sizeLookupFailed && c.diameter.None? ==>
              (if FirstPresent(c.alternatives).Some?
               then m == c.alternatives[FirstPresent(c.alternatives).value].value
               else m == Unknown)
  {
    if c.sizeLookupFailed then Unknown
    else if c.diameter.Some? then c.diameter.value
    else match FirstPresent(c.alternatives)
      case None => Unknown
      case Some(i) => c.alternatives[i].value
  }

  /** The length: the curve length parameter, else the "Length" parameter,
      else 0 feet (also when a lookup raised). */
  function Length(c: ConduitReading): (m: Measure)
    ensures c.lengthLookupFailed || (c.curveLength.None? && c.lengthParam.None?) ==> m == Feet(0.0)
    ensures !c.lengthLookupFailed && c.curveLength.Some? ==> m == c.curveLength.value
    ensures !c.lengthLookupFailed && c.curveLength.None? && c.lengthParam.Some? ==> m == c.lengthParam.value
  {
    if c.lengthLookupFailed then Feet(0.0)
    else if c.curveLength.Some? then c.curveLength.value
    else c.lengthParam.GetOr(Feet(0.0))
  }

  /** The record of one conduit; a conduit whose processing failed gets the
      error record: type "Error", size "Unknown", length 0. */
  function RecordOf(c: ConduitReading): (r: Record)
    ensures r.id == c.id
    ensures c.processingFailed ==> r == Record(ErrorType, Unknown, Feet(0.0), c.id)
    ensures !c.processingFailed ==> r == Record(TypeName(c.typeReading), Size(c), Length(c), c.id)
  {
    if c.processingFailed then Record(ErrorType, Unknown, Feet(0.0), c.id)
    else Record(TypeName(c.typeReading), Size(c), Length(c), c.id)
  }

  /** The sum of the numeric lengths of the records. */
  function SumLengths(records: seq<Record>): real
  {
    if |records| == 0 then 0.0
    else SumLengths(records[..|records| - 1]) + Counted(records[|records| - 1].length)
  }

  datatype Processed = Processed(records: seq<Record>, total: real)

  /** `process_conduits`: exactly one record per conduit, in order, with
      the same id; the running total adds each numeric length of a conduit
      processed without error. */
  function ProcessConduits(readings: seq<ConduitReading>): (r: Processed)
    ensures |r.records| == |readings|
    ensures forall i :: 0 <= i < |readings| ==> r.records[i] == RecordOf(readings[i])
    ensures r.total == SumLengths(r.records)
  {
    if |readings| == 0 then Processed([], 0.0)
    else
      var n := |readings| - 1;
      var front := ProcessConduits(readings[..n]);
      var c := readings[n];
      var add := if c.processingFailed then 0.0 else Counted(Length(c));
      var r := Processed(front.records + [RecordOf(c)], front.total + add);
      assert r.records[..n] == front.records;
      r
  }

  /* ---------------------------------------------------------------------- */
  /* The summary by (type, size).                                            */
  /* ---------------------------------------------------------------------- */

  datatype SummaryKey = SummaryKey(typeName: string, size: Measure)

  function KeyOf(r: Record): SummaryKey
  {
    SummaryKey(r.typeName, r.size)
  }

  /** One summary entry: a key and its total length. */
  datatype Entry = Entry(key: SummaryKey, total: real)

  predicate DistinctKeys(entries: seq<Entry>)
  {
    forall i, j :: 0 <= i < j < |entries| ==> entries[i].key != entries[j].key
  }

  function KeySet(entries: seq<Entry>): set<SummaryKey>
  {
    set e | e in entries :: e.key
  }

  /** The total stored under k, 0 when k is absent. */
  function ValueOf(entries: seq<Entry>, k: SummaryKey): real
  {
    if |entries| == 0 then 0.0
    else if entries[0].key == k then entries[0].total
    else ValueOf(entries[1..], k)
  }

  function SumValues(entries: seq<Entry>): real
  {
    if |entries| == 0 then 0.0 else entries[0].total + SumValues(entries[1..])
  }

  /** Adding v under k: an existing entry grows, a new key is appended. */
  function AddTo(entries: seq<Entry>, k: SummaryKey, v: real): (r: seq<Entry>)
    ensures forall k' :: ValueOf(r, k') == ValueOf(entries, k') + (if k' == k then v else 0.0)
    ensures SumValues(r) == SumValues(entries) + v
  {
    if |entries| == 0 then [Entry(k, v)]
    else if entries[0].key == k then
      var r := [Entry(k, entries[0].total + v)] + entries[1..];
      assert r[1..] == entries[1..];
      r
    else
      var r := [entries[0]] + AddTo(entries[1..], k, v);
      assert r[1..] == AddTo(entries[1..], k, v);
      r
  }

  lemma KeySetCons(e: Entry, rest: seq<Entry>)
    ensures KeySet([e] + rest) == {e.key} + KeySet(rest)
  {
    var s := [e] + rest;
    assert s[0] == e;
    forall x | x in rest ensures x in s {
      var m :| 0 <= m < |rest| && rest[m] == x;
      assert s[m + 1] == x;
    }
    forall x | x in s ensures x == e || x in rest {
      var m :| 0 <= m < |s| && s[m] == x;
      if m > 0 {
        assert rest[m - 1] == x;
      }
    }
  }

  lemma DistinctTail(e: Entry, rest: seq<Entry>)
    requires DistinctKeys([e] + rest)
    ensures e.key !in KeySet(rest) && DistinctKeys(rest)
  {
    var s := [e] + rest;
    forall x | x in rest ensures x.key != e.key {
      var m :| 0 <= m < |rest| && rest[m] == x;
      assert s[m + 1] == x && s[0] == e;
    }
    forall a, b | 0 <= a < b < |rest| ensures rest[a].key != rest[b].key {
      assert s[a + 1] == rest[a] && s[b + 1] == rest[b];
    }
  }

  lemma DistinctCons(e: Entry, rest: seq<Entry>)
    requires e.key !in KeySet(rest) && DistinctKeys(rest)
    ensures DistinctKeys([e] + rest)
  {
    var s := [e] + rest;
    forall i, j | 0 <= i < j < |s| ensures s[i].key != s[j].key {
      assert s[j] == rest[j - 1] && rest[j - 1] in rest;
      if i > 0 {
        assert s[i] == rest[i - 1];
      }
    }
  }

  /** AddTo on a non-empty list: the head is updated or kept. */
  lemma AddToCons(entries: seq<Entry>, k: SummaryKey, v: real)
    requires |entries| > 0
    ensures entries[0].key == k ==>
              AddTo(entries, k, v) == [Entry(k, entries[0].total + v)] + entries[1..]
    ensures entries[0].key != k ==>
              AddTo(entries, k, v) == [entries[0]] + AddTo(entries[1..], k, v)
  {
  }

  /** Adding under k adds k to the keys. */
  lemma {:induction false} AddToKeys(entries: seq<Entry>, k: SummaryKey, v: real)
    ensures KeySet(AddTo(entries, k, v)) == KeySet(entries) + {k}
  {
    if |entries| == 0 {
      var r := AddTo(entries, k, v);
      assert r[0] in r;
    } else {
      var e := entries[0];
      var tail := entries[1..];
      Uncons(entries);
      KeySetCons(e, tail);
      AddToCons(entries, k, v);
      if e.key == k {
        KeySetCons(Entry(k, e.total + v), tail);
      } else {
        AddToKeys(tail, k, v);
        KeySetCons(e, AddTo(tail, k, v));
      }
    }
  }

  /** Adding under k keeps the keys distinct. */
  lemma {:induction false} AddToDistinct(entries: seq<Entry>, k: SummaryKey, v: real)
    requires DistinctKeys(entries)
    ensures DistinctKeys(AddTo(entries, k, v))
  {
    if |entries| > 0 {
      var e := entries[0];
      var tail := entries[1..];
      Uncons(entries);
      DistinctTail(e, tail);
      AddToCons(entries, k, v);
      if e.key == k {
        DistinctCons(Entry(k, e.total + v), tail);
      } else {
        AddToDistinct(tail, k, v);
        AddToKeys(tail, k, v);
        DistinctCons(e, AddTo(tail, k, v));
      }
    }
  }

  /** The sum of the numeric lengths of the records with key k. */
  function SumFor(records: seq<Record>, k: SummaryKey): real
  {
    if |records| == 0 then 0.0
    else
      var last := records[|records| - 1];
      SumFor(records[..|records| - 1], k) + (if KeyOf(last) == k then Counted(last.length) else 0.0)
  }

  function RecordKeys(records: seq<Record>): set<SummaryKey>
  {
    set r | r in records :: KeyOf(r)
  }

  /** `summarize_conduit_data`: one entry per distinct (type, size) present
      -- a record without a numeric length still creates its key -- holding
      the sum of that key's numeric lengths; the totals add up to the sum
      of all numeric lengths. */
  function Summarize(records: seq<Record>): (r: seq<Entry>)
    ensures DistinctKeys(r)
    ensures KeySet(r) == RecordKeys(records)
    ensures forall k :: ValueOf(r, k) == SumFor(records, k)
    ensures SumValues(r) == SumLengths(records)
  {
    if |records| == 0 then []
    else
      var n := |records| - 1;
      var last := records[n];
      var r := AddTo(Summarize(records[..n]), KeyOf(last), Counted(last.length));
      AddToKeys(Summarize(records[..n]), KeyOf(last), Counted(last.length));
      AddToDistinct(Summarize(records[..n]), KeyOf(last), Counted(last.length));
      assert RecordKeys(records) == RecordKeys(records[..n]) + {KeyOf(last)} by {
        assert records == records[..n] + [last];
        forall x | x in records ensures x in records[..n] || x == last {
        }
      }
      r
  }

  /** The summary's totals add up to the running total of the records. */
  lemma SummaryMatchesTotal(readings: seq<ConduitReading>)
    ensures SumValues(Summarize(ProcessConduits(readings).records)) == ProcessConduits(readings).total
  {
  }

  /** A distinct-key list holds every key at most once, so the value of a
      present key is that entry's total. */
  lemma {:induction false} ValueOfEntry(entries: seq<Entry>, i: nat)
    requires DistinctKeys(entries) && i < |entries|
    ensures ValueOf(entries, entries[i].key) == entries[i].total
  {
    if i > 0 {
      assert entries[0].key != entries[i].key;
      Uncons(entries);
      DistinctTail(entries[0], entries[1..]);
      ValueOfEntry(entries[1..], i - 1);
    }
  }

  /** Every summary entry holds the sum of its key's numeric lengths. */
  lemma EntriesAreKeySums(records: seq<Record>)
    ensures forall e :: e in Summarize(records) ==> e.total == SumFor(records, e.key)
  {
    var s := Summarize(records);
    forall e | e in s ensures e.total == SumFor(records, e.key) {
      var i :| 0 <= i < |s| && s[i] == e;
      ValueOfEntry(s, i);
    }
  }

  /* ---------------------------------------------------------------------- */
  /* The summary table.                                                      */
  /* ---------------------------------------------------------------------- */

  /** Sizes order by value, numbers before "Unknown". */
  predicate MeasureLess(a: Measure, b: Measure)
  {
    match (a, b)
    case (Feet(x), Feet(y)) => x < y
    case (Feet(_), Unknown) => true
    case (Unknown, _) => false
  }

  /** Tuple order on (type name, size). */
  predicate SummaryKeyLess(a: SummaryKey, b: SummaryKey)
  {
    StrLess(a.typeName, b.typeName) || (a.typeName == b.typeName && MeasureLess(a.size, b.size))
  }

  lemma SummaryKeyLessIsTotal()
    ensures StrictTotalOrder(SummaryKeyLess)
  {
    forall a ensures !SummaryKeyLess(a, a) {
      StrLessIrreflexive(a.typeName);
    }
    forall a, b, c | SummaryKeyLess(a, b) && SummaryKeyLess(b, c) ensures SummaryKeyLess(a, c) {
      if StrLess(a.typeName, b.typeName) && StrLess(b.typeName, c.typeName) {
        StrLessTransitive(a.typeName, b.typeName, c.typeName);
      }
    }
    forall a, b | a != b ensures SummaryKeyLess(a, b) || SummaryKeyLess(b, a) {
      if a.typeName != b.typeName {
        StrLessTotal(a.typeName, b.typeName);
      }
    }
  }

  function EntryKey(e: Entry): SummaryKey
  {
    e.key
  }

  const CsvHeader: seq<string> := ["Conduit Type", "Size (ft)", "Total Length (ft)"]

  /** A row of the summary table: the header, one key with its total, or
      the grand total. */
  datatype CsvRow = HeaderRow(cells: seq<string>) | SummaryRow(typeName: string, size: Measure, length: real) | TotalRow(length: real)

  function SummaryRowOf(e: Entry): CsvRow
  {
    SummaryRow(e.key.typeName, e.key.size, e.total)
  }

  function SummaryRows(sorted: seq<Entry>): (rows: seq<CsvRow>)
    ensures |rows| == |sorted|
    ensures forall i :: 0 <= i < |sorted| ==> rows[i] == SummaryRowOf(sorted[i])
  {
    seq(|sorted|, i requires 0 <= i < |sorted| => SummaryRowOf(sorted[i]))
  }

  /** The summary entries in key order. */
  function SortedSummary(summary: seq<Entry>): (sorted: seq<Entry>)
    ensures |sorted| == |summary|
    ensures SortedByKey(sorted, EntryKey, SummaryKeyLess)
    ensures multiset(sorted) == multiset(summary)
  {
    SummaryKeyLessIsTotal();
    SortKeepsLength(summary, EntryKey, SummaryKeyLess);
    SortByKey(summary, EntryKey, SummaryKeyLess)
  }

  /** The rows `write_to_csv` writes: the header, one row per summary key in
      key order, then the total -- two more rows than keys. */
  function CsvRows(summary: seq<Entry>, total: real): (rows: seq<CsvRow>)
    ensures |rows| == |summary| + 2
    ensures rows[0] == HeaderRow(CsvHeader) && rows[|rows| - 1] == TotalRow(total)
    ensures forall i :: 0 <= i < |summary| ==> rows[i + 1] == SummaryRowOf(SortedSummary(summary)[i])
  {
    var mid := SummaryRows(SortedSummary(summary));
    var rows := [HeaderRow(CsvHeader)] + mid + [TotalRow(total)];
    assert forall i :: 0 <= i < |mid| ==> rows[i + 1] == mid[i];
    rows
  }

  /** The whole take-off: every row between the header and the total row
      is a summary row for a key present in the records, and its length is
      the sum of that key's numeric lengths; the total row carries the
      running total, which equals the sum of the summary rows.
      `KeysHaveRows` gives the converse. */
  lemma TakeoffRows(readings: seq<ConduitReading>)
    ensures var p := ProcessConduits(readings);
            var rows := CsvRows(Summarize(p.records), p.total);
            rows[|rows| - 1] == TotalRow(SumValues(Summarize(p.records)))
            && forall i :: 1 <= i < |rows| - 1 ==>
                 rows[i].SummaryRow? && SummaryKey(rows[i].typeName, rows[i].size) in RecordKeys(p.records)
                 && rows[i].length == SumFor(p.records, SummaryKey(rows[i].typeName, rows[i].size))
  {
    var p := ProcessConduits(readings);
    var summary := Summarize(p.records);
    var rows := CsvRows(summary, p.total);
    var sorted := SortedSummary(summary);
    EntriesAreKeySums(p.records);
    forall i | 1 <= i < |rows| - 1
      ensures rows[i].SummaryRow? && SummaryKey(rows[i].typeName, rows[i].size) in RecordKeys(p.records)
              && rows[i].length == SumFor(p.records, SummaryKey(rows[i].typeName, rows[i].size))
    {
      var e := sorted[i - 1];
      assert e in multiset(summary);
      assert e in summary && e.key in KeySet(summary);
    }
  }

  /** The row of a summary entry, between the header and the total row. */
  lemma EntryRow(summary: seq<Entry>, total: real, e: Entry) returns (i: nat)
    requires e in summary
    ensures 1 <= i < |CsvRows(summary, total)| - 1 && CsvRows(summary, total)[i] == SummaryRowOf(e)
  {
    var sorted := SortedSummary(summary);
    assert e in multiset(sorted);
    var j :| 0 <= j < |sorted| && sorted[j] == e;
    i := j + 1;
  }

  /** The entry holding a key of the summary. */
  lemma KeyEntry(summary: seq<Entry>, k: SummaryKey) returns (e: Entry)
    requires k in KeySet(summary)
    ensures e in summary && e.key == k
  {
    e :| e in summary && e.key == k;
  }

  /** The summary row of one key present in the records. */
  lemma KeyHasRow(records: seq<Record>, total: real, k: SummaryKey) returns (i: nat)
    requires k in RecordKeys(records)
    ensures 1 <= i < |CsvRows(Summarize(records), total)| - 1
    ensures CsvRows(Summarize(records), total)[i] == SummaryRow(k.typeName, k.size, SumFor(records, k))
  {
    var summary := Summarize(records);
    assert k in KeySet(summary);
    var e := KeyEntry(summary, k);
    EntriesAreKeySums(records);
    assert e.total == SumFor(records, k);
    i := EntryRow(summary, total, e);
  }

  /** Conversely to `TakeoffRows`: every key present in the records has a
      summary row, between the header and the total row, carrying the sum
      of its numeric lengths. */
  lemma KeysHaveRows(records: seq<Record>, total: real)
    ensures var rows := CsvRows(Summarize(records), total);
            forall k :: k in RecordKeys(records) ==>
              exists i :: 1 <= i < |rows| - 1 && rows[i] == SummaryRow(k.typeName, k.size, SumFor(records, k))
  {
    var rows := CsvRows(Summarize(records), total);
    forall k | k in RecordKeys(records)
      ensures exists i :: 1 <= i < |rows| - 1 && rows[i] == SummaryRow(k.typeName, k.size, SumFor(records, k))
    {
      var i := KeyHasRow(records, total, k);
    }
  }
}

=== FILE: geometry.dfy ===
/** Points and squared distances. Host coordinates are in feet; lengths are
    exact reals here. */
module Geometry {

  datatype Point = Point(x: real, y: real, z: real)

  function Abs(x: real): (r: real)
    ensures r >= 0.0 && (r == x || r == -x)
  {
    if x < 0.0 then -x else x
  }

  function Add(p: Point, q: Point): Point
  {
    Point(p.x + q.x, p.y + q.y, p.z + q.z)
  }

  function Scale(p: Point, k: real): Point
  {
    Point(p.x * k, p.y * k, p.z * k)
  }

  function Negate(p: Point): Point
  {
    Point(-p.x, -p.y, -p.z)
  }

  function Dot(p: Point, q: Point): real
  {
    p.x * q.x + p.y * q.y + p.z * q.z
  }

  /** Turning one vector round negates the dot product. */
  lemma DotNegate(p: Point, q: Point)
    ensures Dot(p, Negate(q)) == -Dot(p, q)
  {
    assert p.x * -q.x == -(p.x * q.x);
    assert p.y * -q.y == -(p.y * q.y);
    assert p.z * -q.z == -(p.z * q.z);
  }

  function SqDist(p: Point, q: Point): (r: real)
    ensures r >= 0.0
  {
    (p.x - q.x) * (p.x - q.x) + (p.y - q.y) * (p.y - q.y) + (p.z - q.z) * (p.z - q.z)
  }

  /** `p.DistanceTo(q) < d`, compared squared so that no square root is
      needed; for d >= 0 the two are equivalent. */
  predicate TooClose(p: Point, q: Point, d: real)
  {
    SqDist(p, q) < d * d
  }

  /** Every two points of `s` are at least `d` apart. */
  ghost predicate Spread(s: seq<Point>, d: real)
  {
    forall i, j :: 0 <= i < j < |s| ==> !TooClose(s[i], s[j], d)
  }

  lemma TooCloseSymmetric(p: Point, q: Point, d: real)
    ensures TooClose(p, q, d) == TooClose(q, p, d)
  {
  }

  /** Closer than a smaller clearance means closer than a larger one. */
  lemma TooCloseMonotone(p: Point, q: Point, d1: real, d2: real)
    requires 0.0 <= d1 <= d2
    requires TooClose(p, q, d1)
    ensures TooClose(p, q, d2)
  {
    assert d1 * d1 <= d2 * d2;
  }
}

=== FILE: lighting_points.dfy ===
/** Fixture points for one room: a lattice swept row by row over the room's
    bounding box, then points sampled along the room's boundary and pushed
    3 feet inwards; a candidate is kept only when it is in the room, not
    near a wall, and at least 8 feet from every point kept so far. */
module LightingPoints {

  import opened Wrappers
  import opened Seqs
  import opened Geometry
  import opened LightingSettings

  const BoundaryBuffer: real := 1.0
  const WallProximity: real := 2.5
  const WallThickness: real := 0.5
  /** How far boundary samples are pushed off the boundary. */
  const WallOffset: real := 3.0
  const AntiClustering: real := 8.0
  /** The spacing the finished layout is checked against. */
  const SpacingCheck: real := 6.0
  /** Boundary samples are 1.5 grid steps apart. */
  const SampleStride: real := 1.5

  lemma WallOffsetIsProximityPlusThickness()
    ensures WallOffset == WallProximity + WallThickness
  {
  }

  /* ---------------------------------------------------------------------- */
  /* Pairwise clearance.                                                     */
  /* ---------------------------------------------------------------------- */

  /** Points i < j are closer than `min`. */
  predicate Violates(points: seq<Point>, min: real, i: int, j: int)
  {
    0 <= i < j < |points| && TooClose(points[i], points[j], min)
  }

  predicate PairBefore(a: (nat, nat), b: (nat, nat))
  {
    a.0 < b.0 || (a.0 == b.0 && a.1 < b.1)
  }

  /** `check_clearance`: every pair i < j closer than `min`, listed in the
      order the two loops meet them (so each pair once), and whether there
      is none. */
  method CheckClearance(points: seq<Point>, min: real) returns (ok: bool, violations: seq<(nat, nat)>)
    ensures forall i, j :: (i, j) in violations <==> Violates(points, min, i, j)
    ensures forall a, b :: 0 <= a < b < |violations| ==> PairBefore(violations[a], violations[b])
    ensures ok <==> forall i, j :: !Violates(points, min, i, j)
  {
    violations := [];
    for i := 0 to |points|
      invariant forall a, b :: (a, b) in violations <==> Violates(points, min, a, b) && a < i
      invariant forall a, b :: 0 <= a < b < |violations| ==> PairBefore(violations[a], violations[b])
      invariant forall v :: v in violations ==> v.0 < i
    {
      for j := i + 1 to |points|
        invariant forall a, b :: (a, b) in violations <==>
                    Violates(points, min, a, b) && (a < i || (a == i && b < j))
        invariant forall a, b :: 0 <= a < b < |violations| ==> PairBefore(violations[a], violations[b])
        invariant forall v :: v in violations ==> v.0 < i || (v.0 == i && v.1 < j)
      {
        if TooClose(points[i], points[j], min) {
          violations := violations + [(i, j)];
        }
      }
    }
    ok := |violations| == 0;
    assert ok <==> forall i, j :: !Violates(points, min, i, j) by {
      if !ok {
        assert violations[0] in violations;
      }
    }
  }

  /** Points kept at least 8 apart pass the 6-foot spacing check. */
  lemma SpreadPassesCheck(points: seq<Point>)
    requires Spread(points, AntiClustering)
    ensures forall i, j :: !Violates(points, SpacingCheck, i, j)
  {
    forall i, j | 0 <= i < j < |points| ensures !TooClose(points[i], points[j], SpacingCheck) {
      assert !TooClose(points[i], points[j], AntiClustering);
    }
  }

  /* ---------------------------------------------------------------------- */
  /* The lattice.                                                            */
  /* ---------------------------------------------------------------------- */

  /** The k-th position of a sweep from `start` in steps of g. */
  function StepAt(start: real, g: real, k: nat): real
  {
    start + (k as real) * g
  }

  /** How many positions a `while x < end: ... x += g` sweep from `start`
      visits: exactly the k with start + k * g < end. */
  function Steps(start: real, end: real, g: real): (n: nat)
    requires g > 0.0
    ensures forall k: nat {:trigger StepAt(start, g, k)} :: k < n <==> StepAt(start, g, k) < end
  {
    if start >= end then
      assert forall k: nat {:trigger StepAt(start, g, k)} :: StepAt(start, g, k) >= start by {
        forall k: nat ensures StepAt(start, g, k) >= start {
          assert (k as real) * g >= 0.0;
        }
      }
      0
    else
      var q := (end - start) / g;
      var n := -((-q).Floor);
      assert q * g == end - start;
      assert (n - 1) as real < q <= n as real;
      assert n >= 1;
      forall k: nat ensures k < n <==> StepAt(start, g, k) < end {
        if k < n {
          assert (k as real) < q;
          assert (k as real) * g < q * g;
        } else {
          assert (k as real) >= q;
          assert (k as real) * g >= q * g;
        }
      }
      n
  }

  lemma StepsApart(start: real, g: real, a: nat, b: nat)
    requires g > 0.0 && a < b
    ensures StepAt(start, g, b) - StepAt(start, g, a) >= g
  {
    var d := (b - a) as real;
    assert (b as real) * g - (a as real) * g == d * g;
    assert (d - 1.0) * g >= 0.0;
  }

  /** Points at least d apart in x, or in y, are not too close. */
  lemma FarApart(p: Point, q: Point, d: real)
    requires d >= 0.0
    requires q.x - p.x >= d || p.x - q.x >= d || q.y - p.y >= d || p.y - q.y >= d
    ensures !TooClose(p, q, d)
  {
    var dx, dy, dz := p.x - q.x, p.y - q.y, p.z - q.z;
    assert dx * dx >= 0.0 && dy * dy >= 0.0 && dz * dz >= 0.0;
    if dx >= d || -dx >= d {
      assert dx * dx >= d * d;
    } else {
      assert dy * dy >= d * d;
    }
  }

  /** One x position of the sweep: the y positions, in order. */
  function Column(x: real, y0: real, ny: nat, g: real, z: real): (r: seq<Point>)
    ensures |r| == ny
    ensures forall j :: 0 <= j < ny ==> r[j] == Point(x, StepAt(y0, g, j), z)
  {
    seq(ny, j requires 0 <= j < ny => Point(x, StepAt(y0, g, j), z))
  }

  lemma ColumnSpread(x: real, y0: real, ny: nat, g: real, z: real)
    requires g >= AntiClustering
    ensures Spread(Column(x, y0, ny, g, z), AntiClustering)
  {
    var c := Column(x, y0, ny, g, z);
    forall a, b | 0 <= a < b < |c| ensures !TooClose(c[a], c[b], AntiClustering) {
      StepsApart(y0, g, a, b);
      FarApart(c[a], c[b], AntiClustering);
    }
  }

  /** No point of a is too close to a point of b. */
  ghost predicate Apart(a: seq<Point>, b: seq<Point>, d: real)
  {
    forall p, q :: p in a && q in b ==> !TooClose(p, q, d)
  }

  lemma SpreadConcat(a: seq<Point>, b: seq<Point>, d: real)
    requires Spread(a, d) && Spread(b, d)
    requires Apart(a, b, d)
    ensures Spread(a + b, d)
  {
    var s := a + b;
    forall i, j | 0 <= i < j < |s| ensures !TooClose(s[i], s[j], d) {
      if j < |a| {
        assert s[i] == a[i] && s[j] == a[j];
      } else if i >= |a| {
        assert s[i] == b[i - |a|] && s[j] == b[j - |a|];
      } else {
        assert s[i] in a && s[j] in b;
      }
    }
  }

  /** p is the point of sweep positions i and j. */
  predicate OnLattice(p: Point, x0: real, y0: real, nx: nat, ny: nat, g: real, z: real)
  {
    exists i: nat, j: nat :: i < nx && j < ny && p == Point(StepAt(x0, g, i), StepAt(y0, g, j), z)
  }

  /** The candidates of the lattice sweep: x positions outer, y positions
      inner, every point on the plane z. */
  function Lattice(x0: real, y0: real, nx: nat, ny: nat, g: real, z: real): (r: seq<Point>)
    requires g > 0.0
    ensures |r| == nx * ny
    ensures forall p :: p in r ==> p.z == z && x0 <= p.x && p.x + g <= StepAt(x0, g, nx)
    ensures forall p :: p in r ==> OnLattice(p, x0, y0, nx, ny, g, z)
  {
    if nx == 0 then []
    else
      var front := Lattice(x0, y0, nx - 1, ny, g, z);
      var x := StepAt(x0, g, nx - 1);
      assert x + g == StepAt(x0, g, nx) && x >= x0 by {
        assert ((nx - 1) as real) * g + g == (nx as real) * g;
        assert ((nx - 1) as real) * g >= 0.0;
      }
      forall p | p in front ensures p.x + g <= StepAt(x0, g, nx) {
        assert StepAt(x0, g, nx - 1) <= StepAt(x0, g, nx);
      }
      assert (nx - 1) * ny + ny == nx * ny;
      front + Column(x, y0, ny, g, z)
  }

  lemma LatticeUnfold(x0: real, y0: real, nx: nat, ny: nat, g: real, z: real)
    requires g > 0.0 && nx > 0
    ensures Lattice(x0, y0, nx, ny, g, z)
            == Lattice(x0, y0, nx - 1, ny, g, z) + Column(StepAt(x0, g, nx - 1), y0, ny, g, z)
  {
  }

  /** The points swept before column nx - 1 lie at least one step to its
      left. */
  lemma FrontLeftOfColumn(x0: real, y0: real, nx: nat, ny: nat, g: real, z: real)
    requires g >= AntiClustering && nx > 0
    ensures Apart(Lattice(x0, y0, nx - 1, ny, g, z), Column(StepAt(x0, g, nx - 1), y0, ny, g, z), AntiClustering)
  {
    var x := StepAt(x0, g, nx - 1);
    var col := Column(x, y0, ny, g, z);
    forall p, q | p in Lattice(x0, y0, nx - 1, ny, g, z) && q in col ensures !TooClose(p, q, AntiClustering) {
      var j :| 0 <= j < ny && col[j] == q;
      FarApart(p, q, AntiClustering);
    }
  }

  /** Lattice points are at least one step apart, so with a step of at
      least 8 they are spread for anti-clustering. */
  lemma {:induction false} LatticeSpread(x0: real, y0: real, nx: nat, ny: nat, g: real, z: real)
    requires g >= AntiClustering
    ensures Spread(Lattice(x0, y0, nx, ny, g, z), AntiClustering)
  {
    if nx > 0 {
      LatticeSpread(x0, y0, nx - 1, ny, g, z);
      AddColumnSpread(x0, y0, nx, ny, g, z);
    }
  }

  /** Sweeping one more column keeps the lattice spread. */
  lemma AddColumnSpread(x0: real, y0: real, nx: nat, ny: nat, g: real, z: real)
    requires g >= AntiClustering && nx > 0
    requires Spread(Lattice(x0, y0, nx - 1, ny, g, z), AntiClustering)
    ensures Spread(Lattice(x0, y0, nx, ny, g, z), AntiClustering)
  {
    var x := StepAt(x0, g, nx - 1);
    ColumnSpread(x, y0, ny, g, z);
    FrontLeftOfColumn(x0, y0, nx, ny, g, z);
    SpreadConcat(Lattice(x0, y0, nx - 1, ny, g, z), Column(x, y0, ny, g, z), AntiClustering);
    LatticeUnfold(x0, y0, nx, ny, g, z);
  }

  /* ---------------------------------------------------------------------- */
  /* Screening candidates.                                                   */
  /* ---------------------------------------------------------------------- */

  datatype Verdict = Accepted | OutsideRoom | NearWall | Clustered

  datatype Screened = Screened(accepted: seq<Point>, verdicts: seq<Verdict>)

  /** The candidates whose verdict is Accepted, in order. */
  function Chosen(cands: seq<Point>, verdicts: seq<Verdict>): (r: seq<Point>)
    requires |verdicts| == |cands|
    ensures |r| <= |cands|
  {
    if |cands| == 0 then []
    else
      var n := |cands| - 1;
      Chosen(cands[..n], verdicts[..n]) + (if verdicts[n] == Accepted then [cands[n]] else [])
  }

  /** Some kept point is closer than the anti-clustering distance. */
  predicate Crowded(c: Point, kept: seq<Point>)
  {
    exists q :: q in kept && TooClose(c, q, AntiClustering)
  }

  /** The verdict on one candidate, given the points kept so far. */
  function Judge(c: Point, kept: seq<Point>, inRoom: Point -> bool, nearWall: Point -> bool): Verdict
  {
    if !inRoom(c) then OutsideRoom
    else if nearWall(c) then NearWall
    else if Crowded(c, kept) then Clustered
    else Accepted
  }

  /** The verdict agrees with the host's two tests and with the greedy
      rule: a candidate inside the room and off the walls is rejected for
      clustering exactly when a kept point crowds it, and accepted
      otherwise. */
  predicate HostVerdict(v: Verdict, c: Point, kept: seq<Point>, inRoom: Point -> bool, nearWall: Point -> bool)
  {
    && (v == OutsideRoom <==> !inRoom(c))
    && (v == NearWall <==> inRoom(c) && nearWall(c))
    && (v == Clustered <==> inRoom(c) && !nearWall(c) && Crowded(c, kept))
  }

  lemma JudgeFollowsHost(c: Point, kept: seq<Point>, inRoom: Point -> bool, nearWall: Point -> bool)
    ensures HostVerdict(Judge(c, kept, inRoom, nearWall), c, kept, inRoom, nearWall)
  {
  }

  /** Candidates screened in order against `prior` and the candidates kept
      before them: the kept points are exactly the accepted candidates, and
      they stay spread from `prior` and from each other. */
  function Screen(prior: seq<Point>, cands: seq<Point>, inRoom: Point -> bool, nearWall: Point -> bool): (r: Screened)
    ensures |r.verdicts| == |cands|
    ensures r.accepted == Chosen(cands, r.verdicts)
    ensures Spread(prior, AntiClustering) ==> Spread(prior + r.accepted, AntiClustering)
  {
    if |cands| == 0 then Screened([], [])
    else
      var n := |cands| - 1;
      var front := Screen(prior, cands[..n], inRoom, nearWall);
      var c := cands[n];
      var v := Judge(c, prior + front.accepted, inRoom, nearWall);
      var r := ScreenNext(prior, front, c, inRoom, nearWall);
      assert r.verdicts[..n] == front.verdicts;
      assert Spread(prior, AntiClustering) ==> Spread(prior + r.accepted, AntiClustering) by {
        if Spread(prior, AntiClustering) {
          if v == Accepted {
            KeepSpread(prior + front.accepted, c);
            assert prior + r.accepted == (prior + front.accepted) + [c];
          } else {
            assert r.accepted == front.accepted;
          }
        }
      }
      r
  }

  /** One more candidate judged against `prior` and the points kept so
      far. */
  function ScreenNext(prior: seq<Point>, front: Screened, c: Point,
                      inRoom: Point -> bool, nearWall: Point -> bool): Screened
  {
    var v := Judge(c, prior + front.accepted, inRoom, nearWall);
    Screened(front.accepted + (if v == Accepted then [c] else []), front.verdicts + [v])
  }

  lemma ScreenUnfold(prior: seq<Point>, cands: seq<Point>, inRoom: Point -> bool, nearWall: Point -> bool)
    requires |cands| > 0
    ensures Screen(prior, cands, inRoom, nearWall)
            == ScreenNext(prior, Screen(prior, cands[..|cands| - 1], inRoom, nearWall), cands[|cands| - 1], inRoom, nearWall)
  {
  }

  /** Every verdict agrees with the host's tests on its candidate, judged
      against `prior` and the candidates accepted before it. */
  ghost predicate FollowsHost(verdicts: seq<Verdict>, cands: seq<Point>, prior: seq<Point>,
                              inRoom: Point -> bool, nearWall: Point -> bool)
  {
    && |verdicts| == |cands|
    && forall k :: 0 <= k < |cands| ==>
         HostVerdict(verdicts[k], cands[k], prior + Chosen(cands[..k], verdicts[..k]), inRoom, nearWall)
  }

  lemma FollowsHostSnoc(verdicts: seq<Verdict>, cands: seq<Point>, prior: seq<Point>, v: Verdict, c: Point,
                        inRoom: Point -> bool, nearWall: Point -> bool)
    requires FollowsHost(verdicts, cands, prior, inRoom, nearWall)
    requires HostVerdict(v, c, prior + Chosen(cands, verdicts), inRoom, nearWall)
    ensures FollowsHost(verdicts + [v], cands + [c], prior, inRoom, nearWall)
  {
    var vs, cs := verdicts + [v], cands + [c];
    forall k | 0 <= k < |cs|
      ensures HostVerdict(vs[k], cs[k], prior + Chosen(cs[..k], vs[..k]), inRoom, nearWall)
    {
      if k < |cands| {
        assert vs[k] == verdicts[k] && cs[k] == cands[k];
        assert cs[..k] == cands[..k] && vs[..k] == verdicts[..k];
      } else {
        assert cs[..k] == cands && vs[..k] == verdicts;
      }
    }
  }

  /** Each verdict follows the host's tests and the greedy rule:
      OutsideRoom exactly when the candidate is outside the room, NearWall
      exactly when it is inside but near a wall, Clustered exactly when it
      is inside, off the walls and crowded by `prior` or an earlier
      accepted candidate. */
  lemma {:induction false} ScreenFollowsHost(prior: seq<Point>, cands: seq<Point>,
                                             inRoom: Point -> bool, nearWall: Point -> bool)
    ensures FollowsHost(Screen(prior, cands, inRoom, nearWall).verdicts, cands, prior, inRoom, nearWall)
  {
    if |cands| > 0 {
      var n := |cands| - 1;
      var front := Screen(prior, cands[..n], inRoom, nearWall);
      ScreenFollowsHost(prior, cands[..n], inRoom, nearWall);
      JudgeFollowsHost(cands[n], prior + front.accepted, inRoom, nearWall);
      FollowsHostSnoc(front.verdicts, cands[..n], prior, Judge(cands[n], prior + front.accepted, inRoom, nearWall),
                      cands[n], inRoom, nearWall);
      ScreenUnfold(prior, cands, inRoom, nearWall);
      SplitLast(cands);
    }
  }

  /** Every kept point is a candidate inside the room and away from the
      walls. */
  lemma {:induction false} ChosenAreHostApproved(prior: seq<Point>, cands: seq<Point>,
                                                 inRoom: Point -> bool, nearWall: Point -> bool)
    ensures forall p :: p in Screen(prior, cands, inRoom, nearWall).accepted ==>
              p in cands && inRoom(p) && !nearWall(p)
  {
    if |cands| > 0 {
      var n := |cands| - 1;
      var front := Screen(prior, cands[..n], inRoom, nearWall);
      ChosenAreHostApproved(prior, cands[..n], inRoom, nearWall);
      forall p | p in front.accepted ensures p in cands {
        assert p in cands[..n];
      }
    }
  }

  /** Adding a point that no kept point crowds keeps the kept points
      spread. */
  lemma KeepSpread(kept: seq<Point>, c: Point)
    requires Spread(kept, AntiClustering) && !Crowded(c, kept)
    ensures Spread(kept + [c], AntiClustering)
  {
    var s := kept + [c];
    forall i, j | 0 <= i < j < |s| ensures !TooClose(s[i], s[j], AntiClustering) {
      if j == |kept| {
        assert s[i] in kept;
        TooCloseSymmetric(c, s[i], AntiClustering);
      } else {
        assert s[i] == kept[i] && s[j] == kept[j];
      }
    }
  }

  /** Accepted and rejected candidates together are all of them. */
  lemma {:induction false} ChosenAndRejected(cands: seq<Point>, verdicts: seq<Verdict>)
    requires |verdicts| == |cands|
    ensures |Chosen(cands, verdicts)| + Rejected(verdicts) == |cands|
  {
    if |cands| > 0 {
      var n := |cands| - 1;
      ChosenAndRejected(cands[..n], verdicts[..n]);
    }
  }

  /** The number of rejected candidates (the script's `failed_points`). */
  function Rejected(verdicts: seq<Verdict>): (n: nat)
    ensures n <= |verdicts|
  {
    if |verdicts| == 0 then 0
    else Rejected(verdicts[..|verdicts| - 1]) + (if verdicts[|verdicts| - 1] == Accepted then 0 else 1)
  }

  /** When the prior points and candidates are already pairwise spread, no
      candidate is rejected for clustering. */
  lemma {:induction false} NoClusteringWhenSpread(prior: seq<Point>, cands: seq<Point>,
                                                   inRoom: Point -> bool, nearWall: Point -> bool)
    requires Spread(prior + cands, AntiClustering)
    ensures Clustered !in Screen(prior, cands, inRoom, nearWall).verdicts
  {
    if |cands| > 0 {
      var n := |cands| - 1;
      var front := Screen(prior, cands[..n], inRoom, nearWall);
      SpreadPrefix(prior, cands, n);
      NoClusteringWhenSpread(prior, cands[..n], inRoom, nearWall);
      ChosenAreHostApproved(prior, cands[..n], inRoom, nearWall);
      LastNotCrowded(prior, cands, n, front.accepted);
      ScreenUnfold(prior, cands, inRoom, nearWall);
    }
  }

  /** A prefix of spread points is spread. */
  lemma SpreadPrefix(prior: seq<Point>, cands: seq<Point>, n: nat)
    requires n <= |cands| && Spread(prior + cands, AntiClustering)
    ensures Spread(prior + cands[..n], AntiClustering)
  {
    var all := prior + cands;
    var s := prior + cands[..n];
    forall i, j | 0 <= i < j < |s| ensures !TooClose(s[i], s[j], AntiClustering) {
      assert s[i] == all[i] && s[j] == all[j];
    }
  }

  /** With prior + cands spread, candidate n is not crowded by the prior
      points and candidates kept before it. */
  lemma LastNotCrowded(prior: seq<Point>, cands: seq<Point>, n: nat, acc: seq<Point>)
    requires n < |cands| && Spread(prior + cands, AntiClustering)
    requires forall p :: p in acc ==> p in cands[..n]
    ensures !Crowded(cands[n], prior + acc)
  {
    var all := prior + cands;
    var c := cands[n];
    forall q | q in prior + acc ensures !TooClose(c, q, AntiClustering) {
      var i := FindEarlier(prior, cands, n, q, acc);
      assert all[i] == q && all[|prior| + n] == c;
      TooCloseSymmetric(c, q, AntiClustering);
    }
  }

  /** A point kept before candidate n sits at an earlier position of
      prior + cands. */
  lemma FindEarlier(prior: seq<Point>, cands: seq<Point>, n: nat, q: Point, acc: seq<Point>) returns (i: nat)
    requires n < |cands|
    requires forall p :: p in acc ==> p in cands[..n]
    requires q in prior + acc
    ensures i < |prior| + n && (prior + cands)[i] == q
  {
    if q in prior {
      i :| 0 <= i < |prior| && prior[i] == q;
    } else {
      assert q in cands[..n];
      var m :| 0 <= m < n && cands[..n][m] == q;
      i := |prior| + m;
    }
  }

  /** No lattice candidate is ever rejected for clustering: lattice points
      are at least one grid step (10 feet or more) apart. */
  lemma LatticeNeverClusters(x0: real, y0: real, nx: nat, ny: nat, g: real, z: real,
                             inRoom: Point -> bool, nearWall: Point -> bool)
    requires g >= SpacingMin
    ensures Clustered !in Screen([], Lattice(x0, y0, nx, ny, g, z), inRoom, nearWall).verdicts
  {
    LatticeSpread(x0, y0, nx, ny, g, z);
    assert [] + Lattice(x0, y0, nx, ny, g, z) == Lattice(x0, y0, nx, ny, g, z);
    NoClusteringWhenSpread([], Lattice(x0, y0, nx, ny, g, z), inRoom, nearWall);
  }

  /* ---------------------------------------------------------------------- */
  /* Boundary samples.                                                       */
  /* ---------------------------------------------------------------------- */

  /** A point of a boundary curve and the curve's normalised tangent there. */
  datatype Frame = Frame(point: Point, tangent: Point)

  /** A room boundary curve: its length and its evaluation at a parameter
      (None when the host raises). */
  datatype BoundaryCurve = BoundaryCurve(length: real, frameAt: real -> Option<Frame>)

  /** The parameters sampled along a curve: t_i = i * 1.5g / length for
      i = 0 .. floor(length / 1.5g), all within [0, 1]. */
  function SampleParams(length: real, g: real): (ts: seq<real>)
    requires length > 0.0 && g > 0.0
    ensures |ts| == (length / (SampleStride * g)).Floor + 1
    ensures forall i :: 0 <= i < |ts| ==> ts[i] * length == (i as real) * SampleStride * g
    ensures forall i :: 0 <= i < |ts| ==> 0.0 <= ts[i] <= 1.0
  {
    var stride := SampleStride * g;
    var num := (length / stride).Floor;
    assert num >= 0;
    var ts := seq(num + 1, i requires 0 <= i <= num => (i as real) * stride / length);
    forall i | 0 <= i < |ts|
      ensures ts[i] * length == (i as real) * SampleStride * g && 0.0 <= ts[i] <= 1.0
    {
      ParamScales(i, length, g);
      ParamWithinCurve(i, length, stride);
    }
    ts
  }

  /** The parameter of sample i is the fraction of the curve's length
      that i strides cover. */
  lemma ParamScales(i: int, length: real, g: real)
    requires length > 0.0
    ensures ((i as real) * (SampleStride * g) / length) * length == (i as real) * SampleStride * g
  {
    var d := (i as real) * (SampleStride * g);
    assert (d / length) * length == d;
  }

  /** A sample index up to floor(length / stride) gives a parameter in
      [0, 1]. */
  lemma ParamWithinCurve(i: int, length: real, stride: real)
    requires length > 0.0 && stride > 0.0 && 0 <= i <= (length / stride).Floor
    ensures 0.0 <= (i as real) * stride / length <= 1.0
  {
    var q := length / stride;
    assert q * stride == length;
    assert (i as real) <= q;
    assert (i as real) * stride <= q * stride;
  }

  /** The sample pushed off the boundary: `WallOffset` along the tangent
      turned a quarter turn, on the fixture plane. */
  function OffsetPoint(f: Frame, z: real): Point
  {
    Point(f.point.x + -f.tangent.y * WallOffset, f.point.y + f.tangent.x * WallOffset, z)
  }

  /** The push is perpendicular to the tangent and, for a horizontal unit
      tangent, exactly `WallOffset` long. */
  lemma OffsetIsPerpendicular(f: Frame, z: real)
    ensures var p := OffsetPoint(f, z);
            (p.x - f.point.x) * f.tangent.x + (p.y - f.point.y) * f.tangent.y == 0.0
    ensures var p := OffsetPoint(f, z);
            f.tangent.x * f.tangent.x + f.tangent.y * f.tangent.y == 1.0 ==>
              (p.x - f.point.x) * (p.x - f.point.x) + (p.y - f.point.y) * (p.y - f.point.y)
              == WallOffset * WallOffset
  {
    var tx, ty := f.tangent.x, f.tangent.y;
    assert (-ty * WallOffset) * (-ty * WallOffset) + (tx * WallOffset) * (tx * WallOffset)
        == (tx * tx + ty * ty) * (WallOffset * WallOffset);
  }

  /** The offset samples of one curve, stopping at the first parameter the
      host cannot evaluate (the rest of that curve is abandoned). */
  function Samples(c: BoundaryCurve, ts: seq<real>, z: real): (r: seq<Point>)
    ensures |r| <= |ts|
    ensures forall k :: 0 <= k < |r| ==> c.frameAt(ts[k]).Some? && r[k] == OffsetPoint(c.frameAt(ts[k]).value, z)
    ensures |r| < |ts| ==> c.frameAt(ts[|r|]).None?
  {
    if |ts| == 0 then []
    else match c.frameAt(ts[0])
      case None => []
      case Some(f) => [OffsetPoint(f, z)] + Samples(c, ts[1..], z)
  }

  /** The candidates of one boundary segment: none for a missing curve or
      one shorter than the minimum spacing. */
  function SegmentCandidates(seg: Option<BoundaryCurve>, g: real, z: real): (r: seq<Point>)
    requires g > 0.0
    ensures seg.None? || seg.value.length < SpacingMin ==> r == []
    ensures seg.Some? && seg.value.length >= SpacingMin ==>
              r == Samples(seg.value, SampleParams(seg.value.length, g), z)
    ensures forall p :: p in r ==> p.z == z
  {
    if seg.None? || seg.value.length < SpacingMin then []
    else Samples(seg.value, SampleParams(seg.value.length, g), z)
  }

  /** The boundary candidates of all loops, in order. */
  function BoundaryCandidates(loops: seq<seq<Option<BoundaryCurve>>>, g: real, z: real): (r: seq<Point>)
    requires g > 0.0
    ensures forall p :: p in r ==> p.z == z
  {
    if |loops| == 0 then []
    else LoopCandidates(loops[0], g, z) + BoundaryCandidates(loops[1..], g, z)
  }

  function LoopCandidates(loop: seq<Option<BoundaryCurve>>, g: real, z: real): (r: seq<Point>)
    requires g > 0.0
    ensures forall p :: p in r ==> p.z == z
  {
    if |loop| == 0 then []
    else SegmentCandidates(loop[0], g, z) + LoopCandidates(loop[1..], g, z)
  }
  /** The candidates of a loop are those of its segments, segment after
      segment. */
  lemma {:induction false} LoopCandidatesAppend(a: seq<Option<BoundaryCurve>>, b: seq<Option<BoundaryCurve>>, g: real, z: real)
    requires g > 0.0
    ensures LoopCandidates(a + b, g, z) == LoopCandidates(a, g, z) + LoopCandidates(b, g, z)
  {
    if |a| == 0 {
      assert a + b == b;
    } else {
      ConsAppend(a, b);
      LoopCandidatesAppend(a[1..], b, g, z);
      ConcatAssoc(SegmentCandidates(a[0], g, z), LoopCandidates(a[1..], g, z), LoopCandidates(b, g, z));
    }
  }

  /** A loop of one segment gives that segment's candidates. */
  lemma LoopCandidatesSingle(seg: Option<BoundaryCurve>, g: real, z: real)
    requires g > 0.0
    ensures LoopCandidates([seg], g, z) == SegmentCandidates(seg, g, z)
  {
    assert [seg][1..] == [];
  }

  /** The boundary candidates are those of the loops, loop after loop. */
  lemma {:induction false} BoundaryCandidatesAppend(a: seq<seq<Option<BoundaryCurve>>>, b: seq<seq<Option<BoundaryCurve>>>, g: real, z: real)
    requires g > 0.0
    ensures BoundaryCandidates(a + b, g, z) == BoundaryCandidates(a, g, z) + BoundaryCandidates(b, g, z)
  {
    if |a| == 0 {
      assert a + b == b;
    } else {
      ConsAppend(a, b);
      BoundaryCandidatesAppend(a[1..], b, g, z);
      ConcatAssoc(LoopCandidates(a[0], g, z), BoundaryCandidates(a[1..], g, z), BoundaryCandidates(b, g, z));
    }
  }

  /** A boundary of one loop gives that loop's candidates. */
  lemma BoundaryCandidatesSingle(loop: seq<Option<BoundaryCurve>>, g: real, z: real)
    requires g > 0.0
    ensures BoundaryCandidates([loop], g, z) == LoopCandidates(loop, g, z)
  {
    assert [loop][1..] == [];
  }


  /* ---------------------------------------------------------------------- */
  /* One room.                                                               */
  /* ---------------------------------------------------------------------- */

  datatype Box = Box(min: Point, max: Point)

  /** What the generator reads from a room: its area, level elevation and
      upper offset (None when absent), boundary loops (None when the host
      returns none), bounding box, and the host's point-in-room and
      near-wall tests (the latter at `WallOffset`). */
  datatype Room = Room(
    area: real,
    levelElevation: Option<real>,
    upperOffset: Option<real>,
    boundary: Option<seq<seq<Option<BoundaryCurve>>>>,
    bbox: Option<Box>,
    inRoom: Point -> bool,
    nearWall: Point -> bool)

  datatype GridError =
    | NoBoundarySegments
    | NoBoundingBox
    | ZeroFixtureTarget
    | NoValidPoints(rejected: nat)

  predicate HasBoundary(room: Room)
  {
    room.boundary.Some? && room.boundary.value != []
  }

  /** The elevation of the fixture plane for a room with a bounding box. */
  function RoomPlane(room: Room, zLevel: Option<real>): real
    requires room.bbox.Some?
  {
    PlaneZ(zLevel, GridUpperLimit(room.levelElevation, room.upperOffset),
           room.bbox.value.min.z, room.bbox.value.max.z)
  }

  /** The lattice candidates of a room. */
  function RoomLattice(box: Box, g: real, z: real): (r: seq<Point>)
    requires g > 0.0
    ensures |r| == Steps(box.min.x + g / 2.0 + BoundaryBuffer, box.max.x - BoundaryBuffer, g)
                   * Steps(box.min.y + g / 2.0 + BoundaryBuffer, box.max.y - BoundaryBuffer, g)
    ensures forall p :: p in r ==>
              && box.min.x + g / 2.0 + BoundaryBuffer <= p.x < box.max.x - BoundaryBuffer
              && box.min.y + g / 2.0 + BoundaryBuffer <= p.y < box.max.y - BoundaryBuffer
              && p.z == z
  {
    var x0 := box.min.x + g / 2.0 + BoundaryBuffer;
    var y0 := box.min.y + g / 2.0 + BoundaryBuffer;
    var nx := Steps(x0, box.max.x - BoundaryBuffer, g);
    var ny := Steps(y0, box.max.y - BoundaryBuffer, g);
    var r := Lattice(x0, y0, nx, ny, g, z);
    forall p | p in r
      ensures x0 <= p.x < box.max.x - BoundaryBuffer && y0 <= p.y < box.max.y - BoundaryBuffer
    {
      var i: nat, j: nat :| i < nx && j < ny && p == Point(StepAt(x0, g, i), StepAt(y0, g, j), z);
      assert (i as real) * g >= 0.0 && (j as real) * g >= 0.0;
    }
    r
  }

  /** The lattice candidates the screen keeps. */
  function LatticeKept(room: Room, g: real, z: real): seq<Point>
    requires room.bbox.Some? && g > 0.0
  {
    Screen([], RoomLattice(room.bbox.value, g, z), room.inRoom, room.nearWall).accepted
  }

  /** The boundary candidates the screen keeps, screened against the kept
      lattice points. */
  function BorderKept(room: Room, g: real, z: real): seq<Point>
    requires room.bbox.Some? && room.boundary.Some? && g > 0.0
  {
    Screen(LatticeKept(room, g, z), BoundaryCandidates(room.boundary.value, g, z),
           room.inRoom, room.nearWall).accepted
  }

  /** The kept points of a room lie in it, off its walls, on the plane z,
      and at least 8 feet apart. */
  lemma LayoutIsSound(room: Room, g: real, z: real)
    requires room.bbox.Some? && room.boundary.Some? && g >= SpacingMin
    ensures Spread(LatticeKept(room, g, z) + BorderKept(room, g, z), AntiClustering)
    ensures forall p :: p in LatticeKept(room, g, z) + BorderKept(room, g, z) ==>
              room.inRoom(p) && !room.nearWall(p) && p.z == z
  {
    var lattice := RoomLattice(room.bbox.value, g, z);
    var border := BoundaryCandidates(room.boundary.value, g, z);
    var kept := LatticeKept(room, g, z);
    assert Spread([], AntiClustering);
    assert [] + kept == kept;
    ChosenAreHostApproved([], lattice, room.inRoom, room.nearWall);
    ChosenAreHostApproved(kept, border, room.inRoom, room.nearWall);
  }

  /** `calculate_grid_points`, given `root`, the square root of the area
      per fixture. Errors: no boundary loops, no bounding box, a fixture
      target of 0 (the division by it fails), or no candidate kept, which
      reports every candidate as rejected. On success the points are the
      kept lattice points then the kept boundary points: not empty, all in
      the room, off the walls, on one plane, pairwise at least 8 feet apart,
      and so clear of the 6-foot check. */
  function CalculateGridPoints(room: Room, zLevel: Option<real>, root: real): (r: Result<seq<Point>, GridError>)
    requires TargetCount(room.area) != 0 ==>
               root >= 0.0 && root * root == room.area / (TargetCount(room.area) as real)
    ensures !HasBoundary(room) ==> r == Failure(NoBoundarySegments)
    ensures HasBoundary(room) && room.bbox.None? ==> r == Failure(NoBoundingBox)
    ensures HasBoundary(room) && room.bbox.Some? && TargetCount(room.area) == 0 ==> r == Failure(ZeroFixtureTarget)
    ensures HasBoundary(room) && room.bbox.Some? && TargetCount(room.area) != 0 ==>
              (r.Success? <==> LatticeKept(room, GridSize(root), RoomPlane(room, zLevel))
                               + BorderKept(room, GridSize(root), RoomPlane(room, zLevel)) != [])
    ensures r.Success? ==> |r.value| > 0 && Spread(r.value, AntiClustering)
    ensures r.Success? ==> forall p :: p in r.value ==>
              room.inRoom(p) && !room.nearWall(p) && p.z == RoomPlane(room, zLevel)
    ensures r.Success? ==> forall i, j :: !Violates(r.value, SpacingCheck, i, j)
    ensures r.Success? ==>
              r.value == LatticeKept(room, GridSize(root), RoomPlane(room, zLevel))
                         + BorderKept(room, GridSize(root), RoomPlane(room, zLevel))
    ensures HasBoundary(room) && room.bbox.Some? && TargetCount(room.area) != 0
            && LatticeKept(room, GridSize(root), RoomPlane(room, zLevel))
               + BorderKept(room, GridSize(root), RoomPlane(room, zLevel)) == [] ==>
              r.Failure? && r.error.NoValidPoints?
    ensures r.Failure? && r.error.NoValidPoints? ==>
              r.error.rejected == |RoomLattice(room.bbox.value, GridSize(root), RoomPlane(room, zLevel))|
                                  + |BoundaryCandidates(room.boundary.value, GridSize(root), RoomPlane(room, zLevel))|
  {
    if !HasBoundary(room) then Failure(NoBoundarySegments)
    else if room.bbox.None? then Failure(NoBoundingBox)
    else if TargetCount(room.area) == 0 then Failure(ZeroFixtureTarget)
    else
      var z := RoomPlane(room, zLevel);
      var g := GridSize(root);
      var points := LatticeKept(room, g, z) + BorderKept(room, g, z);
      if |points| == 0 then
        var lattice := RoomLattice(room.bbox.value, g, z);
        var border := BoundaryCandidates(room.boundary.value, g, z);
        var grid := Screen([], lattice, room.inRoom, room.nearWall);
        var edge := Screen(grid.accepted, border, room.inRoom, room.nearWall);
        ChosenAndRejected(lattice, grid.verdicts);
        ChosenAndRejected(border, edge.verdicts);
        Failure(NoValidPoints(Rejected(grid.verdicts) + Rejected(edge.verdicts)))
      else
        LayoutIsSound(room, g, z);
        SpreadPassesCheck(points);
        Success(points)
  }
}

=== FILE: lighting_settings.dfy ===
/** Lighting layout settings: fixture wattage validation, the fixture count
    and grid spacing a room's area calls for, the elevation of the fixture
    plane, and the choice of ceiling that sets it. */
module LightingSettings {

  import opened Wrappers
  import opened Geometry

  const FixtureWattage: real := 25.0
  /** A 15 A, 120 V circuit loaded to 80%. */
  const CircuitLimit: real := 1440.0
  /** Minimum lighting power density (watts per square foot). */
  const IesnaMinWattsPerSqft: real := 0.5
  const WattageMin: real := 10.0
  const WattageMax: real := 100.0
  const SpacingMin: real := 10.0
  const SpacingMax: real := 12.0
  /** Default height of the fixture plane above the level (feet). */
  const DefaultHeight: real := 8.0

  /** `validate_wattage`: a wattage inside [10, 100] is kept; any other is
      replaced by the default 25 W. */
  function ValidateWattage(w: real): (r: real)
    ensures WattageMin <= r <= WattageMax
    ensures WattageMin <= w <= WattageMax <==> r == w
    ensures !(WattageMin <= w <= WattageMax) ==> r == FixtureWattage
  {
    if WattageMin <= w <= WattageMax then w else FixtureWattage
  }

  /** Validating a validated wattage changes nothing: the default itself
      lies in the accepted range. */
  lemma ValidateWattageIsStable(w: real)
    ensures ValidateWattage(ValidateWattage(w)) == ValidateWattage(w)
  {
  }

  /** Python's `int(x)` on a float: truncation toward zero. */
  function Trunc(x: real): (n: int)
    ensures x >= 0.0 ==> n as real <= x < n as real + 1.0
    ensures x < 0.0 ==> n as real - 1.0 < x <= n as real
  {
    if x >= 0.0 then x.Floor else -((-x).Floor)
  }

  /** int(1440 / 25). */
  const MaxFixtures: int := 57

  lemma MaxFixturesIsCircuitLimit()
    ensures MaxFixtures == Trunc(CircuitLimit / FixtureWattage)
  {
  }

  /** The number of fixtures a room's area calls for at the minimum power
      density, capped by what one circuit carries. */
  function TargetCount(area: real): (n: int)
    ensures n <= MaxFixtures
    ensures area >= 0.0 ==> n >= 0 && (n as real) * FixtureWattage <= area * IesnaMinWattsPerSqft
    ensures area >= 0.0 ==> n == MaxFixtures || ((n + 1) as real) * FixtureWattage > area * IesnaMinWattsPerSqft
    ensures area < 0.0 ==> ((n - 1) as real) * FixtureWattage < area * IesnaMinWattsPerSqft <= (n as real) * FixtureWattage
    ensures 0.0 <= area < 50.0 ==> n == 0
    ensures area >= 2850.0 ==> n == MaxFixtures
  {
    var byArea := Trunc(area * IesnaMinWattsPerSqft / FixtureWattage);
    if byArea < MaxFixtures then byArea else MaxFixtures
  }

  /** For a room of non-negative area the count is the largest number of
      fixtures, up to the circuit limit, whose wattage the minimum power
      density covers. */
  lemma TargetCountIsLargestCovered(area: real, m: int)
    requires area >= 0.0
    requires 0 <= m <= MaxFixtures && (m as real) * FixtureWattage <= area * IesnaMinWattsPerSqft
    ensures 0 <= m <= TargetCount(area)
  {
    var n := TargetCount(area);
    if n < MaxFixtures {
      assert (m as real) * FixtureWattage < ((n + 1) as real) * FixtureWattage;
    }
  }

  /** The grid spacing: the square root of the area per fixture (`root`,
      computed by the host), clamped to [10, 12]. */
  function GridSize(root: real): (g: real)
    ensures SpacingMin <= g <= SpacingMax
    ensures SpacingMin <= root <= SpacingMax ==> g == root
    ensures root > SpacingMax ==> g == SpacingMax
    ensures root < SpacingMin ==> g == SpacingMin
  {
    if root > SpacingMax then SpacingMax else if root < SpacingMin then SpacingMin else root
  }

  /** The clamped spacing is the spacing in [10, 12] nearest to the square
      root of the area per fixture. */
  lemma GridSizeIsNearest(root: real, y: real)
    requires SpacingMin <= y <= SpacingMax
    ensures Abs(GridSize(root) - root) <= Abs(y - root)
  {
  }

  /* ---------------------------------------------------------------------- */
  /* Elevation of the fixture plane.                                         */
  /* ---------------------------------------------------------------------- */

  /** The room's upper limit as `calculate_grid_points` computes it: level
      elevation (0 without a level) plus the upper offset, or plus 8 when
      the offset is missing or does not rise above the level. */
  function GridUpperLimit(levelElevation: Option<real>, upperOffset: Option<real>): (u: real)
    ensures u > levelElevation.GetOr(0.0)
    ensures upperOffset.Some? && upperOffset.value > 0.0 ==> u == levelElevation.GetOr(0.0) + upperOffset.value
    ensures upperOffset.None? || upperOffset.value <= 0.0 ==> u == levelElevation.GetOr(0.0) + DefaultHeight
  {
    var level := levelElevation.GetOr(0.0);
    var u := if upperOffset.Some? then level + upperOffset.value else level + DefaultHeight;
    if u <= level then level + DefaultHeight else u
  }

  /** The requested elevation is used: it is given, non-zero (Python
      truthiness) and not above the upper limit. */
  predicate Requested(zLevel: Option<real>, upper: real)
  {
    zLevel.Some? && zLevel.value != 0.0 && zLevel.value <= upper
  }

  /** The fixture plane: the requested elevation when it is given, non-zero
      and not above the upper limit, else the upper limit; then, if that
      lies outside the room's bounding box heights, the box top. */
  function PlaneZ(zLevel: Option<real>, upper: real, minZ: real, maxZ: real): (z: real)
    ensures minZ <= z <= maxZ || z == maxZ
    ensures minZ <= maxZ ==> minZ <= z <= maxZ
    ensures z != maxZ ==> z <= upper
    ensures Requested(zLevel, upper) && minZ <= zLevel.value <= maxZ ==> z == zLevel.value
    ensures Requested(zLevel, upper) && !(minZ <= zLevel.value <= maxZ) ==> z == maxZ
    ensures !Requested(zLevel, upper) && minZ <= upper <= maxZ ==> z == upper
    ensures !Requested(zLevel, upper) && !(minZ <= upper <= maxZ) ==> z == maxZ
  {
    var z := if zLevel.Some? && zLevel.value != 0.0 && zLevel.value <= upper then zLevel.value else upper;
    if z < minZ || z > maxZ then maxZ else z
  }

  /* ---------------------------------------------------------------------- */
  /* Ceiling selection.                                                      */
  /* ---------------------------------------------------------------------- */

  datatype Level = Level(name: string, elevation: real)

  /** What the script reads from a ceiling: the display value of its level
      parameter (None when the parameter is absent), its level's elevation
      and its height offset (None when absent). */
  datatype CeilingReading = CeilingReading(levelParam: Option<string>, levelElevation: Option<real>,
                                           heightOffset: Option<real>)

  /** The level name a ceiling is matched on; "None" without the parameter. */
  function CeilingLevelName(c: CeilingReading): string
  {
    c.levelParam.GetOr("None")
  }

  /** Ceiling elevation: level elevation plus height offset, missing parts 0. */
  function CeilingZ(c: CeilingReading): real
  {
    c.levelElevation.GetOr(0.0) + c.heightOffset.GetOr(0.0)
  }

  /** A ceiling on the room's level: the room has a level with a non-empty
      name, and the ceiling's level parameter shows that name. */
  predicate MatchesLevel(c: CeilingReading, room: Option<Level>)
  {
    room.Some? && room.value.name != "" && CeilingLevelName(c) == room.value.name
  }

  /** Distance of a ceiling from 8 feet above the room's level. */
  function Gap(c: CeilingReading, room: Level): real
  {
    Abs(CeilingZ(c) - (room.elevation + DefaultHeight))
  }

  /** The ceiling loop of `place_lighting_fixtures`: the first ceiling on
      the room's level; failing that, the first ceiling closest to 8 feet
      above the room's level; none when the room has no level (every
      ceiling then fails the distance computation and is skipped) or there
      are no ceilings. */
  method SelectCeiling(ceilings: seq<CeilingReading>, room: Option<Level>) returns (r: Option<nat>)
    ensures r.Some? ==> r.value < |ceilings|
    ensures (exists k :: 0 <= k < |ceilings| && MatchesLevel(ceilings[k], room)) ==>
              r.Some? && MatchesLevel(ceilings[r.value], room)
              && forall k :: 0 <= k < r.value ==> !MatchesLevel(ceilings[k], room)
    ensures (forall k :: 0 <= k < |ceilings| ==> !MatchesLevel(ceilings[k], room))
            && room.Some? && |ceilings| > 0 ==>
              r.Some?
              && (forall k :: 0 <= k < |ceilings| ==> Gap(ceilings[r.value], room.value) <= Gap(ceilings[k], room.value))
              && (forall k :: 0 <= k < r.value ==> Gap(ceilings[r.value], room.value) < Gap(ceilings[k], room.value))
    ensures room.None? || |ceilings| == 0 ==> r.None?
  {
    var fallback: Option<nat> := None;
    var i := 0;
    while i < |ceilings|
      invariant 0 <= i <= |ceilings|
      invariant forall k :: 0 <= k < i ==> !MatchesLevel(ceilings[k], room)
      invariant room.None? || i == 0 <==> fallback.None?
      invariant fallback.Some? ==> fallback.value < i
      invariant fallback.Some? ==> forall k :: 0 <= k < i ==> Gap(ceilings[fallback.value], room.value) <= Gap(ceilings[k], room.value)
      invariant fallback.Some? ==> forall k :: 0 <= k < fallback.value ==> Gap(ceilings[fallback.value], room.value) < Gap(ceilings[k], room.value)
    {
      var c := ceilings[i];
      if MatchesLevel(c, room) {
        return Some(i);
      }
      if room.Some? {
        if fallback.None? || Gap(c, room.value) < Gap(ceilings[fallback.value], room.value) {
          fallback := Some(i);
        }
      }
      i := i + 1;
    }
    r := fallback;
  }

  /** The elevation of the room's level, None when the room has no level. */
  function LevelElevation(room: Option<Level>): Option<real>
  {
    if room.Some? then Some(room.value.elevation) else None
  }

  /** The room's upper limit as the fixture placement loop computes it:
      level elevation (0 without a level) plus the upper offset, or plus 8
      when the offset is missing. Unlike `GridUpperLimit` there is no
      fallback for an offset that does not rise above the level, so the two
      agree exactly when the offset is missing or positive, and otherwise
      this one is lower. */
  function PlacementUpperLimit(room: Option<Level>, upperOffset: Option<real>): (u: real)
    ensures upperOffset.Some? ==> u == LevelElevation(room).GetOr(0.0) + upperOffset.value
    ensures upperOffset.None? ==> u == LevelElevation(room).GetOr(0.0) + DefaultHeight
    ensures u <= GridUpperLimit(LevelElevation(room), upperOffset)
    ensures u == GridUpperLimit(LevelElevation(room), upperOffset) <==> upperOffset.None? || upperOffset.value > 0.0
  {
    (if room.Some? then room.value.elevation else 0.0) + upperOffset.GetOr(DefaultHeight)
  }

  /** The elevation handed to the grid generator: the chosen ceiling's
      elevation when there is one, it is non-zero and not above the upper
      limit; otherwise the upper limit. */
  function FixtureZ(ceilings: seq<CeilingReading>, chosen: Option<nat>, upper: real): (z: real)
    requires chosen.Some? ==> chosen.value < |ceilings|
    ensures z <= upper
    ensures chosen.None? ==> z == upper
    ensures chosen.Some? && CeilingZ(ceilings[chosen.value]) != 0.0 && CeilingZ(ceilings[chosen.value]) <= upper
            ==> z == CeilingZ(ceilings[chosen.value])
    ensures chosen.Some? && (CeilingZ(ceilings[chosen.value]) == 0.0 || CeilingZ(ceilings[chosen.value]) > upper)
            ==> z == upper
  {
    var height := if chosen.Some? then CeilingZ(ceilings[chosen.value]) else upper;
    if height != 0.0 && height <= upper then height else upper
  }

  /** The elevation the placement loop hands to the grid generator is the
      plane the generator uses, whenever it is non-zero and inside the
      room's box heights: the loop's upper limit never exceeds the
      generator's, so the generator never lowers it to its own limit. */
  lemma FixturePlaneIsKept(ceilings: seq<CeilingReading>, chosen: Option<nat>, room: Option<Level>,
                           upperOffset: Option<real>, minZ: real, maxZ: real)
    requires chosen.Some? ==> chosen.value < |ceilings|
    ensures var z := FixtureZ(ceilings, chosen, PlacementUpperLimit(room, upperOffset));
            z != 0.0 && minZ <= z <= maxZ ==>
              PlaneZ(Some(z), GridUpperLimit(LevelElevation(room), upperOffset), minZ, maxZ) == z
  {
  }
}

=== FILE: load_estimator.dfy ===
/** Electrical load estimate: one record per readable element of the
    electrical, mechanical and lighting categories, the total apparent load,
    and a fixed-width text table and a CSV of the records. */
module LoadEstimator {

  import opened Wrappers
  import opened Seqs
  import opened Text

  /* ---------------------------------------------------------------------- */
  /* Fixed-width rows.                                                       */
  /* ---------------------------------------------------------------------- */

  /** Where part i of a join begins: the lengths of the earlier parts plus
      one separator after each. */
  function PartStart(parts: seq<string>, sepLength: nat, i: nat): nat
    requires i <= |parts|
  {
    if i == 0 then 0 else |parts[0]| + sepLength + PartStart(parts[1..], sepLength, i - 1)
  }

  lemma JoinUnfold(parts: seq<string>, sep: string)
    requires |parts| > 1
    ensures Join(parts, sep) == parts[0] + sep + Join(parts[1..], sep)
  {
  }

  /** The first two pieces of a + b + c. */
  lemma HeadPieces(a: string, b: string, c: string)
    ensures (a + b + c)[0..][..|a|] == a
    ensures |a| + |b| <= |a + b + c| && (a + b + c)[|a|..][..|b|] == b
  {
    var all := a + b + c;
    assert all[0..][..|a|] == a;
    assert all[|a|..][..|b|] == b by {
      forall k | 0 <= k < |b| ensures all[|a|..][..|b|][k] == b[k] {
        assert all[|a| + k] == b[k];
      }
    }
  }

  /** A slice of c, read inside a + b + c. */
  lemma TailPiece(a: string, b: string, c: string, s: nat, len: nat)
    requires s + len <= |c|
    ensures |a| + |b| + s + len <= |a + b + c|
    ensures (a + b + c)[|a| + |b| + s..][..len] == c[s..][..len]
  {
    var all := a + b + c;
    forall k | 0 <= k < len ensures all[|a| + |b| + s..][..len][k] == c[s..][..len][k] {
      assert all[|a| + |b| + s + k] == c[s + k];
    }
  }

  /** In a join, part i sits at its start, followed (unless it is last) by
      the separator. */
  lemma {:induction false} JoinPartAt(parts: seq<string>, sep: string, i: nat)
    requires i < |parts|
    ensures PartStart(parts, |sep|, i) + |parts[i]| <= |Join(parts, sep)|
    ensures Join(parts, sep)[PartStart(parts, |sep|, i)..][..|parts[i]|] == parts[i]
    ensures i + 1 < |parts| ==>
              PartStart(parts, |sep|, i) + |parts[i]| + |sep| <= |Join(parts, sep)|
              && Join(parts, sep)[PartStart(parts, |sep|, i) + |parts[i]|..][..|sep|] == sep
  {
    if |parts| == 1 {
      assert Join(parts, sep)[0..][..|parts[0]|] == parts[0];
    } else {
      var rest := Join(parts[1..], sep);
      JoinUnfold(parts, sep);
      if i == 0 {
        HeadPieces(parts[0], sep, rest);
      } else {
        var s := PartStart(parts[1..], |sep|, i - 1);
        assert parts[1..][i - 1] == parts[i];
        JoinPartAt(parts[1..], sep, i - 1);
        TailPiece(parts[0], sep, rest, s, |parts[i]|);
        if i + 1 < |parts| {
          TailPiece(parts[0], sep, rest, s + |parts[i]|, |sep|);
        }
      }
    }
  }

  /** `str(col).ljust(width)` for each column, as far as both lists go. */
  function Cells(columns: seq<string>, widths: seq<nat>): (cells: seq<string>)
    ensures |cells| == if |columns| <= |widths| then |columns| else |widths|
    ensures forall i :: 0 <= i < |cells| ==> cells[i] == Ljust(columns[i], widths[i])
  {
    var n := if |columns| <= |widths| then |columns| else |widths|;
    seq(n, i requires 0 <= i < n => Ljust(columns[i], widths[i]))
  }

  /** `format_table_row`: "| ", the cells joined by " | ", then " |". A
      formatted row is framed by "| " and " |"; `CellAt` places each cell
      inside the frame. */
  function FormatTableRow(columns: seq<string>, widths: seq<nat>): (row: string)
    ensures |row| >= 4 && row[..2] == "| " && row[|row| - 2..] == " |"
  {
    "| " + Join(Cells(columns, widths), " | ") + " |"
  }

  lemma ShiftSlice(pre: string, body: string, post: string, s: nat, len: nat)
    requires s + len <= |body|
    ensures |pre| + s + len <= |pre + body + post|
    ensures (pre + body + post)[|pre| + s..][..len] == body[s..][..len]
  {
    var all := pre + body + post;
    forall k | 0 <= k < len ensures all[|pre| + s..][..len][k] == body[s..][..len][k] {
      assert all[|pre| + s + k] == body[s + k];
    }
  }

  /** Each cell of a formatted row is its column's text left-justified to
      its width, never cut short, at the offset the earlier cells give it. */
  lemma CellAt(columns: seq<string>, widths: seq<nat>, i: nat)
    requires i < |Cells(columns, widths)|
    ensures var row := FormatTableRow(columns, widths);
            var cells := Cells(columns, widths);
            var start := 2 + PartStart(cells, 3, i);
            |cells[i]| == (if |columns[i]| >= widths[i] then |columns[i]| else widths[i])
            && start + |cells[i]| <= |row|
            && row[start..][..|cells[i]|] == cells[i]
  {
    var cells := Cells(columns, widths);
    JoinPartAt(cells, " | ", i);
    ShiftSlice("| ", Join(cells, " | "), " |", PartStart(cells, 3, i), |cells[i]|);
  }

  /** The column's own text opens its cell, whole. */
  lemma ColumnAt(columns: seq<string>, widths: seq<nat>, i: nat)
    requires i < |Cells(columns, widths)|
    ensures var row := FormatTableRow(columns, widths);
            var start := 2 + PartStart(Cells(columns, widths), 3, i);
            start + |columns[i]| <= |row| && row[start..][..|columns[i]|] == columns[i]
  {
    var row := FormatTableRow(columns, widths);
    var cell := Cells(columns, widths)[i];
    var start := 2 + PartStart(Cells(columns, widths), 3, i);
    CellAt(columns, widths, i);
    PrefixOfPrefix(row[start..], cell, columns[i]);
  }

  lemma PrefixOfPrefix(x: string, c: string, p: string)
    requires |c| <= |x| && x[..|c|] == c
    requires |p| <= |c| && c[..|p|] == p
    ensures x[..|p|] == p
  {
    assert x[..|p|] == x[..|c|][..|p|];
  }

  /** Every cell but the last is followed by " | ". */
  lemma DividerAfter(columns: seq<string>, widths: seq<nat>, i: nat)
    requires i + 1 < |Cells(columns, widths)|
    ensures var row := FormatTableRow(columns, widths);
            var cells := Cells(columns, widths);
            var end := 2 + PartStart(cells, 3, i) + |cells[i]|;
            end + 3 <= |row| && row[end..][..3] == " | "
  {
    var cells := Cells(columns, widths);
    var body := Join(cells, " | ");
    JoinPartAt(cells, " | ", i);
    ShiftSlice("| ", body, " |", PartStart(cells, 3, i) + |cells[i]|, 3);
  }

  /** The column offsets the widths alone give: 2, then each width plus 3. */
  function ColumnStart(widths: seq<nat>, i: nat): nat
    requires i <= |widths|
  {
    if i == 0 then 2 else widths[0] + 3 + ColumnStart(widths[1..], i - 1)
  }

  /** The length of a row whose columns all fit their widths. */
  function RowWidth(widths: seq<nat>): nat
  {
    if |widths| == 0 then 4 else ColumnStart(widths, |widths|) - 1
  }

  predicate Fits(columns: seq<string>, widths: seq<nat>)
  {
    |columns| >= |widths| && forall i :: 0 <= i < |widths| ==> |columns[i]| <= widths[i]
  }

  lemma {:induction false} StartsAgree(cells: seq<string>, widths: seq<nat>, i: nat)
    requires |cells| == |widths| && i <= |widths|
    requires forall k :: 0 <= k < |widths| ==> |cells[k]| == widths[k]
    ensures 2 + PartStart(cells, 3, i) == ColumnStart(widths, i)
  {
    if i > 0 {
      StartsAgree(cells[1..], widths[1..], i - 1);
    }
  }

  lemma {:induction false} TotalOfWidths(cells: seq<string>, widths: seq<nat>)
    requires |cells| == |widths| >= 1
    requires forall k :: 0 <= k < |widths| ==> |cells[k]| == widths[k]
    ensures TotalLength(cells) + (|cells| - 1) * 3 + 4 == RowWidth(widths)
  {
    if |cells| > 1 {
      TotalOfWidths(cells[1..], widths[1..]);
    }
  }

  /** When every column fits its width, the row's length and every column's
      offset depend on the widths alone: rows formatted with the same
      widths line up column for column. */
  lemma AlignedColumns(columns: seq<string>, widths: seq<nat>)
    requires Fits(columns, widths)
    ensures |FormatTableRow(columns, widths)| == RowWidth(widths)
    ensures forall i :: 0 <= i < |widths| ==>
              ColumnStart(widths, i) + widths[i] <= RowWidth(widths)
              && FormatTableRow(columns, widths)[ColumnStart(widths, i)..][..widths[i]] == Ljust(columns[i], widths[i])
  {
    var cells := Cells(columns, widths);
    var row := FormatTableRow(columns, widths);
    assert |cells| == |widths|;
    if |widths| > 0 {
      JoinLength(cells, " | ");
      TotalOfWidths(cells, widths);
    }
    forall i | 0 <= i < |widths|
      ensures ColumnStart(widths, i) + widths[i] <= RowWidth(widths)
      ensures row[ColumnStart(widths, i)..][..widths[i]] == Ljust(columns[i], widths[i])
    {
      StartsAgree(cells, widths, i);
      CellAt(columns, widths, i);
    }
  }

  /* ---------------------------------------------------------------------- */
  /* Records.                                                                */
  /* ---------------------------------------------------------------------- */

  datatype Category = Electrical | Hvac | Lighting

  function CategoryName(c: Category): string
  {
    match c
    case Electrical => "Electrical"
    case Hvac => "HVAC"
    case Lighting => "Lighting"
  }

  datatype SystemType = SinglePhase | ThreePhase

  function SystemName(s: SystemType): string
  {
    match s
    case SinglePhase => "Single-Phase"
    case ThreePhase => "Three-Phase"
  }

  /** What the script reads from one element: its name, its "Apparent
      Load" (VA), "Voltage" and "Number of Poles" parameters (None when
      absent), and whether reading them raised. */
  datatype ElementReading = ElementReading(
    category: Category,
    name: Option<string>,
    apparentLoad: Option<real>,
    voltageParam: Option<real>,
    poles: Option<int>,
    failed: bool)

  datatype LoadRecord = LoadRecord(category: Category, name: string, load: real, voltage: real,
                                   system: SystemType)

  const NameWidth: nat := 25
  const DefaultVoltage: real := 120.0

  /** The elements in collection order: electrical equipment, then
      mechanical equipment, then lighting fixtures. */
  function Collect(electrical: seq<ElementReading>, hvac: seq<ElementReading>, lighting: seq<ElementReading>): (r: seq<ElementReading>)
    requires forall e :: e in electrical ==> e.category == Electrical
    requires forall e :: e in hvac ==> e.category == Hvac
    requires forall e :: e in lighting ==> e.category == Lighting
    ensures |r| == |electrical| + |hvac| + |lighting|
    ensures r[..|electrical|] == electrical
    ensures r[|electrical|..|electrical| + |hvac|] == hvac
    ensures r[|electrical| + |hvac|..] == lighting
    ensures forall i, j :: 0 <= i < j < |r| ==> r[i].category != Lighting || r[j].category == Lighting
    ensures forall i, j :: 0 <= i < j < |r| ==> r[j].category != Electrical || r[i].category == Electrical
  {
    var r := electrical + hvac + lighting;
    assert r[..|electrical|] == electrical;
    assert r[|electrical|..|electrical| + |hvac|] == hvac;
    assert r[|electrical| + |hvac|..] == lighting;
    assert forall i :: 0 <= i < |electrical| ==> r[i] in electrical;
    assert forall i :: |electrical| <= i < |electrical| + |hvac| ==> r[i] == hvac[i - |electrical|];
    assert forall i :: |electrical| + |hvac| <= i < |r| ==> r[i] == lighting[i - |electrical| - |hvac|];
    r
  }

  /** The record of a readable element: the name ("Unknown" when missing or
      empty) cut to 25 characters, the load (0 without the parameter), the
      voltage (the parameter times 120, or 120 without it) and three-phase
      exactly when the element has 3 poles. */
  function RecordOf(e: ElementReading): (r: LoadRecord)
    ensures r.category == e.category
    ensures |r.name| <= NameWidth
    ensures var full := if e.name.Some? && e.name.value != "" then e.name.value else "Unknown";
            IsPrefix(r.name, full) && (|full| <= NameWidth ==> r.name == full) && (|full| >= NameWidth ==> |r.name| == NameWidth)
    ensures r.load == e.apparentLoad.GetOr(0.0)
    ensures e.voltageParam.Some? ==> r.voltage == e.voltageParam.value * DefaultVoltage
    ensures e.voltageParam.None? ==> r.voltage == DefaultVoltage
    ensures r.system == ThreePhase <==> e.poles == Some(3)
  {
    var full := if e.name.Some? && e.name.value != "" then e.name.value else "Unknown";
    var name := if |full| <= NameWidth then full else full[..NameWidth];
    var voltage := if e.voltageParam.Some? then e.voltageParam.value * DefaultVoltage else DefaultVoltage;
    var system := if e.poles == Some(3) then ThreePhase else SinglePhase;
    LoadRecord(e.category, name, e.apparentLoad.GetOr(0.0), voltage, system)
  }

  /** The records of the readable elements, in order: an element whose
      reading raised is skipped. */
  function Recorded(elements: seq<ElementReading>): (r: seq<LoadRecord>)
    ensures |r| <= |elements|
  {
    if |elements| == 0 then []
    else
      var n := |elements| - 1;
      Recorded(elements[..n]) + (if elements[n].failed then [] else [RecordOf(elements[n])])
  }

  function SumLoads(records: seq<LoadRecord>): real
  {
    if |records| == 0 then 0.0 else SumLoads(records[..|records| - 1]) + records[|records| - 1].load
  }

  /** The apparent loads of the readable elements, added in order. */
  function ReadableLoad(elements: seq<ElementReading>): real
  {
    if |elements| == 0 then 0.0
    else
      var n := |elements| - 1;
      ReadableLoad(elements[..n]) + (if elements[n].failed then 0.0 else elements[n].apparentLoad.GetOr(0.0))
  }

  lemma SumLoadsAppend(records: seq<LoadRecord>, r: LoadRecord)
    ensures SumLoads(records + [r]) == SumLoads(records) + r.load
  {
    assert (records + [r])[..|records|] == records;
  }

  /** The element loop: a record for each readable element, in order, and
      the total of exactly their unrounded loads. */
  method EstimateLoads(elements: seq<ElementReading>) returns (records: seq<LoadRecord>, total: real)
    ensures records == Recorded(elements)
    ensures total == ReadableLoad(elements)
    ensures total == SumLoads(records)
  {
    records := [];
    total := 0.0;
    for i := 0 to |elements|
      invariant records == Recorded(elements[..i])
      invariant total == ReadableLoad(elements[..i])
      invariant total == SumLoads(records)
    {
      var e := elements[i];
      assert elements[..i + 1][..i] == elements[..i];
      if !e.failed {
        var r := RecordOf(e);
        SumLoadsAppend(records, r);
        records := records + [r];
        total := total + r.load;
      }
    }
    assert elements[..|elements|] == elements;
  }

  /** The records of a list of elements are the records of its parts, one
      after the other; a single element gives its record, or none when its
      reading raised. */
  lemma {:induction false} RecordedAppend(a: seq<ElementReading>, b: seq<ElementReading>)
    ensures Recorded(a + b) == Recorded(a) + Recorded(b)
  {
    if |b| == 0 {
      assert a + b == a;
    } else {
      var n := |b| - 1;
      SnocAppend(a, b);
      RecordedAppend(a, b[..n]);
      ConcatAssoc(Recorded(a), Recorded(b[..n]), if b[n].failed then [] else [RecordOf(b[n])]);
    }
  }

  lemma RecordedSingle(e: ElementReading)
    ensures Recorded([e]) == if e.failed then [] else [RecordOf(e)]
  {
    assert [e][..0] == [];
  }

  /** The record of readable element i comes right after the records of
      the elements before it. */
  lemma RecordAt(elements: seq<ElementReading>, i: nat)
    requires i < |elements| && !elements[i].failed
    ensures |Recorded(elements[..i])| < |Recorded(elements)|
    ensures Recorded(elements)[|Recorded(elements[..i])|] == RecordOf(elements[i])
  {
    var rest := elements[i + 1..];
    assert elements == elements[..i] + ([elements[i]] + rest);
    RecordedAppend(elements[..i], [elements[i]] + rest);
    RecordedAppend([elements[i]], rest);
    RecordedSingle(elements[i]);
  }

  /** Every readable element's record sits right after the records of the
      elements before it. */
  lemma RecordsInPlace(elements: seq<ElementReading>)
    ensures forall i :: 0 <= i < |elements| && !elements[i].failed ==>
              |Recorded(elements[..i])| < |Recorded(elements)|
              && Recorded(elements)[|Recorded(elements[..i])|] == RecordOf(elements[i])
  {
    forall i | 0 <= i < |elements| && !elements[i].failed
      ensures |Recorded(elements[..i])| < |Recorded(elements)|
              && Recorded(elements)[|Recorded(elements[..i])|] == RecordOf(elements[i])
    {
      RecordAt(elements, i);
    }
  }

  /** A skipped element contributes neither a record nor load: there is
      one record per readable element, each in its element's place in the
      input order, and every record is the record of such an element. */
  lemma {:induction false} RecordedCount(elements: seq<ElementReading>)
    ensures |Recorded(elements)| == |elements| - CountFailed(elements)
    ensures forall r :: r in Recorded(elements) ==> exists e :: e in elements && !e.failed && r == RecordOf(e)
    ensures forall i :: 0 <= i < |elements| && !elements[i].failed ==>
              |Recorded(elements[..i])| < |Recorded(elements)|
              && Recorded(elements)[|Recorded(elements[..i])|] == RecordOf(elements[i])
  {
    RecordsInPlace(elements);
    if |elements| > 0 {
      var n := |elements| - 1;
      RecordedCount(elements[..n]);
      forall r | r in Recorded(elements) ensures exists e :: e in elements && !e.failed && r == RecordOf(e) {
        if r in Recorded(elements[..n]) {
          var e :| e in elements[..n] && !e.failed && r == RecordOf(e);
          assert e in elements;
        } else {
          assert elements[n] in elements;
        }
      }
    }
  }

  function CountFailed(elements: seq<ElementReading>): (n: nat)
    ensures n <= |elements|
  {
    if |elements| == 0 then 0
    else CountFailed(elements[..|elements| - 1]) + (if elements[|elements| - 1].failed then 1 else 0)
  }

  /* ---------------------------------------------------------------------- */
  /* The table and the CSV.                                                  */
  /* ---------------------------------------------------------------------- */

  const Headers: seq<string> := ["Category", "Equipment Name", "Load (VA)", "Voltage (V)", "System Type"]
  const Widths: seq<nat> := [15, 25, 12, 12, 15]

  /** "|" followed by n times "-|". */
  function Rule(n: nat): (r: string)
    ensures |r| == 1 + 2 * n
    ensures r[0] == '|' && forall k :: 0 <= k < n ==> r[1 + 2 * k] == '-' && r[2 + 2 * k] == '|'
  {
    if n == 0 then "|" else Rule(n - 1) + "-|"
  }

  /** The rule under the header and above the total: one "-|" per column. */
  function Separator(): string
  {
    Rule(|Headers|)
  }

  /** The text of a number in a cell (Python's `str` of the rounded value). */
  type Show = real -> string

  function RecordColumns(r: LoadRecord, show: Show): seq<string>
  {
    [CategoryName(r.category), r.name, show(r.load), show(r.voltage), SystemName(r.system)]
  }

  function TotalColumns(total: real, show: Show): seq<string>
  {
    ["Total", "", show(total), "", ""]
  }

  /** Two lines, a body, two more lines. */
  function Framed<T>(a: T, b: T, body: seq<T>, c: T, d: T): (s: seq<T>)
    ensures |s| == |body| + 4 && s[0] == a && s[1] == b && s[|body| + 2] == c && s[|body| + 3] == d
    ensures forall i :: 0 <= i < |body| ==> s[i + 2] == body[i]
  {
    [a, b] + body + [c, d]
  }

  /** One formatted row per record. */
  function RecordLines(records: seq<LoadRecord>, show: Show): (lines: seq<string>)
    ensures |lines| == |records|
    ensures forall i :: 0 <= i < |records| ==> lines[i] == FormatTableRow(RecordColumns(records[i], show), Widths)
  {
    seq(|records|, i requires 0 <= i < |records| => FormatTableRow(RecordColumns(records[i], show), Widths))
  }

  /** The text table: header, rule, one row per record, rule, total row. */
  function Table(records: seq<LoadRecord>, total: real, show: Show): (lines: seq<string>)
    ensures |lines| == |records| + 4
    ensures lines[0] == FormatTableRow(Headers, Widths)
    ensures lines[1] == Separator() && lines[|records| + 2] == Separator()
    ensures forall i :: 0 <= i < |records| ==> lines[i + 2] == FormatTableRow(RecordColumns(records[i], show), Widths)
    ensures lines[|records| + 3] == FormatTableRow(TotalColumns(total, show), Widths)
  {
    Framed(FormatTableRow(Headers, Widths), Separator(), RecordLines(records, show),
           Separator(), FormatTableRow(TotalColumns(total, show), Widths))
  }

  /** Numbers render in at most 12 characters. */
  predicate ShortNumbers(records: seq<LoadRecord>, total: real, show: Show)
  {
    |show(total)| <= 12 && forall r :: r in records ==> |show(r.load)| <= 12 && |show(r.voltage)| <= 12
  }

  lemma HeaderIsAligned()
    ensures |FormatTableRow(Headers, Widths)| == RowWidth(Widths)
  {
    assert Fits(Headers, Widths);
    AlignedColumns(Headers, Widths);
  }

  lemma TotalRowIsAligned(total: real, show: Show)
    requires |show(total)| <= 12
    ensures |FormatTableRow(TotalColumns(total, show), Widths)| == RowWidth(Widths)
  {
    assert Fits(TotalColumns(total, show), Widths);
    AlignedColumns(TotalColumns(total, show), Widths);
  }

  lemma RecordRowIsAligned(r: LoadRecord, show: Show)
    requires |r.name| <= NameWidth && |show(r.load)| <= 12 && |show(r.voltage)| <= 12
    ensures |FormatTableRow(RecordColumns(r, show), Widths)| == RowWidth(Widths)
  {
    assert |CategoryName(r.category)| <= 15 && |SystemName(r.system)| <= 15;
    assert Fits(RecordColumns(r, show), Widths);
    AlignedColumns(RecordColumns(r, show), Widths);
  }

  /** Names are cut to 25 characters and every label fits its column, so
      when the numbers fit theirs every row of the table, header and total
      included, has the same length with the columns at the same offsets. */
  lemma TableIsAligned(records: seq<LoadRecord>, total: real, show: Show)
    requires forall r :: r in records ==> |r.name| <= NameWidth
    requires ShortNumbers(records, total, show)
    ensures var lines := Table(records, total, show);
            forall i :: 0 <= i < |lines| && i != 1 && i != |records| + 2 ==> |lines[i]| == RowWidth(Widths)
  {
    var lines := Table(records, total, show);
    HeaderIsAligned();
    TotalRowIsAligned(total, show);
    forall i | 2 <= i < |records| + 2 ensures |lines[i]| == RowWidth(Widths) {
      var r := records[i - 2];
      assert r in records;
      assert lines[i] == FormatTableRow(RecordColumns(r, show), Widths);
      RecordRowIsAligned(r, show);
    }
  }

  datatype CsvCell = Text(s: string) | Number(x: real)

  function RecordCsv(r: LoadRecord): seq<CsvCell>
  {
    [Text(CategoryName(r.category)), Text(r.name), Number(r.load), Number(r.voltage), Text(SystemName(r.system))]
  }

  /** The CSV rows: the header, one row per record, then the total row. */
  function CsvRows(records: seq<LoadRecord>, total: real): (rows: seq<seq<CsvCell>>)
    ensures |rows| == |records| + 2
    ensures forall i :: 0 <= i < |rows| ==> |rows[i]| == |Headers|
    ensures forall k :: 0 <= k < |Headers| ==> rows[0][k] == Text(Headers[k])
    ensures forall i :: 0 <= i < |records| ==> rows[i + 1] == RecordCsv(records[i])
    ensures rows[|records| + 1] == [Text("Total"), Text(""), Number(total), Text(""), Text("")]
    ensures rows[1..|records| + 1] == seq(|records|, i requires 0 <= i < |records| => RecordCsv(records[i]))
  {
    var header := seq(|Headers|, k requires 0 <= k < |Headers| => Text(Headers[k]));
    var body := seq(|records|, i requires 0 <= i < |records| => RecordCsv(records[i]));
    var footer := [Text("Total"), Text(""), Number(total), Text(""), Text("")];
    Between(header, body, footer);
    [header] + body + [footer]
  }

  /** One line, a body, one more line: where each part lands. */
  lemma Between<T>(a: T, body: seq<T>, c: T)
    ensures var s := [a] + body + [c];
            |s| == |body| + 2 && s[0] == a && s[|body| + 1] == c
            && s[1..|body| + 1] == body
            && forall i :: 0 <= i < |body| ==> s[i + 1] == body[i]
  {
  }

  /** The load column of the CSV, record rows only. */
  function LoadColumn(rows: seq<seq<CsvCell>>): real
    requires forall i :: 0 <= i < |rows| ==> |rows[i]| > 2
  {
    if |rows| == 0 then 0.0
    else
      var last := rows[|rows| - 1][2];
      LoadColumn(rows[..|rows| - 1]) + (if last.Number? then last.x else 0.0)
  }

  /** The recorded loads add up to the loads of the readable elements. */
  lemma {:induction false} RecordedLoad(elements: seq<ElementReading>)
    ensures SumLoads(Recorded(elements)) == ReadableLoad(elements)
  {
    if |elements| > 0 {
      var n := |elements| - 1;
      RecordedLoad(elements[..n]);
      if !elements[n].failed {
        SumLoadsAppend(Recorded(elements[..n]), RecordOf(elements[n]));
      } else {
        assert Recorded(elements) == Recorded(elements[..n]);
      }
    }
  }

  lemma {:induction false} ColumnIsSum(records: seq<LoadRecord>, body: seq<seq<CsvCell>>)
    requires |body| == |records|
    requires forall i :: 0 <= i < |body| ==> body[i] == RecordCsv(records[i])
    ensures forall i :: 0 <= i < |body| ==> |body[i]| > 2
    ensures LoadColumn(body) == SumLoads(records)
  {
    if |records| > 0 {
      var n := |records| - 1;
      ColumnIsSum(records[..n], body[..n]);
    }
  }

  /** The total row of an estimate's CSV is the sum of the load column
      above it. */
  lemma CsvTotalIsLoadColumn(elements: seq<ElementReading>)
    ensures var records := Recorded(elements);
            var rows := CsvRows(records, ReadableLoad(elements));
            var body := rows[1..|records| + 1];
            (forall i :: 0 <= i < |body| ==> |body[i]| > 2)
            && rows[|records| + 1][2] == Number(LoadColumn(body))
  {
    var records := Recorded(elements);
    var rows := CsvRows(records, ReadableLoad(elements));
    var body := rows[1..|records| + 1];
    ColumnIsSum(records, body);
    RecordedLoad(elements);
  }
}

=== FILE: panel_schedule.dfy ===
/** The panel schedule: one row per circuit of every valid panel, with the
    voltage normalised, apparent load in kVA, current at 100% and at 125%
    for continuous loads, and warnings; rows sorted by panel name and then
    by natural circuit order, under a fixed header. */
module PanelSchedule {

  import opened Wrappers
  import opened Seqs
  import opened Text
  import opened Sorting
  import opened CircuitSort

  /* ---------------------------------------------------------------------- */
  /* Host readings.                                                          */
  /* ---------------------------------------------------------------------- */

  /** What the script reads from one assigned electrical system: whether it
      is an ElectricalSystem and valid, its circuit number and load name, the
      voltage and apparent load parameters (None when absent), and its load
      classifications. */
  datatype SystemReading = SystemReading(
    isElectricalSystem: bool,
    valid: bool,
    circuitNumber: Option<string>,
    loadName: Option<string>,
    voltageRaw: Option<real>,
    apparentLoad: Option<real>,
    loadClassifications: Option<string>)

  /** What the script reads from one piece of electrical equipment: whether
      it is valid, its element Id, its panel name parameter (None when the
      parameter is absent or has no value), whether it has a valid MEP
      model, and the systems assigned to it. */
  datatype PanelReading = PanelReading(
    valid: bool,
    id: int,
    nameParam: Option<string>,
    hasValidMep: bool,
    systems: seq<SystemReading>)

  datatype Warning =
    | UnrealisticVoltage(volts: real)
    | ZeroKva
    | UnrealisticCurrent(amps: real)

  /** One schedule row; numbers are exact (the script rounds them for
      display). */
  datatype Row = Row(
    panel: string,
    circuit: Option<string>,
    load: string,
    voltage: real,
    kva: real,
    i100: real,
    i125: real,
    warnings: seq<Warning>)

  const Header: seq<string> := [
    "Panel Name",
    "Circuit Number",
    "Load Name",
    "Voltage (V)",
    "kVA (Connected)",
    "Current @100% (A)",
    "Current @125% (A) - NEC Continuous",
    "Warnings"
  ]

  /* ---------------------------------------------------------------------- */
  /* Per-circuit rules.                                                      */
  /* ---------------------------------------------------------------------- */

  /** Raw voltages of 600 and above are taken to be in decivolts. */
  const DecivoltThreshold: real := 600.0
  const VoltageLimit: real := 600.0
  const CurrentLimit: real := 1000.0
  const ContinuousFactor: real := 1.25

  /** The normalised voltage: a tenth of the raw value from 600 on. */
  function Voltage(raw: real): (v: real)
    ensures raw >= DecivoltThreshold ==> v * 10.0 == raw
    ensures raw < DecivoltThreshold ==> v == raw
    ensures v > VoltageLimit <==> raw > 6000.0
  {
    if raw >= DecivoltThreshold then raw / 10.0 else raw
  }

  /** Connected load in kVA; non-positive loads count as none. */
  function Kva(va: real): (k: real)
    ensures k >= 0.0
    ensures k == 0.0 <==> va <= 0.0
    ensures va > 0.0 ==> k * 1000.0 == va
  {
    if va > 0.0 then va / 1000.0 else 0.0
  }

  /** Current at 100% load; 0 when there is no positive voltage. */
  function Current(va: real, volts: real): (i: real)
    ensures volts > 0.0 ==> i * volts == va
    ensures volts <= 0.0 ==> i == 0.0
  {
    if volts > 0.0 then va / volts else 0.0
  }

  /** Whether the load classifications name a continuous load. */
  predicate IsContinuous(classifications: Option<string>)
  {
    Contains(classifications.GetOr(""), "Continuous")
  }

  /** Where a warning kind is appended: voltage, then zero load, then
      current. */
  function WarningRank(x: Warning): nat
  {
    match x
    case UnrealisticVoltage(_) => 0
    case ZeroKva => 1
    case UnrealisticCurrent(_) => 2
  }

  /** The warnings a circuit may carry: only the three kinds, each with the
      circuit's own value. */
  predicate IsCircuitWarning(x: Warning, volts: real, i100: real)
  {
    x == UnrealisticVoltage(volts) || x == ZeroKva || x == UnrealisticCurrent(i100)
  }

  /** Warnings in strictly increasing rank: each kind at most once, in the
      order the script appends them. */
  predicate Ranked(w: seq<Warning>)
  {
    forall i, j :: 0 <= i < j < |w| ==> WarningRank(w[i]) < WarningRank(w[j])
  }

  /** The warnings of one circuit, in the script's order: each kind exactly
      when its condition holds. `WarningsRanked` gives the order and
      `WarningsDetermined` shows these facts fix the list. */
  function Warnings(volts: real, kva: real, i100: real, load: string): (w: seq<Warning>)
    ensures UnrealisticVoltage(volts) in w <==> volts > VoltageLimit
    ensures ZeroKva in w <==> kva == 0.0 && LowerAscii(load) != "spare"
    ensures UnrealisticCurrent(i100) in w <==> i100 > CurrentLimit
    ensures |w| <= 3
  {
    (if volts > VoltageLimit then [UnrealisticVoltage(volts)] else [])
    + (if kva == 0.0 && LowerAscii(load) != "spare" then [ZeroKva] else [])
    + (if i100 > CurrentLimit then [UnrealisticCurrent(i100)] else [])
  }

  /** The warning cell holds only the circuit's three kinds of warning, in
      the order the script appends them, none twice. */
  lemma WarningsRanked(volts: real, kva: real, i100: real, load: string)
    ensures forall i :: 0 <= i < |Warnings(volts, kva, i100, load)| ==>
              IsCircuitWarning(Warnings(volts, kva, i100, load)[i], volts, i100)
    ensures Ranked(Warnings(volts, kva, i100, load))
  {
    var v: seq<Warning> := if volts > VoltageLimit then [UnrealisticVoltage(volts)] else [];
    var z: seq<Warning> := if kva == 0.0 && LowerAscii(load) != "spare" then [ZeroKva] else [];
    var c: seq<Warning> := if i100 > CurrentLimit then [UnrealisticCurrent(i100)] else [];
    var w := v + z + c;
    assert Warnings(volts, kva, i100, load) == w;
    forall i | 0 <= i < |w|
      ensures IsCircuitWarning(w[i], volts, i100)
      ensures i < |v| ==> WarningRank(w[i]) == 0
      ensures |v| <= i < |v| + |z| ==> WarningRank(w[i]) == 1
      ensures |v| + |z| <= i ==> WarningRank(w[i]) == 2
    {
      if i < |v| {
        assert w[i] == v[i];
      } else if i < |v| + |z| {
        assert w[i] == z[i - |v|];
      } else {
        assert w[i] == c[i - |v| - |z|];
      }
    }
  }

  /** A member of a list of one circuit's warnings is one of its three
      kinds. */
  lemma CircuitMember(w: seq<Warning>, volts: real, i100: real, x: Warning)
    requires forall i :: 0 <= i < |w| ==> IsCircuitWarning(w[i], volts, i100)
    ensures x in w ==> IsCircuitWarning(x, volts, i100)
  {
    if x in w {
      var i :| 0 <= i < |w| && w[i] == x;
    }
  }

  /** Dropping the head of a ranked list keeps it ranked and removes
      exactly the head. */
  lemma RankedTail(a: seq<Warning>)
    requires a != [] && Ranked(a)
    ensures Ranked(a[1..])
    ensures forall x :: x in a[1..] <==> x in a && x != a[0]
  {
    forall i, j | 0 <= i < j < |a[1..]|
      ensures WarningRank(a[1..][i]) < WarningRank(a[1..][j])
    {
      assert a[1..][i] == a[i + 1] && a[1..][j] == a[j + 1];
    }
    forall x | x in a[1..]
      ensures x != a[0]
    {
      var i :| 0 <= i < |a[1..]| && a[1..][i] == x;
      assert a[1..][i] == a[i + 1];
      assert WarningRank(a[0]) < WarningRank(a[i + 1]);
    }
    forall x | x in a && x != a[0]
      ensures x in a[1..]
    {
      var i :| 0 <= i < |a| && a[i] == x;
      assert a[1..][i - 1] == a[i];
    }
  }

  /** Two ranked lists of one circuit's warnings holding the same warnings
      start with the same warning. */
  lemma RankedHeads(a: seq<Warning>, b: seq<Warning>, volts: real, i100: real)
    requires a != [] && b != []
    requires IsCircuitWarning(a[0], volts, i100) && IsCircuitWarning(b[0], volts, i100)
    requires Ranked(a) && Ranked(b)
    requires a[0] in b && b[0] in a
    ensures a[0] == b[0]
  {
    var k :| 0 <= k < |b| && b[k] == a[0];
    var m :| 0 <= m < |a| && a[m] == b[0];
    HeadIsLeast(b, k);
    HeadIsLeast(a, m);
  }

  /** The head of a ranked list has the least rank. */
  lemma HeadIsLeast(a: seq<Warning>, i: int)
    requires Ranked(a) && 0 <= i < |a|
    ensures WarningRank(a[0]) <= WarningRank(a[i])
  {
    if i > 0 {
      assert WarningRank(a[0]) < WarningRank(a[i]);
    }
  }

  /** Two ranked lists of one circuit's warnings that hold the same
      warnings are the same list. */
  lemma {:induction false} RankedUnique(a: seq<Warning>, b: seq<Warning>, volts: real, i100: real)
    requires forall i :: 0 <= i < |a| ==> IsCircuitWarning(a[i], volts, i100)
    requires forall i :: 0 <= i < |b| ==> IsCircuitWarning(b[i], volts, i100)
    requires Ranked(a) && Ranked(b)
    requires forall x :: x in a <==> x in b
    ensures a == b
    decreases |a|
  {
    assert a != [] ==> a[0] in b;
    assert b != [] ==> b[0] in a;
    if a != [] {
      RankedHeads(a, b, volts, i100);
      RankedTail(a);
      RankedTail(b);
      assert forall i :: 0 <= i < |a[1..]| ==> a[1..][i] == a[i + 1];
      assert forall i :: 0 <= i < |b[1..]| ==> b[1..][i] == b[i + 1];
      RankedUnique(a[1..], b[1..], volts, i100);
      assert a == [a[0]] + a[1..] && b == [b[0]] + b[1..];
    }
  }

  /** The script's warning cell is the only one possible: any ranked list of
      the circuit's warnings that holds each kind exactly when its condition
      holds is `Warnings`. */
  lemma WarningsDetermined(volts: real, kva: real, i100: real, load: string, w: seq<Warning>)
    requires UnrealisticVoltage(volts) in w <==> volts > VoltageLimit
    requires ZeroKva in w <==> kva == 0.0 && LowerAscii(load) != "spare"
    requires UnrealisticCurrent(i100) in w <==> i100 > CurrentLimit
    requires forall i :: 0 <= i < |w| ==> IsCircuitWarning(w[i], volts, i100)
    requires Ranked(w)
    ensures w == Warnings(volts, kva, i100, load)
  {
    var e := Warnings(volts, kva, i100, load);
    WarningsRanked(volts, kva, i100, load);
    forall x
      ensures x in w <==> x in e
    {
      CircuitMember(w, volts, i100, x);
      CircuitMember(e, volts, i100, x);
    }
    RankedUnique(w, e, volts, i100);
  }

  /** The load name, or "Unknown" when it is missing or empty. */
  function LoadName(s: SystemReading): (name: string)
    ensures name != ""
    ensures s.loadName.GetOr("") != "" ==> name == s.loadName.value
    ensures s.loadName.GetOr("") == "" ==> name == "Unknown"
  {
    if s.loadName.GetOr("") == "" then "Unknown" else s.loadName.value
  }

  /** A row whose cells are computed from the readings follows them. */
  lemma FollowsReadingsIntro(row: Row, s: SystemReading)
    requires row.circuit == s.circuitNumber && row.load == LoadName(s)
    requires row.voltage == Voltage(s.voltageRaw.GetOr(0.0))
    requires row.kva == Kva(s.apparentLoad.GetOr(0.0))
    requires row.i100 == Current(s.apparentLoad.GetOr(0.0), row.voltage)
    requires row.i125 == if IsContinuous(s.loadClassifications) then row.i100 * ContinuousFactor else row.i100
    requires row.warnings == Warnings(row.voltage, row.kva, row.i100, row.load)
    ensures FollowsReadings(row, s)
  {
    WarningsOfReadings(s);
  }

  /** The voltage and zero-load warnings of a system, in terms of its raw
      readings. */
  lemma WarningsOfReadings(s: SystemReading)
    ensures var volts := Voltage(s.voltageRaw.GetOr(0.0));
            var va := s.apparentLoad.GetOr(0.0);
            var w := Warnings(volts, Kva(va), Current(va, volts), LoadName(s));
            && (UnrealisticVoltage(volts) in w <==> s.voltageRaw.GetOr(0.0) > 6000.0)
            && (ZeroKva in w <==> va <= 0.0 && LowerAscii(LoadName(s)) != "spare")
  {
  }

  /** The row of a usable system, under the panel's name; missing
      parameters read as 0. */
  function MakeRow(panel: string, s: SystemReading): (row: Row)
    ensures row.panel == panel && FollowsReadings(row, s)
  {
    var load := LoadName(s);
    var volts := Voltage(s.voltageRaw.GetOr(0.0));
    var va := s.apparentLoad.GetOr(0.0);
    var kva := Kva(va);
    var i100 := Current(va, volts);
    var i125 := if IsContinuous(s.loadClassifications) then i100 * ContinuousFactor else i100;
    var row := Row(panel, s.circuitNumber, load, volts, kva, i100, i125, Warnings(volts, kva, i100, load));
    FollowsReadingsIntro(row, s);
    row
  }


  /** A row's values and warnings follow from the system's readings:
      the normalised voltage, the kVA and the current of its readings, with
      missing readings as 0, and the warnings they call for. */
  ghost predicate FollowsReadings(row: Row, s: SystemReading)
  {
    && row.circuit == s.circuitNumber
    && row.load == LoadName(s)
    && row.voltage == Voltage(s.voltageRaw.GetOr(0.0))
    && row.kva == Kva(s.apparentLoad.GetOr(0.0))
    && row.i100 == Current(s.apparentLoad.GetOr(0.0), row.voltage)
    && (UnrealisticVoltage(row.voltage) in row.warnings <==> s.voltageRaw.GetOr(0.0) > 6000.0)
    && (ZeroKva in row.warnings <==> s.apparentLoad.GetOr(0.0) <= 0.0 && LowerAscii(row.load) != "spare")
    && (UnrealisticCurrent(row.i100) in row.warnings <==> row.i100 > CurrentLimit)
    && (row.voltage > 0.0 ==> row.i100 * row.voltage == s.apparentLoad.GetOr(0.0))
    && (row.i125 == if IsContinuous(s.loadClassifications) then ContinuousFactor * row.i100 else row.i100)
    && row.warnings == Warnings(row.voltage, row.kva, row.i100, row.load)
  }

  /** The row of one assigned system, or None when it is skipped (not an
      ElectricalSystem, or not valid). */
  function SystemRow(panel: string, s: SystemReading): (r: Option<Row>)
    ensures r.Some? <==> s.isElectricalSystem && s.valid
    ensures r.Some? ==> r.value.panel == panel && FollowsReadings(r.value, s)
  {
    if !s.isElectricalSystem || !s.valid then None
    else Some(MakeRow(panel, s))
  }

  /** A spare circuit with no load gets no zero-load warning, whatever the
      case of its name; any other unloaded circuit does. */
  lemma SpareIsNotWarned(panel: string, s: SystemReading)
    requires s.isElectricalSystem && s.valid && s.apparentLoad.GetOr(0.0) <= 0.0
    ensures ZeroKva in SystemRow(panel, s).value.warnings <==> LowerAscii(s.loadName.GetOr("")) != "spare"
  {
    assert FollowsReadings(SystemRow(panel, s).value, s);
    var spare := "spare";
    assert LowerAscii("Unknown") != spare by {
      assert LowerAscii("Unknown")[0] == 'u';
    }
  }

  /* ---------------------------------------------------------------------- */
  /* Panels.                                                                 */
  /* ---------------------------------------------------------------------- */

  /** The panel name parameter, or "Panel_<Id>" when it is missing or
      empty. */
  function PanelName(p: PanelReading): (name: string)
    ensures name != ""
    ensures p.nameParam.GetOr("") != "" ==> name == p.nameParam.value
    ensures p.nameParam.GetOr("") == "" ==>
              IsPrefix("Panel_", name) && ParseInt(name[|"Panel_"|..]) == Some(p.id)
    ensures p.nameParam.GetOr("") == "" ==> CanonicalInt(name[|"Panel_"|..])
  {
    if p.nameParam.GetOr("") != "" then p.nameParam.value
    else
      var name := "Panel_" + IntToString(p.id);
      assert name[|"Panel_"|..] == IntToString(p.id);
      IntToStringRoundTrip(p.id);
      name
  }

  /** The systems of a panel that yield a row. */
  function UsableSystems(systems: seq<SystemReading>): (r: seq<SystemReading>)
    ensures |r| <= |systems|
    ensures forall s :: s in r <==> s in systems && s.isElectricalSystem && s.valid
  {
    if |systems| == 0 then []
    else
      var rest := UsableSystems(systems[1..]);
      assert systems == [systems[0]] + systems[1..];
      if systems[0].isElectricalSystem && systems[0].valid then [systems[0]] + rest else rest
  }

  /** UsableSystems is a filter: it keeps the usable systems of each part
      of the input, in input order, each as often as it occurs. */
  lemma {:induction false} UsableSystemsAppend(a: seq<SystemReading>, b: seq<SystemReading>)
    ensures UsableSystems(a + b) == UsableSystems(a) + UsableSystems(b)
  {
    if |a| == 0 {
      assert a + b == b;
    } else {
      ConsAppend(a, b);
      UsableSystemsAppend(a[1..], b);
      ConcatAssoc([a[0]], UsableSystems(a[1..]), UsableSystems(b));
    }
  }

  /** A single system is kept exactly when it is a valid electrical
      system. */
  lemma UsableSystemsSingle(s: SystemReading)
    ensures UsableSystems([s]) == if s.isElectricalSystem && s.valid then [s] else []
  {
    assert [s][1..] == [];
  }

  /** The rows of one panel: none for an invalid panel or one without a
      valid MEP model, else one per usable system, in order, each under the
      panel's name. */
  function PanelRows(p: PanelReading): (rows: seq<Row>)
    ensures !p.valid || !p.hasValidMep ==> rows == []
    ensures p.valid && p.hasValidMep ==> |rows| == |UsableSystems(p.systems)|
    ensures p.valid && p.hasValidMep ==> forall k :: 0 <= k < |rows| ==>
              Some(rows[k]) == SystemRow(PanelName(p), UsableSystems(p.systems)[k])
    ensures forall row :: row in rows ==> row.panel == PanelName(p)
  {
    if !p.valid || !p.hasValidMep then []
    else
      var usable := UsableSystems(p.systems);
      seq(|usable|, k requires 0 <= k < |usable| => SystemRow(PanelName(p), usable[k]).value)
  }

  /** All rows, panel by panel in collection order. */
  function AllRows(panels: seq<PanelReading>): (rows: seq<Row>)
    ensures forall row :: row in rows <==> exists p :: p in panels && row in PanelRows(p)
  {
    if |panels| == 0 then []
    else
      var rest := AllRows(panels[1..]);
      assert forall p :: p in panels <==> p == panels[0] || p in panels[1..];
      PanelRows(panels[0]) + rest
  }

  /** The rows of a list of panels are the rows of its parts, one after
      the other: each panel's rows in order, each exactly once. */
  lemma {:induction false} AllRowsAppend(ps: seq<PanelReading>, qs: seq<PanelReading>)
    ensures AllRows(ps + qs) == AllRows(ps) + AllRows(qs)
  {
    if |ps| == 0 {
      assert ps + qs == qs;
    } else {
      ConsAppend(ps, qs);
      AllRowsAppend(ps[1..], qs);
      ConcatAssoc(PanelRows(ps[0]), AllRows(ps[1..]), AllRows(qs));
    }
  }

  /** The rows of a single panel are that panel's rows. */
  lemma AllRowsSingle(p: PanelReading)
    ensures AllRows([p]) == PanelRows(p)
  {
    assert [p][1..] == [];
  }

  /* ---------------------------------------------------------------------- */
  /* Sorting and the schedule.                                               */
  /* ---------------------------------------------------------------------- */

  datatype RowKey = RowKey(panel: string, circuit: CircuitKey)

  function KeyOf(row: Row): RowKey
  {
    RowKey(row.panel, CircuitSortKey(row.circuit))
  }

  /** Tuple order on (panel name, circuit key). */
  predicate RowKeyLess(a: RowKey, b: RowKey)
  {
    StrLess(a.panel, b.panel) || (a.panel == b.panel && KeyLess(a.circuit, b.circuit))
  }

  lemma RowKeyLessIsTotal()
    ensures StrictTotalOrder(RowKeyLess)
  {
    KeyLessIsTotal();
    forall a ensures !RowKeyLess(a, a) {
      StrLessIrreflexive(a.panel);
    }
    forall a, b, c | RowKeyLess(a, b) && RowKeyLess(b, c) ensures RowKeyLess(a, c) {
      if StrLess(a.panel, b.panel) && StrLess(b.panel, c.panel) {
        StrLessTransitive(a.panel, b.panel, c.panel);
      }
    }
    forall a, b | a != b ensures RowKeyLess(a, b) || RowKeyLess(b, a) {
      if a.panel != b.panel {
        StrLessTotal(a.panel, b.panel);
      }
    }
  }

  datatype Line = HeaderLine(cells: seq<string>) | RowLine(row: Row)

  function RowsOf(lines: seq<Line>): seq<Row>
    requires forall k :: 0 <= k < |lines| ==> lines[k].RowLine?
  {
    seq(|lines|, k requires 0 <= k < |lines| => lines[k].row)
  }

  /** The schedule: the header, then every row sorted by panel name and
      natural circuit order -- a permutation of the rows, in which rows with
      equal keys keep their collection order. */
  function Schedule(panels: seq<PanelReading>): (lines: seq<Line>)
    ensures |lines| >= 1 && lines[0] == HeaderLine(Header)
    ensures forall k :: 1 <= k < |lines| ==> lines[k].RowLine?
    ensures var sorted := RowsOf(lines[1..]);
            && multiset(sorted) == multiset(AllRows(panels))
            && SortedByKey(sorted, KeyOf, RowKeyLess)
            && forall key :: FilterKey(sorted, KeyOf, key) == FilterKey(AllRows(panels), KeyOf, key)
  {
    RowKeyLessIsTotal();
    var sorted := SortByKey(AllRows(panels), KeyOf, RowKeyLess);
    HeadedRows(sorted)
  }

  /** The header line, then one line per row. */
  function HeadedRows(rows: seq<Row>): (lines: seq<Line>)
    ensures |lines| == |rows| + 1 && lines[0] == HeaderLine(Header)
    ensures forall k :: 1 <= k < |lines| ==> lines[k].RowLine?
    ensures RowsOf(lines[1..]) == rows
  {
    var lines := [HeaderLine(Header)] + seq(|rows|, k requires 0 <= k < |rows| => RowLine(rows[k]));
    assert RowsOf(lines[1..]) == rows;
    lines
  }
}

=== FILE: receptacle_placement.dfy ===
/** Receptacle placement, part 2: for each run of joined walls, pick the
    longest level straight edge of the face turned towards a side, lay out
    target distances along the run from a start offset at a fixed spacing,
    and walk the edges (sorted by start X) turning each target distance into
    a point on one edge. */
module ReceptaclePlacement {

  import opened Wrappers
  import opened Seqs
  import opened Geometry
  import opened Sorting
  import opened WallGrouping

  /** Clearance kept free at each end of a run (feet). */
  const EndClearance: real := 0.167
  const DefaultStartOffset: real := 6.0
  const DefaultSpacing: real := 12.0
  /** A face serves a side when its normal's dot product with the side's
      orientation exceeds this. */
  const FacingThreshold: real := 0.5
  /** An edge is level when its end heights differ by less than this. */
  const LevelTolerance: real := 0.01
  /** Each receptacle is raised this far above its edge. */
  const MountingRise: real := 0.15

  /** `IN[k] if IN[k] else default`: a missing or zero input takes the
      default, so the setting is never zero when the default is not. */
  function Setting(input: Option<real>, default: real): (r: real)
    ensures default != 0.0 ==> r != 0.0
    ensures input.Some? && input.value != 0.0 ==> r == input.value
    ensures input.None? || input.value == 0.0 ==> r == default
  {
    if input.Some? && input.value != 0.0 then input.value else default
  }

  /** Feeding a setting back in as the input keeps it: a value the script
      settled on is never replaced by the default again, unless it is the
      default's own zero. */
  lemma SettingIsStable(input: Option<real>, default: real)
    ensures Setting(Some(Setting(input, default)), default) == Setting(input, default)
  {
  }

  /* ---------------------------------------------------------------------- */
  /* Face and edge selection.                                                */
  /* ---------------------------------------------------------------------- */

  /** A boundary edge as the host reports it: whether it is a straight line,
      its end points, its length and its normalised direction. */
  datatype Edge = Edge(isLine: bool, p1: Point, p2: Point, length: real, dir: Point)

  /** One edge of one face of a wall's solids, in the host's enumeration
      order (solids, faces, edge loops, edges), with the normal of its face
      at the face's parametric centre. */
  datatype Candidate = Candidate(face: nat, normal: Point, edge: Edge)

  /** The edge lies on a face turned towards `orientation`, is straight, and
      is level. */
  predicate Qualifies(c: Candidate, orientation: Point)
  {
    && Dot(c.normal, orientation) > FacingThreshold
    && c.edge.isLine
    && Abs(c.edge.p1.z - c.edge.p2.z) < LevelTolerance
  }

  /** Length of the best edge found so far; the scan starts from 0. */
  function BestLength(cs: seq<Candidate>, best: Option<nat>): real
  {
    if best.Some? && best.value < |cs| then cs[best.value].edge.length else 0.0
  }

  /** The scan over the first n candidates that keeps a qualifying edge when
      it is strictly longer than the best so far: the index of the first
      longest qualifying edge, or None when no qualifying edge is longer
      than 0. */
  function Longest(cs: seq<Candidate>, orientation: Point, n: nat): (r: Option<nat>)
    requires n <= |cs|
    ensures r.Some? ==> r.value < n && Qualifies(cs[r.value], orientation)
                        && cs[r.value].edge.length > 0.0
    ensures forall i :: 0 <= i < n && Qualifies(cs[i], orientation)
              ==> cs[i].edge.length <= BestLength(cs, r)
    ensures r.Some? ==> forall i :: 0 <= i < r.value && Qualifies(cs[i], orientation)
                          ==> cs[i].edge.length < cs[r.value].edge.length
  {
    if n == 0 then None
    else
      var best := Longest(cs, orientation, n - 1);
      var c := cs[n - 1];
      if Qualifies(c, orientation) && c.edge.length > BestLength(cs, best) then Some(n - 1)
      else best
  }

  /** The first longest qualifying edge is the only index the scan can
      return: any index with those three properties is its result. */
  lemma LongestIsFirstMaximum(cs: seq<Candidate>, orientation: Point, j: nat)
    requires j < |cs| && Qualifies(cs[j], orientation) && cs[j].edge.length > 0.0
    requires forall i :: 0 <= i < |cs| && Qualifies(cs[i], orientation)
               ==> cs[i].edge.length <= cs[j].edge.length
    requires forall i :: 0 <= i < j && Qualifies(cs[i], orientation)
               ==> cs[i].edge.length < cs[j].edge.length
    ensures Longest(cs, orientation, |cs|) == Some(j)
  {
    var r := Longest(cs, orientation, |cs|);
    assert cs[j].edge.length <= BestLength(cs, r);
  }

  /** `get_wall_face_for_orientation`: the face and edge of the first
      longest qualifying edge, or None when no edge qualifies. */
  function SelectEdge(cs: seq<Candidate>, orientation: Point): (r: Option<Candidate>)
    ensures r.None? <==> forall i :: 0 <= i < |cs| && Qualifies(cs[i], orientation)
                           ==> cs[i].edge.length <= 0.0
    ensures r.Some? ==> r.value in cs && Qualifies(r.value, orientation) && r.value.edge.length > 0.0
    ensures r.Some? ==> forall c :: c in cs && Qualifies(c, orientation)
                          ==> c.edge.length <= r.value.edge.length
  {
    var best := Longest(cs, orientation, |cs|);
    if best.Some? then Some(cs[best.value]) else None
  }

  /* ---------------------------------------------------------------------- */
  /* Target distances.                                                       */
  /* ---------------------------------------------------------------------- */

  /** The i-th target distance along a run. */
  function TargetAt(start: real, spacing: real, i: nat): real
  {
    start + (i as real) * spacing
  }

  lemma TargetStep(start: real, spacing: real, i: nat, j: nat)
    requires spacing > 0.0 && i < j
    ensures TargetAt(start, spacing, i) < TargetAt(start, spacing, j)
  {
    assert (j as real) * spacing - (i as real) * spacing == ((j - i) as real) * spacing;
  }

  /** For a positive spacing: i <= floor((usable - start) / spacing) exactly
      when the i-th target lies within the usable length. */
  lemma FloorBound(usable: real, start: real, spacing: real, i: nat)
    requires spacing > 0.0
    ensures i <= ((usable - start) / spacing).Floor <==> TargetAt(start, spacing, i) <= usable
  {
    var q := (usable - start) / spacing;
    assert q * spacing == usable - start;
    if i <= q.Floor {
      assert (i as real) <= q;
      assert (i as real) * spacing <= q * spacing;
    } else {
      assert (i as real) > q;
      assert (i as real) * spacing > q * spacing;
    }
  }

  /** `dist_list` of `place_on_group`, computed once the run is longer than
      the start offset: for a positive spacing, exactly the targets
      start + i * spacing that lie within the usable length, increasing;
      for a negative spacing, none. */
  function Targets(usable: real, start: real, spacing: real): (r: seq<real>)
    requires usable > start && spacing != 0.0
    ensures forall i :: 0 <= i < |r| ==> r[i] == TargetAt(start, spacing, i)
    ensures spacing > 0.0 ==> forall i: nat {:trigger TargetAt(start, spacing, i)} ::
              i < |r| <==> TargetAt(start, spacing, i) <= usable
    ensures spacing > 0.0 ==> |r| == ((usable - start) / spacing).Floor + 1
    ensures spacing < 0.0 ==> r == []
  {
    var count := ((usable - start) / spacing).Floor;
    if spacing > 0.0 then
      assert count >= 0 by {
        FloorBound(usable, start, spacing, 0);
      }
      var r := seq(count + 1, i requires 0 <= i <= count => TargetAt(start, spacing, i));
      assert forall i: nat {:trigger TargetAt(start, spacing, i)} ::
          i < |r| <==> TargetAt(start, spacing, i) <= usable by {
        forall i: nat ensures i < |r| <==> TargetAt(start, spacing, i) <= usable {
          FloorBound(usable, start, spacing, i);
        }
      }
      r
    else
      assert count < 0 by {
        var q := (usable - start) / spacing;
        assert q * spacing == usable - start;
      }
      []
  }

  predicate Increasing(s: seq<real>)
  {
    forall a, b :: 0 <= a < b < |s| ==> s[a] < s[b]
  }

  lemma TargetsIncrease(usable: real, start: real, spacing: real)
    requires usable > start && spacing > 0.0
    ensures Increasing(Targets(usable, start, spacing))
  {
    var r := Targets(usable, start, spacing);
    forall a, b | 0 <= a < b < |r| ensures r[a] < r[b] {
      TargetStep(start, spacing, a, b);
    }
  }

  /* ---------------------------------------------------------------------- */
  /* The walk along the sorted edges.                                        */
  /* ---------------------------------------------------------------------- */

  /** A selected edge of one wall in the run: its start point, direction and
      length. */
  datatype Span = Span(wall: int, start: Point, dir: Point, length: real)

  /** Total length of a sequence of spans. */
  function Total(spans: seq<Span>): real
  {
    if |spans| == 0 then 0.0 else Total(spans[..|spans| - 1]) + spans[|spans| - 1].length
  }

  /** Length of the spans before span n: where span n begins along the run. */
  function Before(spans: seq<Span>, n: nat): real
    requires n <= |spans|
  {
    if n == 0 then 0.0 else Before(spans, n - 1) + spans[n - 1].length
  }

  /** Where span k ends along the run. */
  function End(spans: seq<Span>, k: nat): real
    requires k < |spans|
  {
    Before(spans, k + 1)
  }

  lemma {:induction false} BeforeIsTotal(spans: seq<Span>, n: nat)
    requires n <= |spans|
    ensures Before(spans, n) == Total(spans[..n])
  {
    if n > 0 {
      BeforeIsTotal(spans, n - 1);
      assert spans[..n][..n - 1] == spans[..n - 1];
    }
  }

  /** A receptacle: the index of the span it sits on and that span (whose
      wall's face hosts it), its target distance along the run, its offset
      from the span's start, and its insertion point. */
  datatype Placement = Placement(span: nat, on: Span, target: real, offset: real, location: Point)

  /** The point `offset` along a span, raised by the mounting rise. */
  function Mount(s: Span, offset: real): (p: Point)
    ensures p.z == s.start.z + s.dir.z * offset + MountingRise
    ensures p.x == s.start.x + s.dir.x * offset && p.y == s.start.y + s.dir.y * offset
  {
    var q := Add(s.start, Scale(s.dir, offset));
    Point(q.x, q.y, q.z + MountingRise)
  }

  function TargetsOf(ps: seq<Placement>): (r: seq<real>)
    ensures |r| == |ps| && forall k :: 0 <= k < |ps| ==> r[k] == ps[k].target
  {
    if |ps| == 0 then [] else [ps[0].target] + TargetsOf(ps[1..])
  }

  lemma TargetsOfAppend(a: seq<Placement>, b: seq<Placement>)
    ensures TargetsOf(a + b) == TargetsOf(a) + TargetsOf(b)
  {
  }

  /** How many leading targets are within `bound`: the number the inner
      `while` pops. */
  function CountUpTo(targets: seq<real>, bound: real): (k: nat)
    ensures k <= |targets|
    ensures forall m :: 0 <= m < k ==> targets[m] <= bound
    ensures k == |targets| || targets[k] > bound
  {
    if |targets| == 0 || targets[0] > bound then 0
    else 1 + CountUpTo(targets[1..], bound)
  }

  /** Placement p sits on the span that covers its target, at the right
      offset and point. */
  ghost predicate OnSpan(spans: seq<Span>, p: Placement)
  {
    && p.span < |spans|
    && p.on == spans[p.span]
    && p.offset == p.target - Before(spans, p.span)
    && p.target <= End(spans, p.span)
    && p.location == Mount(spans[p.span], p.offset)
  }

  ghost predicate PlacedOnSpans(spans: seq<Span>, i: nat, placed: seq<Placement>)
  {
    forall p :: p in placed ==> i <= p.span && OnSpan(spans, p)
  }

  ghost predicate SpanOrder(placed: seq<Placement>)
  {
    forall a, b :: 0 <= a < b < |placed| ==> placed[a].span <= placed[b].span
  }

  /** No span before p's (from span i on) already reaches p's target: p is
      on the first span whose end is at or beyond its target. */
  ghost predicate FirstCovering(spans: seq<Span>, i: nat, p: Placement)
  {
    forall k :: i <= k < p.span && k < |spans| ==> End(spans, k) < p.target
  }

  ghost predicate AllFirstCovering(spans: seq<Span>, i: nat, placed: seq<Placement>)
  {
    forall p :: p in placed ==> FirstCovering(spans, i, p)
  }

  /** Every target is within the run's total length. */
  ghost predicate WithinRun(spans: seq<Span>, targets: seq<real>)
  {
    forall t :: t in targets ==> t <= Before(spans, |spans|)
  }

  datatype Walked = Walked(placed: seq<Placement>, left: seq<real>)

  /** The receptacles put on span i for the first k targets. */
  function Here(spans: seq<Span>, targets: seq<real>, i: nat, covered: real, k: nat): (r: seq<Placement>)
    requires i < |spans| && covered == Before(spans, i)
    requires k <= |targets| && forall m :: 0 <= m < k ==> targets[m] <= End(spans, i)
    ensures TargetsOf(r) == targets[..k]
    ensures PlacedOnSpans(spans, i, r) && SpanOrder(r)
    ensures forall p :: p in r ==> p.span == i
  {
    seq(k, m requires 0 <= m < k =>
          Placement(i, spans[i], targets[m], targets[m] - covered, Mount(spans[i], targets[m] - covered)))
  }

  lemma WalkStepOrder(spans: seq<Span>, i: nat, here: seq<Placement>, rest: seq<Placement>)
    requires forall p :: p in here ==> p.span == i
    requires PlacedOnSpans(spans, i + 1, rest) && SpanOrder(rest)
    requires PlacedOnSpans(spans, i, here)
    ensures PlacedOnSpans(spans, i, here + rest) && SpanOrder(here + rest)
  {
    var r := here + rest;
    forall a, b | 0 <= a < b < |r| ensures r[a].span <= r[b].span {
      if b < |here| {
        assert r[a] in here && r[b] in here;
      } else if a < |here| {
        assert r[a] in here && r[b] == rest[b - |here|];
        assert rest[b - |here|] in rest;
      } else {
        assert r[a] == rest[a - |here|] && r[b] == rest[b - |here|];
      }
    }
  }

  lemma WalkStepCovering(spans: seq<Span>, targets: seq<real>, i: nat, k: nat,
                         here: seq<Placement>, rest: Walked)
    requires i < |spans| && k <= |targets|
    requires Increasing(targets)
    requires k == |targets| || targets[k] > End(spans, i)
    requires forall p :: p in here ==> p.span == i
    requires TargetsOf(rest.placed) + rest.left == targets[k..]
    requires AllFirstCovering(spans, i + 1, rest.placed)
    ensures AllFirstCovering(spans, i, here + rest.placed)
  {
    forall p | p in here + rest.placed ensures FirstCovering(spans, i, p) {
      if p in rest.placed {
        var n :| 0 <= n < |rest.placed| && rest.placed[n] == p;
        assert TargetsOf(rest.placed)[n] == p.target;
        assert targets[k..][n] == p.target;
        assert targets[k + n] >= targets[k];
      }
    }
  }

  lemma WalkStepExhausts(spans: seq<Span>, targets: seq<real>, i: nat, k: nat, rest: Walked)
    requires i < |spans| && k <= |targets|
    requires Increasing(targets) && WithinRun(spans, targets)
    requires k == |targets| || targets[k] > End(spans, i)
    requires TargetsOf(rest.placed) + rest.left == targets[k..]
    requires (Increasing(targets[k..]) && WithinRun(spans, targets[k..])
              && (i + 1 < |spans| || targets[k..] == [])) ==> rest.left == []
    ensures rest.left == []
  {
    assert Increasing(targets[k..]);
    assert WithinRun(spans, targets[k..]) by {
      forall t | t in targets[k..] ensures t in targets {
        var n :| 0 <= n < |targets[k..]| && targets[k..][n] == t;
        assert targets[k + n] == t;
      }
    }
    assert k < |targets| ==> targets[k] in targets;
    assert i + 1 < |spans| || targets[k..] == [];
  }

  lemma WalkStepTargets(targets: seq<real>, k: nat, here: seq<Placement>, rest: Walked)
    requires k <= |targets| && TargetsOf(here) == targets[..k]
    requires TargetsOf(rest.placed) + rest.left == targets[k..]
    ensures TargetsOf(here + rest.placed) + rest.left == targets
  {
    TargetsOfAppend(here, rest.placed);
    ConcatAssoc(TargetsOf(here), TargetsOf(rest.placed), rest.left);
    SplitAt(targets, k);
  }

  lemma IncreasingSuffix(targets: seq<real>, k: nat)
    requires k <= |targets| && Increasing(targets)
    ensures Increasing(targets[k..])
  {
  }

  /** The `for` loop over sorted spans from span i on, `covered` being the
      length of the spans before it: pending targets are popped while they
      are within the end of the current span. */
  function Walk(spans: seq<Span>, targets: seq<real>, i: nat, covered: real): (r: Walked)
    requires i <= |spans| && covered == Before(spans, i)
    decreases |spans| - i
    ensures TargetsOf(r.placed) + r.left == targets
    ensures PlacedOnSpans(spans, i, r.placed) && SpanOrder(r.placed)
    ensures Increasing(targets) ==> AllFirstCovering(spans, i, r.placed)
    ensures Increasing(targets) && WithinRun(spans, targets) && (i < |spans| || targets == [])
            ==> r.left == []
  {
    if i == |spans| then Walked([], targets)
    else
      var k := CountUpTo(targets, End(spans, i));
      var here := Here(spans, targets, i, covered, k);
      var rest := Walk(spans, targets[k..], i + 1, End(spans, i));
      WalkStepTargets(targets, k, here, rest);
      WalkStepOrder(spans, i, here, rest.placed);
      assert Increasing(targets) ==> AllFirstCovering(spans, i, here + rest.placed) by {
        if Increasing(targets) {
          IncreasingSuffix(targets, k);
          WalkStepCovering(spans, targets, i, k, here, rest);
        }
      }
      assert Increasing(targets) && WithinRun(spans, targets) ==> rest.left == [] by {
        if Increasing(targets) && WithinRun(spans, targets) {
          IncreasingSuffix(targets, k);
          WalkStepExhausts(spans, targets, i, k, rest);
        }
      }
      Walked(here + rest.placed, rest.left)
  }

  /** Targets after the first span land strictly past that span's end: the
      local offset on every later span is positive, and it is never more
      than the span's length. */
  lemma OffsetsWithinSpans(spans: seq<Span>, targets: seq<real>, p: Placement)
    requires Increasing(targets)
    requires p in Walk(spans, targets, 0, 0.0).placed
    ensures p.offset <= spans[p.span].length
    ensures p.span > 0 ==> p.offset > 0.0
  {
    if p.span > 0 {
      assert End(spans, p.span - 1) < p.target;
    }
  }

  /* ---------------------------------------------------------------------- */
  /* One side of one run.                                                    */
  /* ---------------------------------------------------------------------- */

  lemma TotalAppend(a: seq<Span>, b: seq<Span>)
    ensures Total(a + b) == Total(a) + Total(b)
    decreases |b|
  {
    if |b| > 0 {
      assert (a + b)[..|a + b| - 1] == a + b[..|b| - 1];
      TotalAppend(a, b[..|b| - 1]);
    } else {
      assert a + b == a;
    }
  }

  lemma TotalSingle(x: Span)
    ensures Total([x]) == x.length
  {
    assert [x][..0] == [];
  }

  /** Takes one occurrence of x out of b. */
  lemma RemoveOne(b: seq<Span>, x: Span) returns (lo: seq<Span>, hi: seq<Span>)
    requires x in multiset(b)
    ensures b == lo + ([x] + hi)
    ensures multiset(lo + hi) + multiset{x} == multiset(b)
  {
    var j :| 0 <= j < |b| && b[j] == x;
    lo, hi := b[..j], b[j + 1..];
    assert b == lo + ([x] + hi);
    assert multiset(b) == multiset(lo) + multiset{x} + multiset(hi);
    assert multiset(lo + hi) == multiset(lo) + multiset(hi);
  }

  lemma MultisetCancel(p: multiset<Span>, q: multiset<Span>, x: Span)
    requires p + multiset{x} == q + multiset{x}
    ensures p == q
  {
    forall e ensures p[e] == q[e] {
      assert (p + multiset{x})[e] == (q + multiset{x})[e];
    }
  }

  lemma TotalAround(lo: seq<Span>, x: Span, hi: seq<Span>)
    ensures Total(lo + ([x] + hi)) == Total(lo + hi) + x.length
  {
    TotalAppend(lo, [x] + hi);
    TotalAppend([x], hi);
    TotalSingle(x);
    TotalAppend(lo, hi);
  }

  /** Reordering spans does not change their total length. */
  lemma {:induction false} TotalOfPermutation(a: seq<Span>, b: seq<Span>)
    requires multiset(a) == multiset(b)
    ensures Total(a) == Total(b)
    decreases |a|
  {
    if |a| > 0 {
      var x := a[|a| - 1];
      var init := a[..|a| - 1];
      assert a == init + [x];
      assert multiset(a) == multiset(init) + multiset{x};
      var lo, hi := RemoveOne(b, x);
      MultisetCancel(multiset(lo + hi), multiset(init), x);
      TotalOfPermutation(init, lo + hi);
      TotalAround(lo, x, hi);
    } else {
      assert |multiset(b)| == 0;
    }
  }

  /** The span a wall contributes to a side: its selected edge, if any. */
  function SpanOf(w: Wall, edgesOf: Wall -> seq<Candidate>, orientation: Point): (r: Option<Span>)
    ensures r.Some? ==> r.value.wall == w.id && r.value.length > 0.0
    ensures r.None? <==> SelectEdge(edgesOf(w), orientation).None?
    ensures r.Some? ==>
              var e := SelectEdge(edgesOf(w), orientation).value.edge;
              r.value == Span(w.id, e.p1, e.dir, e.length)
  {
    match SelectEdge(edgesOf(w), orientation)
    case None => None
    case Some(c) => Some(Span(w.id, c.edge.p1, c.edge.dir, c.edge.length))
  }

  /** The selected spans of a run, in run order: walls with no qualifying
      edge contribute nothing. */
  function Spans(group: seq<Wall>, edgesOf: Wall -> seq<Candidate>, orientation: Point): (r: seq<Span>)
    ensures |r| <= |group|
    ensures forall s :: s in r ==> s.length > 0.0
    ensures r == [] <==> forall w :: w in group ==> SpanOf(w, edgesOf, orientation).None?
  {
    if |group| == 0 then []
    else
      var rest := Spans(group[1..], edgesOf, orientation);
      assert forall w :: w in group[1..] ==> w in group;
      match SpanOf(group[0], edgesOf, orientation)
      case None =>
        assert forall w :: w in group ==> w == group[0] || w in group[1..];
        rest
      case Some(s) => [s] + rest
  }

  /** The spans of two runs laid one after the other are the spans of
      each, in the same order. */
  lemma {:induction false} SpansAppend(a: seq<Wall>, b: seq<Wall>, edgesOf: Wall -> seq<Candidate>, orientation: Point)
    ensures Spans(a + b, edgesOf, orientation) == Spans(a, edgesOf, orientation) + Spans(b, edgesOf, orientation)
  {
    if |a| == 0 {
      assert a + b == b;
    } else {
      ConsAppend(a, b);
      SpansAppend(a[1..], b, edgesOf, orientation);
      match SpanOf(a[0], edgesOf, orientation)
      case None =>
      case Some(s) =>
        ConcatAssoc([s], Spans(a[1..], edgesOf, orientation), Spans(b, edgesOf, orientation));
    }
  }

  /** A single wall contributes its selected edge's span, or nothing. */
  lemma SpansSingle(w: Wall, edgesOf: Wall -> seq<Candidate>, orientation: Point)
    ensures Spans([w], edgesOf, orientation)
            == if SpanOf(w, edgesOf, orientation).Some? then [SpanOf(w, edgesOf, orientation).value] else []
  {
    assert [w][1..] == [];
  }

  function RealLess(a: real, b: real): bool
  {
    a < b
  }

  lemma RealLessIsTotal()
    ensures StrictTotalOrder(RealLess)
  {
  }

  function StartX(s: Span): real
  {
    s.start.x
  }

  /** Length of a run's selected spans less the clearance at both ends. */
  function Usable(spans: seq<Span>): real
  {
    Total(spans) - 2.0 * EndClearance
  }

  /** `sorted(curves, key=start X)`: the spans in ascending order of their
      start point's X coordinate, ties in run order. */
  function ByStartX(spans: seq<Span>): (r: seq<Span>)
    ensures multiset(r) == multiset(spans) && |r| == |spans|
    ensures forall a, b :: 0 <= a < b < |r| ==> r[a].start.x <= r[b].start.x
    ensures Before(r, |r|) == Total(spans)
    ensures forall x :: FilterKey(r, StartX, x) == FilterKey(spans, StartX, x)
  {
    RealLessIsTotal();
    var r := SortByKey(spans, StartX, RealLess);
    SortKeepsLength(spans, StartX, RealLess);
    TotalOfPermutation(spans, r);
    assert r[..|r|] == r;
    BeforeIsTotal(r, |r|);
    r
  }

  /** Each receptacle the walk over the sorted spans places is on a span of
      the run, within its length. */
  lemma WalkStaysOnRun(spans: seq<Span>, sorted: seq<Span>, targets: seq<real>)
    requires multiset(sorted) == multiset(spans)
    ensures forall p :: p in Walk(sorted, targets, 0, 0.0).placed ==>
              (p.on in spans && p.offset <= p.on.length && p.location == Mount(p.on, p.offset))
  {
    forall p | p in Walk(sorted, targets, 0, 0.0).placed
      ensures p.on in spans && p.offset <= p.on.length && p.location == Mount(p.on, p.offset)
    {
      assert OnSpan(sorted, p);
      assert p.on in multiset(sorted);
    }
  }

  /** Receptacles in ascending start X of the spans they are on. */
  predicate AscendingX(placed: seq<Placement>)
  {
    forall a, b :: 0 <= a < b < |placed| ==> placed[a].on.start.x <= placed[b].on.start.x
  }

  /** The walk takes the sorted spans in ascending start X. */
  lemma WalkAscendsInX(sorted: seq<Span>, targets: seq<real>)
    requires forall a, b :: 0 <= a < b < |sorted| ==> sorted[a].start.x <= sorted[b].start.x
    ensures AscendingX(Walk(sorted, targets, 0, 0.0).placed)
  {
    var placed := Walk(sorted, targets, 0, 0.0).placed;
    forall a, b | 0 <= a < b < |placed| ensures placed[a].on.start.x <= placed[b].on.start.x {
      assert placed[a] in placed && placed[b] in placed;
      assert OnSpan(sorted, placed[a]) && OnSpan(sorted, placed[b]);
    }
  }

  /** Every target is within the run's length, so when the run has a span
      the walk over the sorted spans places all of them. */
  lemma WalkConsumesTargets(spans: seq<Span>, start: real, spacing: real)
    requires spacing != 0.0 && Usable(spans) > start && |spans| > 0
    ensures var targets := Targets(Usable(spans), start, spacing);
            TargetsOf(Walk(ByStartX(spans), targets, 0, 0.0).placed) == targets
  {
    var usable := Usable(spans);
    var targets := Targets(usable, start, spacing);
    var sorted := ByStartX(spans);
    if spacing > 0.0 {
      TargetsIncrease(usable, start, spacing);
    }
    assert Increasing(targets);
    assert WithinRun(sorted, targets) by {
      forall t | t in targets ensures t <= Before(sorted, |sorted|) {
        var i :| 0 <= i < |targets| && targets[i] == t;
        assert TargetAt(start, spacing, i) <= usable;
      }
    }
  }

  /** `place_on_group` for one side: nothing when the usable length does
      not exceed the start offset or the spacing is zero (the division
      raises and the handler returns an empty list); otherwise the target
      distances, in order, each turned into a receptacle on a span of the
      run, the spans taken in ascending start X. */
  function PlaceOnGroup(group: seq<Wall>, edgesOf: Wall -> seq<Candidate>, orientation: Point,
                        start: real, spacing: real): (r: seq<Placement>)
    ensures Usable(Spans(group, edgesOf, orientation)) <= start || spacing == 0.0 ==> r == []
    ensures Spans(group, edgesOf, orientation) == [] ==> r == []
    ensures Usable(Spans(group, edgesOf, orientation)) > start && spacing != 0.0
            && Spans(group, edgesOf, orientation) != [] ==>
              TargetsOf(r) == Targets(Usable(Spans(group, edgesOf, orientation)), start, spacing)
    ensures forall p :: p in r ==>
              (p.on in Spans(group, edgesOf, orientation)
               && p.offset <= p.on.length && p.location == Mount(p.on, p.offset))
    ensures forall p :: p in r ==>
              OnSpan(ByStartX(Spans(group, edgesOf, orientation)), p)
              && FirstCovering(ByStartX(Spans(group, edgesOf, orientation)), 0, p)
    ensures AscendingX(r)
  {
    var spans := Spans(group, edgesOf, orientation);
    if Usable(spans) <= start || spacing == 0.0 then []
    else
      var sorted := ByStartX(spans);
      var targets := Targets(Usable(spans), start, spacing);
      assert spans != [] ==> TargetsOf(Walk(sorted, targets, 0, 0.0).placed) == targets by {
        if spans != [] {
          WalkConsumesTargets(spans, start, spacing);
        }
      }
      WalkStaysOnRun(spans, sorted, targets);
      WalkAscendsInX(sorted, targets);
      WalkLandsOnFirstCovering(spans, start, spacing);
      Walk(sorted, targets, 0, 0.0).placed
  }

  /** Each target lands on the first sorted span whose end reaches it, at
      the target's distance past the spans before that one. */
  lemma WalkLandsOnFirstCovering(spans: seq<Span>, start: real, spacing: real)
    requires spacing != 0.0 && Usable(spans) > start
    ensures var sorted := ByStartX(spans);
            forall p :: p in Walk(sorted, Targets(Usable(spans), start, spacing), 0, 0.0).placed ==>
              OnSpan(sorted, p) && FirstCovering(sorted, 0, p)
  {
    if spacing > 0.0 {
      TargetsIncrease(Usable(spans), start, spacing);
    }
  }

  lemma BeforeNonNegative(spans: seq<Span>, n: nat)
    requires n <= |spans| && forall s :: s in spans ==> s.length > 0.0
    ensures Before(spans, n) >= 0.0
    decreases n
  {
    if n > 0 {
      BeforeNonNegative(spans, n - 1);
    }
  }

  /* ---------------------------------------------------------------------- */
  /* Both sides of every run.                                                */
  /* ---------------------------------------------------------------------- */

  /** A face serves at most one side: the two sides use opposite
      orientations, and no normal is within 60 degrees of both. */
  lemma FaceServesOneSide(c: Candidate, orientation: Point)
    ensures Qualifies(c, orientation) ==> !Qualifies(c, Negate(orientation))
  {
    DotNegate(c.normal, orientation);
  }

  datatype Side = Exterior | Interior

  /** A result line: the side of a run and how many receptacles it got. */
  datatype Tally = Tally(side: Side, count: nat)

  /** The receptacles placed on one side of a run: the exterior side follows
      the orientation of the run's first wall, the interior side its
      negation. */
  function SidePlacements(g: seq<Wall>, side: Side, edgesOf: Wall -> seq<Candidate>,
                          start: real, spacing: real): seq<Placement>
    requires |g| > 0
  {
    var o := if side == Exterior then g[0].orientation else Negate(g[0].orientation);
    PlaceOnGroup(g, edgesOf, o, start, spacing)
  }

  /** Exterior and interior receptacle counts of each run. */
  function SideCounts(groups: seq<seq<Wall>>, edgesOf: Wall -> seq<Candidate>,
                      start: real, spacing: real): (r: seq<(nat, nat)>)
    requires forall gi :: 0 <= gi < |groups| ==> |groups[gi]| > 0
    ensures |r| == |groups|
    ensures forall gi :: 0 <= gi < |groups| ==>
              r[gi] == (|SidePlacements(groups[gi], Exterior, edgesOf, start, spacing)|,
                        |SidePlacements(groups[gi], Interior, edgesOf, start, spacing)|)
  {
    seq(|groups|, gi requires 0 <= gi < |groups| =>
          (|SidePlacements(groups[gi], Exterior, edgesOf, start, spacing)|,
           |SidePlacements(groups[gi], Interior, edgesOf, start, spacing)|))
  }

  /** Tally t is one of run gi's two counts. */
  predicate CountOf(counts: seq<(nat, nat)>, gi: nat, t: Tally)
    requires gi < |counts|
  {
    t == Tally(Exterior, counts[gi].0) || t == Tally(Interior, counts[gi].1)
  }

  /** The result lines of one run: an exterior then an interior tally,
      each only when that side got at least one receptacle. */
  function Lines(x: (nat, nat)): (r: seq<Tally>)
    ensures |r| == (if x.0 > 0 then 1 else 0) + (if x.1 > 0 then 1 else 0)
    ensures x.0 > 0 ==> r[0] == Tally(Exterior, x.0)
    ensures x.1 > 0 ==> r[|r| - 1] == Tally(Interior, x.1)
  {
    (if x.0 > 0 then [Tally(Exterior, x.0)] else []) + (if x.1 > 0 then [Tally(Interior, x.1)] else [])
  }

  /** The main loop's result lines from the per-run counts: for each run an
      exterior then an interior tally, each only when that side got at
      least one receptacle. */
  function Tallies(counts: seq<(nat, nat)>): (r: seq<Tally>)
    ensures |r| <= 2 * |counts|
    ensures forall t :: t in r ==> t.count > 0
    ensures forall t :: t in r ==> exists gi :: 0 <= gi < |counts| && CountOf(counts, gi, t)
    ensures forall gi :: 0 <= gi < |counts| && counts[gi].0 > 0 ==> Tally(Exterior, counts[gi].0) in r
    ensures forall gi :: 0 <= gi < |counts| && counts[gi].1 > 0 ==> Tally(Interior, counts[gi].1) in r
  {
    if |counts| == 0 then []
    else
      var here := Lines(counts[0]);
      var rest := Tallies(counts[1..]);
      assert forall t :: t in here ==> CountOf(counts, 0, t);
      assert forall t :: t in rest ==> exists gi :: 0 <= gi < |counts| && CountOf(counts, gi, t) by {
        forall t | t in rest ensures exists gi :: 0 <= gi < |counts| && CountOf(counts, gi, t) {
          var gi :| 0 <= gi < |counts| - 1 && CountOf(counts[1..], gi, t);
          assert counts[1..][gi] == counts[gi + 1];
          assert CountOf(counts, gi + 1, t);
        }
      }
      assert forall gi :: 1 <= gi < |counts| ==> counts[gi] == counts[1..][gi - 1];
      here + rest
  }

  /** The lines of the runs, run after run, in run order. */
  lemma {:induction false} TalliesAppend(a: seq<(nat, nat)>, b: seq<(nat, nat)>)
    ensures Tallies(a + b) == Tallies(a) + Tallies(b)
  {
    if |a| == 0 {
      assert a + b == b;
    } else {
      ConsAppend(a, b);
      TalliesAppend(a[1..], b);
      ConcatAssoc(Lines(a[0]), Tallies(a[1..]), Tallies(b));
    }
  }

  /** One more run adds its own lines after those of the runs before it. */
  lemma TalliesSnoc(counts: seq<(nat, nat)>, x: (nat, nat))
    ensures Tallies(counts + [x]) == Tallies(counts) + Lines(x)
  {
    TalliesAppend(counts, [x]);
    assert [x][1..] == [];
  }

  /** `results` of the script for the runs `group_walls` returns, with the
      start offset and spacing inputs defaulted to 6 and 12 feet. */
  function Report(groups: seq<seq<Wall>>, edgesOf: Wall -> seq<Candidate>,
                  startInput: Option<real>, spacingInput: Option<real>): seq<Tally>
    requires forall gi :: 0 <= gi < |groups| ==> |groups[gi]| > 0
  {
    Tallies(SideCounts(groups, edgesOf, Setting(startInput, DefaultStartOffset),
                       Setting(spacingInput, DefaultSpacing)))
  }

  /** The spacing the main loop passes on is never zero, so within
      `Report` the division in `place_on_group` never raises. */
  lemma ReportSpacingIsNonZero(spacingInput: Option<real>)
    ensures Setting(spacingInput, DefaultSpacing) != 0.0
  {
  }
}

=== FILE: seqs.dfy ===
/** Small facts about sequence slicing and concatenation, stated once so
    that the proofs using them stay small. */
module Seqs {

  lemma Uncons<T>(s: seq<T>)
    requires |s| > 0
    ensures s == [s[0]] + s[1..]
  {
  }

  lemma SplitLast<T>(s: seq<T>)
    requires |s| > 0
    ensures s == s[..|s| - 1] + [s[|s| - 1]]
  {
  }

  lemma SplitAt<T>(s: seq<T>, k: nat)
    requires k <= |s|
    ensures s[..k] + s[k..] == s
  {
  }

  lemma PrefixSnoc<T>(s: seq<T>, x: T, n: nat)
    requires n <= |s|
    ensures (s + [x])[..n] == s[..n]
  {
  }

  lemma ConcatAssoc<T>(a: seq<T>, b: seq<T>, c: seq<T>)
    ensures (a + b) + c == a + (b + c)
  {
  }

  lemma ConsAppend<T>(a: seq<T>, b: seq<T>)
    requires |a| > 0
    ensures (a + b)[0] == a[0] && (a + b)[1..] == a[1..] + b
  {
  }

  lemma SnocAppend<T>(a: seq<T>, b: seq<T>)
    requires |b| > 0
    ensures (a + b)[..|a + b| - 1] == a + b[..|b| - 1] && (a + b)[|a + b| - 1] == b[|b| - 1]
  {
  }
}

=== FILE: sorting.dfy ===
/** Python's `sorted(xs, key=...)`: a stable sort by a key under a strict
    total order on keys, written as an insertion sort. */
module Sorting {

  /** `less` is a strict total order: irreflexive, transitive and connected. */
  ghost predicate StrictTotalOrder<K(!new)>(less: (K, K) -> bool)
  {
    && Irreflexive(less)
    && (forall a, b, c :: less(a, b) && less(b, c) ==> less(a, c))
    && (forall a, b :: a != b ==> less(a, b) || less(b, a))
  }

  ghost predicate Irreflexive<K(!new)>(less: (K, K) -> bool)
  {
    forall a :: !less(a, a)
  }

  /** No later element has a key below an earlier one. */
  ghost predicate SortedByKey<T, K>(s: seq<T>, key: T -> K, less: (K, K) -> bool)
  {
    forall i, j :: 0 <= i < j < |s| ==> !less(key(s[j]), key(s[i]))
  }

  /** The elements of `s` whose key is `k`, in their order in `s`. */
  function FilterKey<T, K(==)>(s: seq<T>, key: T -> K, k: K): seq<T>
  {
    if |s| == 0 then []
    else (if key(s[0]) == k then [s[0]] else []) + FilterKey(s[1..], key, k)
  }

  lemma {:induction false} FilterKeyAppend<T, K>(a: seq<T>, b: seq<T>, key: T -> K, k: K)
    ensures FilterKey(a + b, key, k) == FilterKey(a, key, k) + FilterKey(b, key, k)
  {
    if |a| > 0 {
      assert (a + b)[1..] == a[1..] + b;
      FilterKeyAppend(a[1..], b, key, k);
    } else {
      assert a + b == b;
    }
  }

  /** Inserts `x` before the first element whose key is not below `key(x)`,
      hence before every element with an equal key. */
  function Insert<T, K(==,!new)>(x: T, s: seq<T>, key: T -> K, less: (K, K) -> bool): (r: seq<T>)
    requires Irreflexive(less)
    ensures multiset(r) == multiset(s) + multiset{x}
    ensures forall k :: FilterKey(r, key, k) == FilterKey([x] + s, key, k)
  {
    if |s| == 0 then [x]
    else if less(key(s[0]), key(x)) then
      var rest := Insert(x, s[1..], key, less);
      assert s == [s[0]] + s[1..];
      assert key(s[0]) != key(x);
      forall k ensures FilterKey([s[0]] + rest, key, k) == FilterKey([x] + s, key, k) {
        InsertKeepsFilter(x, s, rest, key, k);
      }
      [s[0]] + rest
    else
      [x] + s
  }

  /** Inserting into a sorted sequence keeps it sorted. */
  lemma {:induction false} InsertKeepsSorted<T, K(!new)>(x: T, s: seq<T>, key: T -> K, less: (K, K) -> bool)
    requires StrictTotalOrder(less) && SortedByKey(s, key, less)
    ensures SortedByKey(Insert(x, s, key, less), key, less)
  {
    if |s| > 0 {
      if less(key(s[0]), key(x)) {
        assert SortedByKey(s[1..], key, less);
        InsertKeepsSorted(x, s[1..], key, less);
        InsertKeepsOrder(x, s, Insert(x, s[1..], key, less), key, less);
      } else {
        InsertFrontKeepsOrder(x, s, key, less);
      }
    }
  }

  lemma InsertFrontKeepsOrder<T, K(!new)>(x: T, s: seq<T>, key: T -> K, less: (K, K) -> bool)
    requires StrictTotalOrder(less)
    requires |s| > 0 && !less(key(s[0]), key(x))
    ensures SortedByKey(s, key, less) ==> SortedByKey([x] + s, key, less)
  {
    if SortedByKey(s, key, less) {
      var r := [x] + s;
      forall i, j | 0 <= i < j < |r|
        ensures !less(key(r[j]), key(r[i]))
      {
        if i == 0 && j > 1 {
          // r[j] == s[j-1] is not below s[0], and s[0] is not below x.
          assert !less(key(s[j - 1]), key(s[0]));
          if key(s[0]) != key(x) {
            assert less(key(x), key(s[0]));
          }
        }
      }
    }
  }

  lemma InsertKeepsOrder<T, K(!new)>(x: T, s: seq<T>, rest: seq<T>, key: T -> K, less: (K, K) -> bool)
    requires StrictTotalOrder(less)
    requires |s| > 0 && less(key(s[0]), key(x))
    requires multiset(rest) == multiset(s[1..]) + multiset{x}
    requires SortedByKey(s[1..], key, less) ==> SortedByKey(rest, key, less)
    ensures SortedByKey(s, key, less) ==> SortedByKey([s[0]] + rest, key, less)
  {
    if SortedByKey(s, key, less) {
      assert SortedByKey(s[1..], key, less);
      var r := [s[0]] + rest;
      forall i, j | 0 <= i < j < |r|
        ensures !less(key(r[j]), key(r[i]))
      {
        if i == 0 {
          var e := r[j];
          assert e in multiset(rest);
          if e != x {
            assert e in multiset(s[1..]);
            var m :| 0 <= m < |s[1..]| && s[1..][m] == e;
            assert s[m + 1] == e;
          }
        } else {
          assert r[i] == rest[i - 1] && r[j] == rest[j - 1];
        }
      }
    }
  }

  /** Moving x past an element with a different key leaves every key's
      subsequence unchanged. */
  lemma InsertKeepsFilter<T, K>(x: T, s: seq<T>, rest: seq<T>, key: T -> K, k: K)
    requires |s| > 0 && key(s[0]) != key(x)
    requires FilterKey(rest, key, k) == FilterKey([x] + s[1..], key, k)
    ensures FilterKey([s[0]] + rest, key, k) == FilterKey([x] + s, key, k)
  {
    assert ([s[0]] + rest)[1..] == rest;
    assert ([x] + s[1..])[1..] == s[1..];
    assert ([x] + s)[1..] == s;
  }

  /** `sorted(xs, key=key)`: sorted by key, a permutation of `xs`, and
      stable -- the elements sharing a key keep their input order. */
  function SortByKey<T, K(==,!new)>(xs: seq<T>, key: T -> K, less: (K, K) -> bool): (r: seq<T>)
    requires StrictTotalOrder(less)
    ensures SortedByKey(r, key, less)
    ensures multiset(r) == multiset(xs)
    ensures forall k :: FilterKey(r, key, k) == FilterKey(xs, key, k)
  {
    if |xs| == 0 then []
    else
      var tail := SortByKey(xs[1..], key, less);
      var r := Insert(xs[0], tail, key, less);
      InsertKeepsSorted(xs[0], tail, key, less);
      assert xs == [xs[0]] + xs[1..];
      assert forall k :: FilterKey(r, key, k) == FilterKey(xs, key, k) by {
        forall k
          ensures FilterKey(r, key, k) == FilterKey(xs, key, k)
        {
          FilterKeyAppend([xs[0]], tail, key, k);
          FilterKeyAppend([xs[0]], xs[1..], key, k);
        }
      }
      r
  }

  /** The length is preserved. */
  lemma SortKeepsLength<T, K(!new)>(xs: seq<T>, key: T -> K, less: (K, K) -> bool)
    requires StrictTotalOrder(less)
    ensures |SortByKey(xs, key, less)| == |xs|
  {
    var r := SortByKey(xs, key, less);
    assert |multiset(r)| == |multiset(xs)|;
  }
}

=== FILE: text.dfy ===
/** String helpers shared by the report builders: Python's code-point string
    order, `str.ljust`, `str.join`, ASCII lower-casing, substring search, and
    the integer literals that Python's `int()` accepts and `str()` prints. */
module Text {

  import opened Wrappers

  /* ---------------------------------------------------------------------- */
  /* Python's `<` on str: lexicographic by code point.                       */
  /* ---------------------------------------------------------------------- */

  predicate StrLess(a: string, b: string)
  {
    if |a| == 0 then |b| > 0
    else if |b| == 0 then false
    else a[0] < b[0] || (a[0] == b[0] && StrLess(a[1..], b[1..]))
  }

  lemma {:induction false} StrLessIrreflexive(a: string)
    ensures !StrLess(a, a)
  {
    if |a| > 0 {
      StrLessIrreflexive(a[1..]);
    }
  }

  lemma {:induction false} StrLessTransitive(a: string, b: string, c: string)
    requires StrLess(a, b) && StrLess(b, c)
    ensures StrLess(a, c)
  {
    if |a| > 0 && |b| > 0 && |c| > 0 && a[0] == b[0] && b[0] == c[0] {
      StrLessTransitive(a[1..], b[1..], c[1..]);
    }
  }

  lemma {:induction false} StrLessTotal(a: string, b: string)
    requires a != b
    ensures StrLess(a, b) || StrLess(b, a)
  {
    if |a| > 0 && |b| > 0 && a[0] == b[0] {
      assert a == [a[0]] + a[1..] && b == [b[0]] + b[1..];
      StrLessTotal(a[1..], b[1..]);
    }
  }

  /** The empty string is below every other string. */
  lemma EmptyIsLeast(b: string)
    requires b != ""
    ensures StrLess("", b)
  {
  }

  /* ---------------------------------------------------------------------- */
  /* Padding and joining.                                                    */
  /* ---------------------------------------------------------------------- */

  function Spaces(n: nat): (r: string)
    ensures |r| == n
    ensures forall i :: 0 <= i < n ==> r[i] == ' '
  {
    if n == 0 then "" else Spaces(n - 1) + " "
  }

  /** Python `s.ljust(width)`: pads with spaces on the right, never truncates. */
  function Ljust(s: string, width: int): (r: string)
    ensures |r| == if |s| >= width then |s| else width
    ensures r[..|s|] == s
    ensures forall i :: |s| <= i < |r| ==> r[i] == ' '
  {
    if |s| >= width then s else s + Spaces(width - |s|)
  }

  /** Python `sep.join(parts)`. */
  function Join(parts: seq<string>, sep: string): string
  {
    if |parts| == 0 then ""
    else if |parts| == 1 then parts[0]
    else parts[0] + sep + Join(parts[1..], sep)
  }

  function TotalLength(parts: seq<string>): nat
  {
    if |parts| == 0 then 0 else |parts[0]| + TotalLength(parts[1..])
  }

  /** A join of n >= 1 parts is as long as the parts plus n - 1 separators. */
  lemma {:induction false} JoinLength(parts: seq<string>, sep: string)
    requires |parts| >= 1
    ensures |Join(parts, sep)| == TotalLength(parts) + (|parts| - 1) * |sep|
  {
    if |parts| > 1 {
      JoinLength(parts[1..], sep);
    }
  }

  /* ---------------------------------------------------------------------- */
  /* Case and substrings.                                                    */
  /* ---------------------------------------------------------------------- */

  function LowerChar(c: char): char
  {
    if 'A' <= c <= 'Z' then (c as int + 32) as char else c
  }

  /** Python `s.lower()` restricted to the ASCII letters. */
  function LowerAscii(s: string): (r: string)
    ensures |r| == |s|
    ensures forall i :: 0 <= i < |s| ==> r[i] == LowerChar(s[i])
  {
    if |s| == 0 then "" else LowerAscii(s[..|s| - 1]) + [LowerChar(s[|s| - 1])]
  }

  predicate IsPrefix(p: string, s: string)
  {
    |p| <= |s| && s[..|p|] == p
  }

  /** Python `sub in s`. */
  predicate Contains(s: string, sub: string)
    decreases |s|
  {
    IsPrefix(sub, s) || (|s| > 0 && Contains(s[1..], sub))
  }

  /** `sub` occurs in `s` starting at position `i`. */
  predicate OccursAt(s: string, sub: string, i: int)
  {
    0 <= i && i + |sub| <= |s| && s[i..i + |sub|] == sub
  }

  /** `Contains` holds exactly when `sub` occurs at some position of `s`. */
  lemma {:induction false} ContainsIffOccurs(s: string, sub: string)
    ensures Contains(s, sub) <==> exists i :: OccursAt(s, sub, i)
    decreases |s|
  {
    if IsPrefix(sub, s) {
      assert OccursAt(s, sub, 0);
    }
    if |s| > 0 {
      ContainsIffOccurs(s[1..], sub);
      if Contains(s[1..], sub) {
        var i :| OccursAt(s[1..], sub, i);
        assert s[i + 1..i + 1 + |sub|] == s[1..][i..i + |sub|];
        assert OccursAt(s, sub, i + 1);
      }
      if exists i :: OccursAt(s, sub, i) {
        var i :| OccursAt(s, sub, i);
        if i > 0 {
          assert s[1..][i - 1..i - 1 + |sub|] == s[i..i + |sub|];
          assert OccursAt(s[1..], sub, i - 1);
        }
      }
    } else {
      if exists i :: OccursAt(s, sub, i) {
        var i :| OccursAt(s, sub, i);
        assert IsPrefix(sub, s);
      }
    }
  }

  /* ---------------------------------------------------------------------- */
  /* Decimal integers: Python's `int(s)` and `str(n)`.                       */
  /* ---------------------------------------------------------------------- */

  predicate IsDigit(c: char)
  {
    '0' <= c <= '9'
  }

  predicate AllDigits(s: string)
  {
    forall i :: 0 <= i < |s| ==> IsDigit(s[i])
  }

  function DigitValue(c: char): nat
    requires IsDigit(c)
  {
    c as int - '0' as int
  }

  function DigitChar(d: nat): (c: char)
    requires d < 10
    ensures IsDigit(c) && DigitValue(c) == d
  {
    ('0' as int + d) as char
  }

  /** Value of a string of decimal digits. */
  function DigitsValue(s: string): nat
    requires AllDigits(s)
  {
    if |s| == 0 then 0 else DigitsValue(s[..|s| - 1]) * 10 + DigitValue(s[|s| - 1])
  }

  /** The longest prefix of `s` made of digits (what `re.split(r"\D+", s)[0]`
      yields). */
  function LeadingDigits(s: string): (r: string)
    ensures AllDigits(r) && IsPrefix(r, s)
    ensures |r| == |s| || !IsDigit(s[|r|])
  {
    if |s| == 0 || !IsDigit(s[0]) then ""
    else [s[0]] + LeadingDigits(s[1..])
  }

  /** The strings Python's `int()` parses: an optional sign and digits. */
  predicate IsIntLiteral(s: string)
  {
    || (|s| > 0 && AllDigits(s))
    || (|s| > 1 && (s[0] == '+' || s[0] == '-') && AllDigits(s[1..]))
  }

  function ParseInt(s: string): (r: Option<int>)
    ensures r.Some? <==> IsIntLiteral(s)
    ensures |s| > 0 && AllDigits(s) ==> r == Some(DigitsValue(s) as int)
    ensures |s| > 1 && s[0] == '+' && AllDigits(s[1..]) ==> r == Some(DigitsValue(s[1..]) as int)
    ensures |s| > 1 && s[0] == '-' && AllDigits(s[1..]) ==> r == Some(-(DigitsValue(s[1..]) as int))
  {
    if |s| > 0 && AllDigits(s) then Some(DigitsValue(s))
    else if |s| > 1 && s[0] == '+' && AllDigits(s[1..]) then Some(DigitsValue(s[1..]))
    else if |s| > 1 && s[0] == '-' && AllDigits(s[1..]) then Some(-(DigitsValue(s[1..]) as int))
    else None
  }

  /** Decimal digits as `str` writes them: at least one digit, and no
      leading zero unless the number is 0. */
  predicate CanonicalDigits(s: string)
  {
    |s| > 0 && AllDigits(s) && (s[0] == '0' ==> |s| == 1)
  }

  /** An int as `str` writes it: canonical digits, with a '-' only before a
      non-zero magnitude; never a '+'. */
  predicate CanonicalInt(s: string)
  {
    || CanonicalDigits(s)
    || (|s| > 1 && s[0] == '-' && CanonicalDigits(s[1..]) && s[1] != '0')
  }

  function NatToString(n: nat): (r: string)
    ensures CanonicalDigits(r)
    ensures r[0] == '0' <==> n == 0
  {
    if n < 10 then [DigitChar(n)] else NatToString(n / 10) + [DigitChar(n % 10)]
  }

  /** Python `str(n)` for an int. */
  function IntToString(n: int): (r: string)
    ensures CanonicalInt(r)
    ensures r[0] == '-' <==> n < 0
  {
    if n >= 0 then NatToString(n)
    else
      var r := "-" + NatToString(-n);
      assert r[1..] == NatToString(-n);
      r
  }

  /** Digits with a non-zero first digit denote a positive number. */
  lemma {:induction false} LeadingNonZero(s: string)
    requires |s| > 0 && AllDigits(s) && s[0] != '0'
    ensures DigitsValue(s) >= 1
  {
    if |s| > 1 {
      LeadingNonZero(s[..|s| - 1]);
    }
  }

  /** Canonical digits are the rendering of the number they denote. */
  lemma {:induction false} CanonicalDigitsAreStr(s: string)
    requires CanonicalDigits(s)
    ensures s == NatToString(DigitsValue(s))
  {
    var last := s[|s| - 1];
    if |s| == 1 {
      assert DigitsValue(s) == DigitValue(last);
      assert DigitChar(DigitValue(last)) == last;
    } else {
      var front := s[..|s| - 1];
      assert front[0] == s[0];
      LeadingNonZero(front);
      CanonicalDigitsAreStr(front);
      var n := DigitsValue(s);
      assert n == DigitsValue(front) * 10 + DigitValue(last);
      assert n / 10 == DigitsValue(front) && n % 10 == DigitValue(last);
      assert DigitChar(DigitValue(last)) == last;
      assert s == front + [last];
    }
  }

  /** `str(n)` is the only canonical text of n: a canonical integer text is
      the rendering of the value `int()` reads from it. */
  lemma CanonicalIntIsStr(s: string)
    requires CanonicalInt(s)
    ensures ParseInt(s).Some? && s == IntToString(ParseInt(s).value)
  {
    if CanonicalDigits(s) {
      CanonicalDigitsAreStr(s);
    } else {
      var m := s[1..];
      CanonicalDigitsAreStr(m);
      LeadingNonZero(m);
      assert !AllDigits(s) by { assert !IsDigit(s[0]); }
      assert s == "-" + m;
    }
  }

  lemma {:induction false} NatToStringValue(n: nat)
    ensures DigitsValue(NatToString(n)) == n
  {
    if n >= 10 {
      NatToStringValue(n / 10);
      var s := NatToString(n);
      assert s[..|s| - 1] == NatToString(n / 10);
    }
  }

  /** `int(str(n)) == n`. */
  lemma IntToStringRoundTrip(n: int)
    ensures ParseInt(IntToString(n)) == Some(n)
  {
    if n >= 0 {
      NatToStringValue(n);
    } else {
      NatToStringValue(-n);
      var s := IntToString(n);
      assert s[1..] == NatToString(-n);
      assert !AllDigits(s) by { assert !IsDigit(s[0]); }
    }
  }
}

=== FILE: wall_grouping.dfy ===
/** Receptacle placement, part 1: deciding which wall segments are joined end
    to end, and grouping the selected walls into runs (connected components
    of that relation), seeded in input order. */
module WallGrouping {

  import opened Wrappers
  import opened Seqs
  import opened Geometry

  /** A wall's location line: its two end points and its normalised
      direction, as the host computes them. */
  datatype LocationLine = LocationLine(p1: Point, p2: Point, dir: Point)

  /** A wall: element Id, location line (None when the wall's location is
      not a curve), and the orientation vector of its exterior face. */
  datatype Wall = Wall(id: int, location: Option<LocationLine>, orientation: Point)

  /** End points closer than this are joined (feet). */
  const JoinTolerance: real := 0.5

  /** cos(10 degrees), to 15 decimals: two unit directions are less than 10
      degrees apart exactly when their dot product exceeds cos(10 degrees). */
  const CosAngleTolerance: real := 0.984807753012208

  predicate EndsTouch(a: LocationLine, b: LocationLine)
  {
    || TooClose(a.p1, b.p1, JoinTolerance)
    || TooClose(a.p1, b.p2, JoinTolerance)
    || TooClose(a.p2, b.p1, JoinTolerance)
    || TooClose(a.p2, b.p2, JoinTolerance)
  }

  predicate Aligned(a: LocationLine, b: LocationLine)
  {
    Dot(a.dir, b.dir) > CosAngleTolerance
  }

  /** Two walls are joined when both have a location line, some pair of
      their end points is closer than the tolerance, and their directions
      are less than 10 degrees apart. */
  predicate AreWallsConnected(w1: Wall, w2: Wall)
  {
    && w1.location.Some?
    && w2.location.Some?
    && EndsTouch(w1.location.value, w2.location.value)
    && Aligned(w1.location.value, w2.location.value)
  }

  /** Two walls are joined exactly when both have a location line, some end
      point of one is closer than the tolerance to some end point of the
      other, and their directions are less than 10 degrees apart. */
  lemma ConnectedIffEndsMeet(w1: Wall, w2: Wall)
    ensures AreWallsConnected(w1, w2) <==>
              && w1.location.Some? && w2.location.Some?
              && (exists p, q :: p in [w1.location.value.p1, w1.location.value.p2]
                                 && q in [w2.location.value.p1, w2.location.value.p2]
                                 && TooClose(p, q, JoinTolerance))
              && Dot(w1.location.value.dir, w2.location.value.dir) > CosAngleTolerance
  {
  }

  lemma ConnectedSymmetric(a: Wall, b: Wall)
    ensures AreWallsConnected(a, b) == AreWallsConnected(b, a)
  {
    if a.location.Some? && b.location.Some? {
      var la, lb := a.location.value, b.location.value;
      TooCloseSymmetric(la.p1, lb.p2, JoinTolerance);
      TooCloseSymmetric(la.p2, lb.p1, JoinTolerance);
      TooCloseSymmetric(la.p1, lb.p1, JoinTolerance);
      TooCloseSymmetric(la.p2, lb.p2, JoinTolerance);
    }
  }

  /** A wall without a location line is joined to nothing; walls running in
      opposite directions (180 degrees apart) are never joined, however
      close their end points are. */
  lemma ConnectionNeedsAlignedLines(a: Wall, b: Wall)
    ensures a.location.None? || b.location.None? ==> !AreWallsConnected(a, b)
    ensures a.location.Some? && b.location.Some?
            && Dot(a.location.value.dir, a.location.value.dir) == 1.0
            && b.location.value.dir == Negate(a.location.value.dir)
            ==> !AreWallsConnected(a, b)
  {
    if a.location.Some? && b.location.Some? {
      DotNegate(a.location.value.dir, a.location.value.dir);
    }
  }

  /* ---------------------------------------------------------------------- */
  /* Grouping.                                                               */
  /* ---------------------------------------------------------------------- */

  ghost function IdSet(ws: seq<Wall>): set<int>
  {
    set i | 0 <= i < |ws| :: ws[i].id
  }

  ghost predicate DistinctIds(ws: seq<Wall>)
  {
    forall i, j :: 0 <= i < j < |ws| ==> ws[i].id != ws[j].id
  }

  /** The groups one after the other. */
  function Flatten(gs: seq<seq<Wall>>): seq<Wall>
  {
    if |gs| == 0 then [] else Flatten(gs[..|gs| - 1]) + gs[|gs| - 1]
  }

  /** Every wall after the first is joined to some wall before it. */
  ghost predicate Linked(g: seq<Wall>)
  {
    forall k :: 0 < k < |g| ==> exists j :: 0 <= j < k && AreWallsConnected(g[j], g[k])
  }

  /** Every wall of `walls` joined to `m` has an Id in `seen`. */
  ghost predicate Scanned(m: Wall, walls: seq<Wall>, seen: set<int>)
  {
    forall w :: w in walls && AreWallsConnected(m, w) ==> w.id in seen
  }

  /** Index of the first wall whose Id is not in `seen`. */
  function FirstFresh(walls: seq<Wall>, seen: set<int>): (r: Option<nat>)
    ensures r.Some? ==> r.value < |walls| && walls[r.value].id !in seen
                        && forall k :: 0 <= k < r.value ==> walls[k].id in seen
    ensures r.None? ==> forall k :: 0 <= k < |walls| ==> walls[k].id in seen
  {
    if |walls| == 0 then None
    else if walls[0].id !in seen then Some(0)
    else match FirstFresh(walls[1..], seen)
      case None => None
      case Some(i) => Some(i + 1)
  }

  lemma IdSetAppend(g: seq<Wall>, o: Wall)
    ensures IdSet(g + [o]) == IdSet(g) + {o.id}
  {
    var h := g + [o];
    forall id | id in IdSet(h) ensures id in IdSet(g) + {o.id} {
      var i :| 0 <= i < |h| && h[i].id == id;
      if i < |g| { assert g[i] == h[i]; }
    }
    forall id | id in IdSet(g) + {o.id} ensures id in IdSet(h) {
      if id == o.id {
        assert h[|g|].id == id;
      } else {
        var i :| 0 <= i < |g| && g[i].id == id;
        assert h[i].id == id;
      }
    }
  }

  lemma IdSetConcat(a: seq<Wall>, b: seq<Wall>)
    ensures IdSet(a + b) == IdSet(a) + IdSet(b)
  {
    var h := a + b;
    forall id | id in IdSet(h) ensures id in IdSet(a) + IdSet(b) {
      var i :| 0 <= i < |h| && h[i].id == id;
      if i < |a| { assert a[i] == h[i]; } else { assert b[i - |a|] == h[i]; }
    }
    forall id | id in IdSet(a) + IdSet(b) ensures id in IdSet(h) {
      if id in IdSet(a) {
        var i :| 0 <= i < |a| && a[i].id == id;
        assert h[i].id == id;
      } else {
        var i :| 0 <= i < |b| && b[i].id == id;
        assert h[|a| + i].id == id;
      }
    }
  }

  lemma InIdSet(ws: seq<Wall>, w: Wall)
    requires w in ws
    ensures w.id in IdSet(ws)
  {
    var i :| 0 <= i < |ws| && ws[i] == w;
    assert ws[i].id == w.id;
  }

  lemma DistinctConcat(a: seq<Wall>, b: seq<Wall>)
    requires DistinctIds(a) && DistinctIds(b) && IdSet(a) !! IdSet(b)
    ensures DistinctIds(a + b)
  {
    var h := a + b;
    forall i, j | 0 <= i < j < |h| ensures h[i].id != h[j].id {
      if j < |a| {
        assert h[i] == a[i] && h[j] == a[j];
      } else if i >= |a| {
        assert h[i] == b[i - |a|] && h[j] == b[j - |a|];
      } else {
        assert h[i] == a[i] && h[j] == b[j - |a|];
        InIdSet(a, a[i]);
        InIdSet(b, b[j - |a|]);
      }
    }
  }

  lemma FlattenSnoc(gs: seq<seq<Wall>>, g: seq<Wall>)
    ensures Flatten(gs + [g]) == Flatten(gs) + g
  {
    assert (gs + [g])[..|gs|] == gs;
  }

  lemma FlattenMember(gs: seq<seq<Wall>>, gi: nat, w: Wall)
    requires gi < |gs| && w in gs[gi]
    ensures w in Flatten(gs)
  {
    if gi < |gs| - 1 {
      FlattenMember(gs[..|gs| - 1], gi, w);
    }
  }

  lemma CardinalityDrops(u: set<int>, a: set<int>, b: set<int>)
    requires a < b <= u
    ensures |u - b| < |u - a|
  {
    assert u - a == (u - b) + (b - a);
    assert (u - b) * (b - a) == {};
    assert b - a != {};
  }

  /** The shape a group keeps while it grows: its Ids are new, distinct and
      recorded in `visited`, its walls come from the input, and each wall
      after the first is joined to an earlier one. */
  ghost predicate GroupShape(walls: seq<Wall>, before: set<int>, group: seq<Wall>, visited: set<int>)
  {
    && visited == before + IdSet(group) && before !! IdSet(group)
    && visited <= IdSet(walls)
    && |group| > 0
    && (forall w :: w in group ==> w in walls)
    && DistinctIds(group)
    && Linked(group)
  }

  lemma ShapeSnoc(walls: seq<Wall>, before: set<int>, group: seq<Wall>, visited: set<int>,
                  current: Wall, other: Wall)
    requires GroupShape(walls, before, group, visited)
    requires current in group && other in walls && other.id !in visited
    requires AreWallsConnected(current, other)
    ensures GroupShape(walls, before, group + [other], visited + {other.id})
  {
    var g := group + [other];
    IdSetAppend(group, other);
    InIdSet(walls, other);
    forall i, j | 0 <= i < j < |g| ensures g[i].id != g[j].id {
      if j == |group| {
        InIdSet(group, group[i]);
      } else {
        assert g[i] == group[i] && g[j] == group[j];
      }
    }
    var ci :| 0 <= ci < |group| && group[ci] == current;
    forall k | 0 < k < |g| ensures exists j :: 0 <= j < k && AreWallsConnected(g[j], g[k]) {
      if k == |group| {
        assert AreWallsConnected(g[ci], g[k]);
      } else {
        var j :| 0 <= j < k && AreWallsConnected(group[j], group[k]);
        assert AreWallsConnected(g[j], g[k]);
      }
    }
  }

  /** Scans all walls against `current` (the source's inner `for other in
      walls`), absorbing every not-yet-visited wall joined to it. */
  /** The loop state of `Absorb` after scanning the first j walls. */
  ghost predicate Absorbing(walls: seq<Wall>, before: set<int>, current: Wall,
                            group0: seq<Wall>, stack0: seq<Wall>, visited0: set<int>,
                            group: seq<Wall>, stack: seq<Wall>, visited: set<int>, j: int)
    requires 0 <= j <= |walls|
  {
    && GroupShape(walls, before, group, visited)
    && |group| >= |group0| && group[..|group0|] == group0
    && current in group
    && (forall w :: w in stack ==> w in group)
    && (forall w :: w in group && w !in group0 ==> w in stack)
    && |stack| >= |stack0| && stack[..|stack0|] == stack0
    && (forall k :: 0 <= k < j && AreWallsConnected(current, walls[k]) ==> walls[k].id in visited)
    && ((visited == visited0 && stack == stack0) || visited0 < visited)
  }

  lemma AbsorbTake(walls: seq<Wall>, before: set<int>, current: Wall,
                   group0: seq<Wall>, stack0: seq<Wall>, visited0: set<int>,
                   group: seq<Wall>, stack: seq<Wall>, visited: set<int>, j: int)
    requires 0 <= j < |walls|
    requires Absorbing(walls, before, current, group0, stack0, visited0, group, stack, visited, j)
    requires walls[j].id !in visited && AreWallsConnected(current, walls[j])
    ensures Absorbing(walls, before, current, group0, stack0, visited0,
                      group + [walls[j]], stack + [walls[j]], visited + {walls[j].id}, j + 1)
  {
    var other := walls[j];
    ShapeSnoc(walls, before, group, visited, current, other);
    PrefixSnoc(group, other, |group0|);
    PrefixSnoc(stack, other, |stack0|);
  }

  lemma AbsorbSkip(walls: seq<Wall>, before: set<int>, current: Wall,
                   group0: seq<Wall>, stack0: seq<Wall>, visited0: set<int>,
                   group: seq<Wall>, stack: seq<Wall>, visited: set<int>, j: int)
    requires 0 <= j < |walls|
    requires Absorbing(walls, before, current, group0, stack0, visited0, group, stack, visited, j)
    requires !(walls[j].id !in visited && AreWallsConnected(current, walls[j]))
    ensures Absorbing(walls, before, current, group0, stack0, visited0, group, stack, visited, j + 1)
  {
  }

  lemma AbsorbDone(walls: seq<Wall>, before: set<int>, current: Wall,
                   group0: seq<Wall>, stack0: seq<Wall>, visited0: set<int>,
                   group: seq<Wall>, stack: seq<Wall>, visited: set<int>)
    requires Absorbing(walls, before, current, group0, stack0, visited0, group, stack, visited, |walls|)
    ensures Scanned(current, walls, visited)
  {
    forall w | w in walls && AreWallsConnected(current, w) ensures w.id in visited {
      var k :| 0 <= k < |walls| && walls[k] == w;
    }
  }

  method Absorb(walls: seq<Wall>, current: Wall, group0: seq<Wall>, stack0: seq<Wall>,
                visited0: set<int>, ghost before: set<int>)
    returns (group: seq<Wall>, stack: seq<Wall>, visited: set<int>)
    requires GroupShape(walls, before, group0, visited0)
    requires current in group0
    requires forall w :: w in stack0 ==> w in group0
    ensures GroupShape(walls, before, group, visited)
    ensures |group| >= |group0| && group[..|group0|] == group0
    ensures forall w :: w in stack ==> w in group
    ensures forall w :: w in group && w !in group0 ==> w in stack
    ensures |stack| >= |stack0| && stack[..|stack0|] == stack0
    ensures Scanned(current, walls, visited)
    ensures (visited == visited0 && stack == stack0) || visited0 < visited
  {
    group, stack, visited := group0, stack0, visited0;
    assert group[..|group0|] == group0;
    assert stack[..|stack0|] == stack0;
    for j := 0 to |walls|
      invariant Absorbing(walls, before, current, group0, stack0, visited0, group, stack, visited, j)
    {
      var other := walls[j];
      if other.id !in visited && AreWallsConnected(current, other) {
        AbsorbTake(walls, before, current, group0, stack0, visited0, group, stack, visited, j);
        group := group + [other];
        stack := stack + [other];
        visited := visited + {other.id};
      } else {
        AbsorbSkip(walls, before, current, group0, stack0, visited0, group, stack, visited, j);
      }
    }
    AbsorbDone(walls, before, current, group0, stack0, visited0, group, stack, visited);
  }

  /** Builds the group seeded by `walls[seed]` (the source's `while to_check`
      loop, popping from the end of the work list). */
  method GrowGroup(walls: seq<Wall>, seed: nat, before: set<int>)
    returns (group: seq<Wall>, visited: set<int>)
    requires seed < |walls| && walls[seed].id !in before
    requires before <= IdSet(walls)
    ensures GroupShape(walls, before, group, visited)
    ensures group[0] == walls[seed]
    ensures forall m :: m in group ==> Scanned(m, walls, visited)
  {
    group := [walls[seed]];
    InIdSet(walls, walls[seed]);
    assert IdSet(group) == {walls[seed].id} by {
      assert group[0].id == walls[seed].id;
    }
    visited := before + {walls[seed].id};
    var stack := [walls[seed]];
    while |stack| > 0
      invariant GroupShape(walls, before, group, visited)
      invariant group[0] == walls[seed]
      invariant forall w :: w in stack ==> w in group
      invariant forall m :: m in group && m !in stack ==> Scanned(m, walls, visited)
      decreases |IdSet(walls) - visited|, |stack|
    {
      var current := stack[|stack| - 1];
      var rest := stack[..|stack| - 1];
      ghost var visitedBefore, groupBefore, stackBefore := visited, group, stack;
      SplitLast(stack);
      group, stack, visited := Absorb(walls, current, group, rest, visited, before);
      assert group[0] == groupBefore[0];
      ScannedAfterAbsorb(walls, groupBefore, stackBefore, visitedBefore, current, rest,
                         group, stack, visited);
      if visitedBefore < visited {
        CardinalityDrops(IdSet(walls), visitedBefore, visited);
      }
    }
  }

  lemma ScannedAfterAbsorb(walls: seq<Wall>, groupB: seq<Wall>, stackB: seq<Wall>, visitedB: set<int>,
                           current: Wall, rest: seq<Wall>,
                           group: seq<Wall>, stack: seq<Wall>, visited: set<int>)
    requires stackB == rest + [current]
    requires forall m :: m in groupB && m !in stackB ==> Scanned(m, walls, visitedB)
    requires |group| >= |groupB| && group[..|groupB|] == groupB
    requires forall w :: w in group && w !in groupB ==> w in stack
    requires |stack| >= |rest| && stack[..|rest|] == rest
    requires visitedB <= visited
    requires Scanned(current, walls, visited)
    ensures forall m :: m in group && m !in stack ==> Scanned(m, walls, visited)
  {
    forall m | m in group && m !in stack ensures Scanned(m, walls, visited) {
      if m != current {
        assert m in groupB;
        assert m !in stackB;
      }
    }
  }

  /* Properties of a finished grouping. */

  ghost predicate MembersFromInput(groups: seq<seq<Wall>>, walls: seq<Wall>)
  {
    forall gi, w :: 0 <= gi < |groups| && w in groups[gi] ==> |groups[gi]| > 0 && w in walls
  }

  ghost predicate AllLinked(groups: seq<seq<Wall>>)
  {
    forall gi :: 0 <= gi < |groups| ==> |groups[gi]| > 0 && Linked(groups[gi])
  }

  /** Every wall joined to a member of group gi has its Id in group gi or in
      an earlier group. */
  ghost predicate ClosedSoFar(groups: seq<seq<Wall>>, walls: seq<Wall>)
  {
    forall gi, m, w ::
      (0 <= gi < |groups| && m in groups[gi] && w in walls && AreWallsConnected(m, w))
      ==> w.id in IdSet(Flatten(groups[..gi + 1]))
  }

  /** Group gi starts with the first input wall whose Id no earlier group
      holds. */
  ghost predicate SeededAt(groups: seq<seq<Wall>>, walls: seq<Wall>, gi: int)
    requires 0 <= gi < |groups|
  {
    var s := FirstFresh(walls, IdSet(Flatten(groups[..gi])));
    s.Some? && |groups[gi]| > 0 && walls[s.value] == groups[gi][0]
  }

  ghost predicate SeededInOrder(groups: seq<seq<Wall>>, walls: seq<Wall>)
  {
    forall gi :: 0 <= gi < |groups| ==> SeededAt(groups, walls, gi)
  }

  lemma FirstFreshIs(walls: seq<Wall>, seen: set<int>, i: nat)
    requires i < |walls| && walls[i].id !in seen
    requires forall k :: 0 <= k < i ==> walls[k].id in seen
    ensures FirstFresh(walls, seen) == Some(i)
  {
  }

  lemma SnocPrefixes(groups: seq<seq<Wall>>, group: seq<Wall>, gi: nat)
    requires gi < |groups|
    ensures (groups + [group])[..gi] == groups[..gi]
    ensures (groups + [group])[..gi + 1] == groups[..gi + 1]
  {
  }

  lemma ClosedSnoc(groups: seq<seq<Wall>>, walls: seq<Wall>, group: seq<Wall>, visited: set<int>)
    requires ClosedSoFar(groups, walls)
    requires visited == IdSet(Flatten(groups + [group]))
    requires forall m :: m in group ==> Scanned(m, walls, visited)
    ensures ClosedSoFar(groups + [group], walls)
  {
    var gs := groups + [group];
    forall gi, m, w | 0 <= gi < |gs| && m in gs[gi] && w in walls && AreWallsConnected(m, w)
      ensures w.id in IdSet(Flatten(gs[..gi + 1]))
    {
      if gi < |groups| {
        SnocPrefixes(groups, group, gi);
        assert m in groups[gi];
      } else {
        assert gs[..gi + 1] == gs;
      }
    }
  }

  lemma SeededSnoc(groups: seq<seq<Wall>>, walls: seq<Wall>, group: seq<Wall>, i: nat)
    requires SeededInOrder(groups, walls)
    requires FirstFresh(walls, IdSet(Flatten(groups))) == Some(i)
    requires |group| > 0 && i < |walls| && group[0] == walls[i]
    ensures SeededInOrder(groups + [group], walls)
  {
    var gs := groups + [group];
    forall gi | 0 <= gi < |gs| ensures SeededAt(gs, walls, gi) {
      if gi < |groups| {
        SnocPrefixes(groups, group, gi);
        assert SeededAt(groups, walls, gi);
      } else {
        assert gs[..gi] == groups;
      }
    }
  }

  lemma ShapeSnocGroups(groups: seq<seq<Wall>>, walls: seq<Wall>, group: seq<Wall>)
    requires MembersFromInput(groups, walls) && AllLinked(groups)
    requires |group| > 0 && Linked(group) && forall w :: w in group ==> w in walls
    ensures MembersFromInput(groups + [group], walls) && AllLinked(groups + [group])
  {
    var gs := groups + [group];
    forall gi | 0 <= gi < |gs| ensures gs[gi] == if gi < |groups| then groups[gi] else group {
    }
  }

  /** The state of the outer loop of `group_walls` after the walls before
      position i: the groups so far hold exactly the visited Ids, and have
      every property of a finished grouping. */
  ghost predicate Grouped(groups: seq<seq<Wall>>, walls: seq<Wall>, visited: set<int>, i: int)
  {
    && visited == IdSet(Flatten(groups))
    && visited <= IdSet(walls)
    && (forall k :: 0 <= k < i && k < |walls| ==> walls[k].id in visited)
    && MembersFromInput(groups, walls) && AllLinked(groups)
    && DistinctIds(Flatten(groups))
    && ClosedSoFar(groups, walls)
    && SeededInOrder(groups, walls)
  }

  /** A wall already visited leaves the state as it is. */
  lemma SkipVisited(groups: seq<seq<Wall>>, walls: seq<Wall>, visited: set<int>, i: nat)
    requires i < |walls| && Grouped(groups, walls, visited, i) && walls[i].id in visited
    ensures Grouped(groups, walls, visited, i + 1)
  {
  }

  /** Appending the group grown from the first unvisited wall keeps the
      state. */
  lemma AppendGroup(groups: seq<seq<Wall>>, walls: seq<Wall>, visited: set<int>, i: nat,
                    group: seq<Wall>, visited': set<int>)
    requires i < |walls| && Grouped(groups, walls, visited, i) && walls[i].id !in visited
    requires GroupShape(walls, visited, group, visited')
    requires group[0] == walls[i]
    requires forall m :: m in group ==> Scanned(m, walls, visited')
    ensures Grouped(groups + [group], walls, visited', i + 1)
  {
    FirstFreshIs(walls, visited, i);
    FlattenSnoc(groups, group);
    IdSetConcat(Flatten(groups), group);
    DistinctConcat(Flatten(groups), group);
    ClosedSnoc(groups, walls, group, visited');
    SeededSnoc(groups, walls, group, i);
    ShapeSnocGroups(groups, walls, group);
    InIdSet(group, group[0]);
  }

  lemma GroupedAll(groups: seq<seq<Wall>>, walls: seq<Wall>, visited: set<int>)
    requires Grouped(groups, walls, visited, |walls|)
    ensures IdSet(Flatten(groups)) == IdSet(walls)
  {
    forall id | id in IdSet(walls) ensures id in visited {
      var k :| 0 <= k < |walls| && walls[k].id == id;
    }
  }

  /** `group_walls`: seeds a group at each wall whose Id is not yet visited,
      in input order, and grows it by absorbing every unvisited wall joined
      to a member. */
  method GroupWalls(walls: seq<Wall>) returns (groups: seq<seq<Wall>>)
    ensures MembersFromInput(groups, walls) && AllLinked(groups)
    ensures DistinctIds(Flatten(groups))
    ensures IdSet(Flatten(groups)) == IdSet(walls)
    ensures ClosedSoFar(groups, walls)
    ensures SeededInOrder(groups, walls)
  {
    groups := [];
    var visited: set<int> := {};
    for i := 0 to |walls|
      invariant Grouped(groups, walls, visited, i)
    {
      if walls[i].id !in visited {
        var group, visited' := GrowGroup(walls, i, visited);
        AppendGroup(groups, walls, visited, i, group, visited');
        groups := groups + [group];
        visited := visited';
      } else {
        SkipVisited(groups, walls, visited, i);
      }
    }
    GroupedAll(groups, walls, visited);
  }

  /* ---------------------------------------------------------------------- */
  /* Groups are the connected components, emitted in seed order.             */
  /* ---------------------------------------------------------------------- */

  lemma FlattenPrefixSnoc(gs: seq<seq<Wall>>, n: nat)
    requires 0 < n <= |gs|
    ensures Flatten(gs[..n]) == Flatten(gs[..n - 1]) + gs[n - 1]
  {
    assert gs[..n][..n - 1] == gs[..n - 1];
  }

  lemma NoGroupsNoIds(gs: seq<seq<Wall>>)
    ensures IdSet(Flatten(gs[..0])) == {}
  {
    assert gs[..0] == [];
  }

  /** An Id in the first n groups belongs to one of them. */
  lemma {:induction false} GroupOf(gs: seq<seq<Wall>>, n: nat, id: int) returns (g: nat, w: Wall)
    requires n <= |gs| && id in IdSet(Flatten(gs[..n]))
    ensures g < n && w in gs[g] && w.id == id
  {
    NoGroupsNoIds(gs);
    FlattenPrefixSnoc(gs, n);
    IdSetConcat(Flatten(gs[..n - 1]), gs[n - 1]);
    if id in IdSet(gs[n - 1]) {
      var i :| 0 <= i < |gs[n - 1]| && gs[n - 1][i].id == id;
      g, w := n - 1, gs[n - 1][i];
    } else {
      g, w := GroupOf(gs, n - 1, id);
    }
  }

  /** The Ids of group k are among the Ids of any prefix of groups that
      contains it. */
  lemma {:induction false} InFlattenPrefix(gs: seq<seq<Wall>>, n: nat, k: nat)
    requires k < n <= |gs|
    ensures IdSet(gs[k]) <= IdSet(Flatten(gs[..n]))
  {
    FlattenPrefixSnoc(gs, n);
    IdSetConcat(Flatten(gs[..n - 1]), gs[n - 1]);
    if k < n - 1 {
      InFlattenPrefix(gs, n - 1, k);
    }
  }

  lemma DistinctSplit(a: seq<Wall>, b: seq<Wall>)
    requires DistinctIds(a + b)
    ensures IdSet(a) !! IdSet(b)
  {
    forall id | id in IdSet(a) ensures id !in IdSet(b) {
      var i :| 0 <= i < |a| && a[i].id == id;
      assert (a + b)[i] == a[i];
      forall j | 0 <= j < |b| ensures b[j].id != id {
        assert (a + b)[|a| + j] == b[j];
      }
    }
  }

  /** No two groups share an Id. */
  ghost predicate GroupsDisjoint(gs: seq<seq<Wall>>)
  {
    forall a, b, id :: 0 <= a < b < |gs| && id in IdSet(gs[b]) ==> id !in IdSet(gs[a])
  }

  /** With no Id repeated across the groups, no two groups share an Id. */
  lemma {:induction false} GroupIdsDisjoint(gs: seq<seq<Wall>>)
    requires DistinctIds(Flatten(gs))
    ensures GroupsDisjoint(gs)
  {
    if |gs| > 0 {
      var init := gs[..|gs| - 1];
      var last := gs[|gs| - 1];
      assert Flatten(gs) == Flatten(init) + last;
      DistinctSplit(Flatten(init), last);
      assert DistinctIds(Flatten(init)) by {
        var f := Flatten(init) + last;
        forall i, j | 0 <= i < j < |Flatten(init)| ensures Flatten(init)[i].id != Flatten(init)[j].id {
          assert f[i] == Flatten(init)[i] && f[j] == Flatten(init)[j];
        }
      }
      GroupIdsDisjoint(init);
      forall a, b, id | 0 <= a < b < |gs| && id in IdSet(gs[b]) ensures id !in IdSet(gs[a]) {
        if b == |gs| - 1 {
          assert gs[..|gs| - 1] == init;
          InFlattenPrefix(gs, |gs| - 1, a);
        } else {
          assert gs[a] == init[a] && gs[b] == init[b];
        }
      }
    }
  }

  /** Element Ids identify walls: two input entries with one Id are the same
      wall. */
  ghost predicate IdsIdentifyWalls(walls: seq<Wall>)
  {
    forall i, j :: 0 <= i < |walls| && 0 <= j < |walls| && walls[i].id == walls[j].id ==> walls[i] == walls[j]
  }

  /** The groups `GroupWalls` returns are exactly the connected components of
      `AreWallsConnected`: each group is closed (every input wall joined to a
      member is itself a member) and, by `Linked`, connected. */
  lemma GroupsAreComponents(walls: seq<Wall>, groups: seq<seq<Wall>>)
    requires IdsIdentifyWalls(walls)
    requires MembersFromInput(groups, walls)
    requires DistinctIds(Flatten(groups))
    requires ClosedSoFar(groups, walls)
    ensures forall gi, m, w ::
              (0 <= gi < |groups| && m in groups[gi] && w in walls && AreWallsConnected(m, w))
              ==> w in groups[gi]
  {
    GroupIdsDisjoint(groups);
    forall gi, m, w | 0 <= gi < |groups| && m in groups[gi] && w in walls && AreWallsConnected(m, w)
      ensures w in groups[gi]
    {
      MemberClosed(walls, groups, gi, m, w);
    }
  }

  /** One instance of `GroupsAreComponents`: a wall joined to a member of
      group gi was reached while gi grew, so it is in gi itself. */
  lemma MemberClosed(walls: seq<Wall>, groups: seq<seq<Wall>>, gi: nat, m: Wall, w: Wall)
    requires IdsIdentifyWalls(walls)
    requires MembersFromInput(groups, walls)
    requires GroupsDisjoint(groups)
    requires ClosedSoFar(groups, walls)
    requires gi < |groups| && m in groups[gi] && w in walls && AreWallsConnected(m, w)
    ensures w in groups[gi]
  {
    var gj, w' := GroupOf(groups, gi + 1, w.id);
    SameIdSameWall(walls, w, w');
    if gj < gi {
      ConnectedSymmetric(m, w);
      var gk, m' := GroupOf(groups, gj + 1, m.id);
      InIdSet(groups[gk], m');
      InIdSet(groups[gi], m);
      assert false;
    }
  }

  lemma SameIdSameWall(walls: seq<Wall>, a: Wall, b: Wall)
    requires IdsIdentifyWalls(walls)
    requires a in walls && b in walls && a.id == b.id
    ensures a == b
  {
    var i :| 0 <= i < |walls| && walls[i] == a;
    var j :| 0 <= j < |walls| && walls[j] == b;
  }

  /** Groups come out in the input order of their seeds. */
  lemma SeedsAscend(walls: seq<Wall>, groups: seq<seq<Wall>>, gi: nat, gj: nat)
    requires SeededInOrder(groups, walls)
    requires gi < gj < |groups|
    ensures FirstFresh(walls, IdSet(Flatten(groups[..gi]))).Some?
    ensures FirstFresh(walls, IdSet(Flatten(groups[..gj]))).Some?
    ensures FirstFresh(walls, IdSet(Flatten(groups[..gi]))).value
            < FirstFresh(walls, IdSet(Flatten(groups[..gj]))).value
  {
    assert SeededAt(groups, walls, gi) && SeededAt(groups, walls, gj);
    var seenI := IdSet(Flatten(groups[..gi]));
    var seenJ := IdSet(Flatten(groups[..gj]));
    assert seenI <= seenJ by {
      forall id | id in seenI ensures id in seenJ {
        var g, w := GroupOf(groups, gi, id);
        assert groups[..gi][g] == groups[g];
        InFlattenPrefix(groups, gj, g);
        InIdSet(groups[g], w);
      }
    }
    InFlattenPrefix(groups, gj, gi);
    InIdSet(groups[gi], groups[gi][0]);
  }
}

=== FILE: wrappers.dfy ===
/** Option and Result datatypes used for the scripts' None values and their
    (None, message) error returns. */
module Wrappers {

  datatype Option<+T> = None | Some(value: T) {

    /** The wrapped value, or `default` when there is none. */
    function GetOr(default: T): T {
      match this
      case Some(v) => v
      case None => default
    }
  }

  datatype Result<+R, +E> = Success(value: R) | Failure(error: E)
}
